=== FILE: README.md ===
# After-hours extreme-move fade bot — a Dafny model

This project models the decision core of a bot that trades US equities after hours. It also proves properties of that model.

- **Anchor.** At 4:00 PM the bot stores each watchlist symbol's close.
- **Monitor and enter.** From 4:05 PM to 8:00 PM it scans for moves of at least 7% away from that close. It fades each one at once: a long after a fall, or a short after a rise (never a short on a Friday). Each trade is sized by a per-trade risk budget and, for longs, by an even share of the cash over the free slots. At most three positions are open at a time.
- **Manage overnight.** It checks a 5% hard stop first, then a liquidity-gated 2.5% profit ceiling.
- **Exit.** At the 9:30 AM open it closes everything that is left.
- **Performance.** The session's closed trades are folded into a running performance ledger.

## Modules

- **`Wrappers`**: `Option`.
- **`Config`**: the numeric constants of `bot/config.py`.
- **`Dict`**: an insertion-ordered map, the model of a Python `dict`. Key order matters: the scan spends slots and cash in anchor order, and the manage and exit sweeps close and log in position order.
- **`Clock`**: an instant is a day index plus a second of the day. Day 0 is a Monday, so the weekday is `day % 7`. This module holds:
  - `time_reached`, `sleep_until`, `is_past_entry_cutoff`, `is_exit_time`, `is_session_over` and `_get_trigger_window`;
  - the weekend test of `phase_manage`;
  - `_next_weekday_target`.
- **`Strategies`**: the pure signal engine of `bot/strategies.py`:
  - the entry signal;
  - position sizing;
  - the direction-normalised P&L;
  - the hard stop, the profit ceiling and the combined overnight decision;
  - the morning exit;
  - the per-trade metrics.
- **`StateManager`**: the session document (`DEFAULT_STATE` shape) and the capped trade history (`log_trade`). It also has the excursion tracker (`update_excursions`) and the closed-trade record.
- **`Performance`**: the ledger (`DEFAULT_PERFORMANCE` shape) and `update_performance_after_session`. The per-trade loop is a fold. Its counters, sums, streak and running means are proved equal to independent reference definitions. A ledger invariant is proved to hold from the default record on and to survive every session.
- **`Monitor`**: `phase_anchor` and `phase_monitor_and_enter`. One scan is a fold over the anchored symbols. The polling loop runs until 8:00 PM.
- **`Manage`**:
  - `run_manage_cycle`, a fold over the positions held;
  - the overnight loop and the weekend skip of `phase_manage`;
  - the closing helpers shared with the exit.
- **`Session`**:
  - the morning sweep of `phase_exit`;
  - the session-trade collection;
  - `run_session`, the phase order plus the `finally` block and the ledger update.

The broker, the price feed and the clock are inputs:
- A `Poll` carries one scan's quotes, the set of symbols whose orders the broker accepted, and the instant the loop wakes next.
- A `ManageTick` carries one cycle's snapshots and the next wake-up.
- Running out of polls or ticks before a phase ends is how the model represents an interrupted session. The `finally` block and the ledger update still run.

## Model

| member | source | states |
|---|---|---|
| Clock.TimeReachedIsClockOrder | bot/main.py:64-67 | the lexicographic (hour, minute) test holds exactly when the second of the day is at or past hour:minute:00 |
| Clock.SleepUntil | bot/main.py:128-134 | when hour:minute has already been reached the call returns at once; otherwise it wakes the same day at exactly hour:minute:00 |
| Clock.IsExitTime | bot/main.py:80-93 | true exactly on a weekday between 9:30:00 and 9:40:00 inclusive (false from 3 PM on and at weekends) |
| Clock.IsSessionOver | bot/main.py:96-106 | true exactly on a weekday from 9:40:00 up to 3 PM, with the minute overflow carried into the hour |
| Clock.TriggerWindow | bot/main.py:192-194 | the early ("4-6") window holds exactly before 6:00 PM |
| Clock.SkipWeekend | bot/main.py:122-124 | the first Monday-to-Friday day at or after the given one; no weekday is skipped |
| Clock.NextWeekdayTarget | bot/main.py:114-125 | a weekday instant at hour:minute:00, strictly after now, and no earlier weekday slot at that time is strictly after now |
| Clock.SaturdaySkipsToMonday | bot/main.py:122-124 | from a Saturday the weekend skip lands two days later |
| Clock.FridayNightTargetIsMonday | bot/main.py:137-139 | on a Friday past the target time the next target is the Monday three days later |
| Strategies.EvaluateEntrySignal | bot/strategies.py:27-63 | enter iff a direction is given; invalid prices and a full book are rejected first; long iff the fall reaches the threshold, short iff the rise does and it is not Friday; never a short on Friday |
| Strategies.MoveThresholdAsPrice | bot/strategies.py:50-63 | for a positive anchor the fractional thresholds are the price levels anchor·(1 ∓ 0.07) |
| Strategies.FadeDownExample | bot/strategies.py:27-63 | anchor 100, price 93 on a weekday with no positions: enter long |
| Strategies.FridayRiseIsNotFaded | bot/strategies.py:52-57 | a 7.5% rise on a Friday is not entered |
| Strategies.ComputePositionSize | bot/strategies.py:70-117 | non-negative; 0 when any input is non-positive; a positive size meets the risk budget and, for longs, the per-slot cash; one share more breaks a constraint |
| Strategies.SizeIsLargestFit | bot/strategies.py:96-117 | every quantity meeting the constraints is at most the computed size |
| Strategies.FitsDownwardClosed | bot/strategies.py:96-117 | fewer shares fit whenever more do |
| Strategies.FitsAtLowerPrice | bot/strategies.py:96-117 | what fits at a price fits at any lower positive price |
| Strategies.SizeMonotoneInEquity | bot/strategies.py:96-117 | more equity never gives fewer shares |
| Strategies.SizeAntitoneInPrice | bot/strategies.py:96-117 | a higher entry price never gives more shares |
| Strategies.SizingExample | bot/strategies.py:70-117 | equity 100000, price 50, long, cash 30000 over 3 slots gives 200 shares |
| Strategies.Pnl | bot/strategies.py:124-146 | the P&L times the entry price is the signed move (up for a long, down for a short) |
| Strategies.PnlDirectionsOpposite | bot/strategies.py:124-146 | a long and a short from the same entry have opposite P&L |
| Strategies.PnlLevelAsPrice | bot/strategies.py:124-146 | for a positive entry, a P&L bound is a price bound in the position's direction |
| Strategies.CheckHardStop | bot/strategies.py:124-146 | fires iff the entry is positive and the position lost at least 5%; no entry gives no stop and P&L 0 |
| Strategies.HardStopExample | bot/strategies.py:124-146 | a long from 50 at 47.40 is stopped out |
| Strategies.CheckProfitCeiling | bot/strategies.py:149-191 | fires iff the gain is at least 2.5% and the spread (when known) is at most 0.4% and the recent volume (when known) is at least 100 |
| Strategies.WideSpreadDefersProfit | bot/strategies.py:149-191 | a long from 50 at 51.30 is held with a 0.6% spread and exits with no liquidity data |
| Strategies.EvaluateOvernightManagement | bot/strategies.py:194-213 | exits iff the stop or the ceiling fires, always with the same P&L; a firing stop is returned as is, and otherwise the ceiling's result, reason included, is returned as is |
| Strategies.CheckOrderIrrelevant | bot/strategies.py:124-213 | on one price the stop and the ceiling never both fire, so consulting the ceiling before the stop gives the same decision |
| Strategies.EvaluateMorningExit | bot/strategies.py:220-235 | close iff the entry is positive, whatever the P&L; otherwise no action with P&L 0 |
| Strategies.ComputeTradeMetrics | bot/strategies.py:242-270 | net = raw − 0.5% friction; raw is the direction-normalised P&L, 0 for a zero entry; the anchor move is 0 for a zero anchor; absent excursions stay absent; inputs are echoed |
| Strategies.MetricsAgreeWithMorningExit | bot/strategies.py:220-270 | the metrics of a closeout report the P&L the morning decision saw |
| StateManager.KeepRecent | bot/state_manager.py:69-71 | keeps the last `cap` elements, or all when fewer |
| StateManager.KeepRecentAppend | bot/state_manager.py:67-71 | trimming after each append equals trimming once at the end |
| StateManager.LogTrade | bot/state_manager.py:56-72 | the record becomes the last one; earlier records keep their order and only the oldest are dropped; the length is min(old + 1, 500) |
| StateManager.LogAllConcat | bot/state_manager.py:56-72 | logging two runs of records in turn is logging their concatenation |
| StateManager.LogAllIsOneTrim | bot/state_manager.py:56-72 | logging records one at a time equals appending them all and keeping the last 500 |
| StateManager.UpdateExcursions | bot/state_manager.py:75-80 | the favourable excursion never falls and the adverse never rises; afterwards adverse ≤ pnl ≤ favourable; each is the old value or the pnl; nothing else changes |
| StateManager.TrackExcursionsAreExtremes | bot/state_manager.py:75-80 | over any run of observations the excursions are the extremes of the start values and all observations |
| Performance.Classify | bot/state_manager.py:227-236 | win iff net > 0.0001, loss iff net < −0.0001, otherwise breakeven |
| Performance.DollarPnl | bot/state_manager.py:214-218 | (exit − entry)·qty for a long, (entry − exit)·qty for anything else |
| Performance.StreakAfter | bot/state_manager.py:227-236 | a win gives max(s, 0) + 1, a loss min(s, 0) − 1, a breakeven leaves the streak |
| Performance.IncrementalMean | bot/state_manager.py:257-263 | the updated mean times n is the old mean times n − 1 plus the new value |
| Performance.RecordTrades | bot/state_manager.py:205-263 | the loop's counters (wins, losses, breakeven, longs, shorts, long wins, short wins), sums, streak and running means equal the reference counts, sums, streak and means over the trades; untouched fields stay |
| Performance.BestAndWorstTrade | bot/state_manager.py:248-255 | the best trade never falls, the worst never rises, and together they bound every trade of the session; each is either the old value or attained by a session trade whose symbol it records |
| Performance.RunningMeanIsMean | bot/state_manager.py:257-263 | with every excursion known, the final mean times the final trade count is the old mean times the old count plus the new excursions (a product written as repeated addition, shown equal to `*` by `TimesIsProduct`) |
| Performance.AppendSessionLog | bot/state_manager.py:278-287 | the entry becomes the last; at most 30 entries are kept, the most recent ones |
| Performance.AverageOr | bot/state_manager.py:273-276 | the average times the count is the sum when the count is positive; otherwise the old value stays |
| Performance.TradedEntry | bot/state_manager.py:278-285 | the session entry carries the session's day, its trade count, its P&L sums and the symbol of each trade in closing order |
| Performance.CloseSession | bot/state_manager.py:265-287 | the streak extremes absorb the closing streak, the win and loss sums absorb the session's, the averages are recomputed from them, and the session is logged; nothing else changes |
| Performance.UpdateAfterSession | bot/state_manager.py:171-296 | counts one more session; the log grows by one entry with the session's trade count, keeping the most recent 30 |
| Performance.EmptySession | bot/state_manager.py:182-196 | an empty session adds one no-trade session and a zero log entry and changes nothing else |
| Performance.TradedSessionCounts | bot/state_manager.py:198-246 | a session of n trades adds one traded session, n trades, and splits them into wins/losses/breakeven and long/short by their outcomes and directions |
| Performance.TradedSessionStreak | bot/state_manager.py:226-267 | the streak moves by the session's outcomes; the best and worst streak are compared with the closing streak only |
| Performance.TradedSessionSums | bot/state_manager.py:200-271 | the net, dollar, win and loss sums grow by the session's sums |
| Performance.TradedSessionAverages | bot/state_manager.py:269-276 | average win and loss are the running sums over their counts, kept when the count is zero |
| Performance.OutcomesPartition | bot/state_manager.py:226-246 | the win, loss and breakeven counts of any trades add up to their number, as do long and short |
| Performance.WinningRunStreak | bot/state_manager.py:227-234 | k wins at the end of the trades leave a streak of at least k |
| Performance.LosingRunStreak | bot/state_manager.py:227-234 | k losses at the end of the trades leave a streak of at most −k |
| Performance.DefaultLedgerConsistent | bot/state_manager.py:106-147 | the default record satisfies the ledger invariant |
| Performance.TradedCountsPreserved | bot/state_manager.py:182-246 | a traded session keeps the counts partitioned |
| Performance.TradedExtremesPreserved | bot/state_manager.py:248-267 | a traded session keeps worst streak ≤ current ≤ best and worst trade ≤ 0 ≤ best trade |
| Performance.AveragesPreserved | bot/state_manager.py:269-276 | every session keeps each average equal to its sum over its count |
| Performance.LedgerPreserved | bot/state_manager.py:171-296 | every session, empty or not, keeps the ledger invariant |
| Monitor.QuoteOf | bot/main.py:251-253 | a quote is usable iff present and non-zero |
| Monitor.PositiveFirstSnoc | bot/main.py:166-174 | one more watchlist symbol is added last to the reference key order iff it has a positive close and is not already there |
| Monitor.PhaseAnchor | bot/main.py:166-174 | anchors exactly the watchlist symbols with a positive close, each at that close; the keys are those symbols in order of first occurrence in the watchlist |
| Monitor.PrefilterAgreesWithSignal | bot/main.py:259-267 | a move under the threshold is one the entry signal rejects anyway |
| Monitor.ConsiderSymbol | bot/main.py:250-294 | an entry is attempted iff the quote is positive, the symbol is not held, a slot is free, the signal enters and the size is positive; it carries the signal's direction and the size |
| Monitor.EntryFadesTheMove | bot/main.py:259-294 | an attempted long follows a fall of at least 7%, a short a rise of at least 7% and never on a Friday |
| Monitor.CashAfter | bot/main.py:322-324 | a long leaves max(cash − qty·price, 0), below the old cash; a short leaves the cash unchanged |
| Monitor.ConsideredIsAttemptable | bot/main.py:250-294 | every attempted entry has a positive size that fits the slot cash and a price at the quoted level |
| Monitor.ApplyEntry | bot/main.py:300-332 | live: an accepted order adds the position and logs one ENTRY; a rejected one changes nothing; dry run: counter and cash move but nothing is recorded |
| Monitor.ScanSymbol | bot/main.py:250-332 | one symbol: never re-enters a held symbol, never exceeds three positions, cash never grows |
| Monitor.ScanSymbols | bot/main.py:247-332 | existing positions are untouched; new keys are appended in entry order; the live counter grows by the number of entries and stays ≤ 3; cash never grows; history is the old one with the entries logged; a dry run records nothing |
| Monitor.ScanOpensFadingPositions | bot/main.py:300-317 | each new position was accepted, is anchored, fades its move and carries the scan's time and window |
| Monitor.ScanRecordsMatchPositions | bot/main.py:307-319 | each ENTRY record describes the position it opened (symbol, size, price, direction) at the scan's time |
| Monitor.ScanIteration | bot/main.py:236-332 | with the counter starting at the number held, a live scan keeps at most three positions; a dry run records nothing |
| Monitor.ScanKeepsPositionsOpened | bot/main.py:300-317 | if every held position was opened by a scan against its anchor, that stays so |
| Monitor.MonitorLoop | bot/main.py:235-339 | ends only once 8:00 PM is reached; existing positions kept; the bound of three kept live; a dry run changes nothing |
| Monitor.MonitorEndsNoEarlier | bot/main.py:235-339 | the loop hands over no earlier than its start and its polls |
| Monitor.PhaseMonitor | bot/main.py:213-235 | waits for 4:05 PM; with no anchors or no account data it stops there; otherwise the loop with the Friday flag of that day |
| Monitor.PhaseMonitorEndsNoEarlier | bot/main.py:213-239 | the phase hands over no earlier than its start and its polls |
| Manage.PriceOf | bot/main.py:365-367 | a snapshot price is usable iff present and non-zero |
| Manage.CloseTrade | bot/main.py:400-410 | the metrics of a closed position: its P&L at the exit price, friction, entry, direction, anchor and excursions, plus symbol, size, window, reason and time |
| Manage.ManageSymbol | bot/main.py:364-417 | without a price nothing changes; otherwise the excursions widen, and the position is closed (removed, recorded, logged) iff the check fires outside a dry run |
| Manage.ManageSymbols | bot/main.py:364-419 | unvisited positions untouched; every remaining one only widened its excursions; positions + closed trades = positions before; each close logged in order; a dry run closes nothing |
| Manage.CycleDropsExactlyFired | bot/main.py:385-413 | a visited position is gone after the cycle iff its check fired and the run is live; removal does not depend on the broker |
| Manage.CycleClosesVisited | bot/main.py:399-412 | each closed trade is a management exit of a visited symbol at the cycle's time |
| Manage.RunManageCycle | bot/main.py:353-419 | the cycle over every position held at its start, with the two statements above and the history logged in order |
| Manage.ManageLoop | bot/main.py:437-466 | only positions and history change; positions + closed = positions before; a dry run closes nothing; hands over only in or after the exit window or parked at 9:25 on a weekday; on a weekend it closes nothing and parks at the next weekday 9:25 |
| Manage.ManageLoopAdvances | bot/main.py:437-466 | with a forward-moving clock the loop never hands over before it started |
| Manage.ManageLoopEndsNoEarlier | bot/main.py:437-466 | the hand-over comes no earlier than the start and the ticks |
| Manage.ManageLoopClosesNoEarlier | bot/main.py:437-466 | every trade closed comes no earlier than the start and the ticks |
| Manage.PhaseManage | bot/main.py:422-466 | a weekend or Friday-8-PM start changes nothing, closes nothing and parks at `NextWeekdayTarget` 9:25, the first weekday 9:25 after the start (Monday, from Friday night); otherwise the loop |
| Manage.PhaseManageNoEarlier | bot/main.py:422-466 | the phase hands over, and closes trades, no earlier than its start and its ticks |
| Session.ExitWakeAsWritten | bot/main.py:114-125 | the exit's wake-up as written: from inside or after the exit window it is always a later day |
| Session.ThursdaySessionExitsOnMonday | bot/main.py:439-442 | Friday 9:31 AM is exit time, yet the exit as written waits for Monday 9:30 AM |
| Session.ExitWake | bot/main.py:483-485 | the earliest exit-window instant at or after now; now itself when already inside the window |
| Session.ExitWindowFollows | bot/main.py:114-125 | an exit-window instant after a time outside it is a later weekday 9:30 slot |
| Session.ExitSymbol | bot/main.py:493-531 | live: the position is always removed; it gets metrics and an EXIT record iff its entry price is positive (a missing quote counts as 0); dry run: nothing |
| Session.ExitSymbols | bot/main.py:490-533 | live: every visited position is gone and nothing else touched; history is the old one with the closeouts logged in order; dry run: nothing |
| Session.SweepRecordsCloseouts | bot/main.py:506-525 | each closeout is the close of a visited position at its morning price |
| Session.SweepClosesEveryPosition | bot/main.py:506-525 | live with positive entries, one closeout per position, the i-th closing the i-th position in position order |
| Session.PhaseExit | bot/main.py:473-534 | nothing held: nothing happens; live: no position is left; with valid positions the i-th closeout closes the i-th position, in position order; dry run: nothing changes |
| Session.CollectSessionTradesAsWritten | bot/main.py:541-552 | the records whose close falls on the session's start date |
| Session.CollectSessionTrades | bot/main.py:541-552 | the records closed at or after the session's start |
| Session.NextDayCloseoutMissed | bot/main.py:551-552 | a trade closed on a later day than the start is missed by the date filter and reported by the corrected one |
| Session.CloseDaySessionCountsIt | bot/main.py:551-552 | the date filter of a session started on the day of a close reports that close |
| Session.ExitIsOnALaterDay | bot/main.py:473-485 | from an afternoon start the exit window is always on a later day |
| Session.OpenedAreValid | bot/main.py:307-317 | positions opened by the scan have positive prices and sizes |
| Session.FinishSession | bot/main.py:676-684 | the session is marked inactive, the closes are appended to the metrics file, and the ledger is updated with the collected trades |
| Session.OpenSession | bot/main.py:653-658 | active, stamped with the start and its day, no positions or anchors, history kept |
| Session.SessionPhases | bot/main.py:652-673 | the session is opened and stamped; anchors exactly the positively quoted watchlist symbols; live: at most three positions, none if the exit phase ran; dry run: no trades and history unchanged |
| Session.PhasesCloseNoEarlier | bot/main.py:661-673 | with a forward clock the phases close no trade before the session started |
| Session.RunSession | bot/main.py:630-692 | inactive afterwards; anchors exactly the positively quoted watchlist symbols; live: at most three positions, none if all phases ran; dry run: no trades and history unchanged |
| Session.SessionClosesNoEarlier | bot/main.py:630-692 | with a forward clock every trade a session closes is closed no earlier than its start |
| Session.CollectOwnTrades | bot/main.py:541-552 | past records all before the start and the session's all after: the collection is exactly the session's trades |
| Session.SessionReportsItsOwnTrades | bot/main.py:682-684 | the ledger update sees exactly the trades the session closed, in order |
| Session.SessionKeepsLedgerConsistent | bot/main.py:682-684 | every session keeps the ledger invariant and counts one more session |

## Left out

- Rounding is not modelled. `round(x, 2)` and `round(x, 4)` in the metrics and the ledger are left out, and values are kept exact as `real`. Python float arithmetic is replaced by exact rationals.
- Exceptions inside loops and phases are not modelled, so a failed iteration is not represented. The `except` branch of `run_session` appears only as an interrupted session: the polls or ticks run out.
- JSON persistence is not modelled: `load_state`, `save_state`, `load_performance`, `save_performance` and `save_trade_metrics`. The documents are plain values passed in and out. The metrics file is a sequence of closed-trade records, and `last_run` / `last_updated` are dropped.
- Logging, `show_status`, `print_performance_summary`, `run_once`, the command line and the `seen_extreme` set are left out. None of them affects the state.
- Broker and data calls are inputs. `fetch_live_prices` and `fetch_snapshots` are quote maps, an order is accepted or rejected per symbol, and `close_position` and the exit orders are not modelled (the source ignores their results).
- The watchlist and the account figures are inputs rather than configuration.
- `datetime.now()` and `time.sleep` are replaced by explicit instants with one-second resolution. The polling intervals (60 s and 300 s) are given as the next wake-up in each poll or tick. The 10 s and 5 s settle pauses after 4:00 PM and 9:30 AM are dropped, so quotes are taken at the wake-up instant.
- Trade records keep their reason as a datatype carrying the numbers rather than as a formatted string. Timestamps are instants.
- Missing dictionary keys of hand-edited state files (`pos.get(..., 0)`, `"unknown"` trigger window) do not arise: every position is built by the scan with all fields.
- Manage.ManageLoopAdvances: states "never before the start" only for a clock that moves forward, because the ticks are free inputs.
- Session.PhaseExit: models the corrected exit, which wakes at `Session.ExitWake` (the first exit-window instant at or after now) rather than at the next weekday 9:30 strictly after now as bot/main.py:485 does; the code as written is `Session.ExitWakeAsWritten` (see Findings).
- Session.FinishSession: reports the trades chosen by the corrected `Session.CollectSessionTrades` (closed at or after the start) rather than by the start-date filter of bot/main.py:551-552; the code as written is `Session.CollectSessionTradesAsWritten` (see Findings).
- Session.SessionPhases: runs the corrected `Session.PhaseExit`, so it does not promise what the as-written exit would do after a Monday-to-Thursday session.
- Session.RunSession: composes the corrected `Session.PhaseExit` and `Session.FinishSession` (see the two lines above); it also states "no positions left" only when all four phases ran (`completed`), because an interrupted session keeps what it holds.

## Findings

| source | as written | input that shows it | evidently intended | confidence | as-written member | corrected member |
|---|---|---|---|---|---|---|
| bot/main.py:439-442, 485 | the manage loop stops only once 9:30 has come, then the exit sleeps until the next weekday 9:30 strictly after now | a Thursday session: the manage loop stops on Friday at 9:31 AM and the exit waits until Monday 9:30 AM, holding the positions over a weekend with no stop checks | close at the first exit-window instant at or after the hand-over, at once when inside the window | high; not executed | Session.ExitWakeAsWritten | Session.ExitWake |
| bot/main.py:551-552 | the session's trades are the metrics records whose `closed_at` starts with the session's start date | any session, since its morning closeouts always fall on a later date than its start; for example a Friday session whose positions are closed at Monday 9:30 AM: the closeouts are not in Friday's ledger update, and are counted instead by a session started on that Monday, whose date they carry | report the trades closed during this session, i.e. since it started | medium; not executed | Session.CollectSessionTradesAsWritten | Session.CollectSessionTrades |

The first row applies Monday to Thursday. From a Friday night, `phase_manage` parks until Monday 9:25 AM. The exit then finds 9:30 still ahead and closes the same morning, so Friday sessions are not affected. The model's `PhaseExit` and `RunSession` use the corrected members.

=== FILE: clock.dfy ===
/**
 * The wall clock of bot/main.py, made an explicit value. An instant is a day index
 * and a second of that day; day 0 is a Monday, so the weekday is `day % 7`
 * (Monday = 0 ... Sunday = 6, as Python's `datetime.weekday()`).
 */
module Clock {
  import opened Config

  const SecondsPerDay: int := 86400

  type SecondOfDay = s: int | 0 <= s < 86400

  datatype Instant = Instant(day: int, second: SecondOfDay)

  function Hour(t: Instant): int { t.second / 3600 }

  function Minute(t: Instant): int { (t.second / 60) % 60 }

  /** Seconds since the start of day 0: the order in which instants happen. */
  function Absolute(t: Instant): int { t.day * SecondsPerDay + t.second }

  /** Second of the day at which the wall-clock time hour:minute:00 falls. */
  function ClockSecond(hour: int, minute: int): int { hour * 3600 + minute * 60 }

  predicate IsWeekdayIndex(day: int) { day % 7 < 5 }

  predicate IsWeekday(t: Instant) { IsWeekdayIndex(t.day) }

  predicate IsFriday(t: Instant) { t.day % 7 == 4 }

  /** `time_reached(hour, minute)`: the current (hour, minute) is at or past the given one. */
  predicate TimeReached(t: Instant, hour: int, minute: int) {
    Hour(t) > hour || (Hour(t) == hour && Minute(t) >= minute)
  }

  lemma DecomposeSecond(s: SecondOfDay)
    ensures s == 3600 * (s / 3600) + 60 * ((s / 60) % 60) + s % 60
    ensures 0 <= (s / 60) % 60 < 60 && 0 <= s % 60 < 60
  {
    var q := s / 60;
    assert s == 60 * q + s % 60;
    assert q == 60 * (q / 60) + q % 60;
    assert q / 60 == s / 3600;
  }

  /** The lexicographic (hour, minute) comparison is the order of the clock. */
  lemma {:induction false} TimeReachedIsClockOrder(t: Instant, hour: int, minute: int)
    requires 0 <= minute < 60
    ensures TimeReached(t, hour, minute) <==> t.second >= ClockSecond(hour, minute)
  {
    DecomposeSecond(t.second);
    var h, m := Hour(t), Minute(t);
    if h > hour {
      assert t.second >= 3600 * h >= 3600 * (hour + 1);
    } else if h < hour {
      assert t.second < 3600 * (h + 1) <= 3600 * hour;
    }
  }

  /**
   * `sleep_until(hour, minute)`: wake at hour:minute:00 today, or at once when that
   * time has already come.
   */
  function SleepUntil(t: Instant, hour: int, minute: int): (r: Instant)
    requires 0 <= hour < 24 && 0 <= minute < 60
    ensures r.day == t.day && Absolute(r) >= Absolute(t)
    ensures TimeReached(r, hour, minute)
    ensures TimeReached(t, hour, minute) ==> r == t
    ensures !TimeReached(t, hour, minute) ==> r == Instant(t.day, ClockSecond(hour, minute))
  {
    TimeReachedIsClockOrder(t, hour, minute);
    var target := ClockSecond(hour, minute);
    var r := if t.second < target then Instant(t.day, target) else t;
    TimeReachedIsClockOrder(r, hour, minute);
    r
  }

  /** `is_past_entry_cutoff()`: 8:00 PM reached. */
  predicate IsPastEntryCutoff(t: Instant) {
    TimeReached(t, EntryCutoffHour, EntryCutoffMinute)
  }

  const ExitWindowStart: int := ClockSecond(ExitHour, ExitMinute)
  const ExitWindowEnd: int := ClockSecond(ExitHour, ExitMinute + ExitWindowMinutes)

  /**
   * `is_exit_time()`: a weekday morning between 9:30:00 and 9:40:00 inclusive.
   * (The source replaces hour, minute and second but keeps the microsecond, so
   * sub-second parts cancel in both comparisons.)
   */
  predicate IsExitTime(t: Instant)
    ensures IsExitTime(t) <==> IsWeekday(t) && 34200 <= t.second <= 34800
  {
    if Hour(t) >= BotStartHour then false
    else if !IsWeekday(t) then false
    else ExitWindowStart <= t.second <= ExitWindowEnd
  }

  /**
   * `is_session_over()`: past the end of the exit window (9:40) on a weekday
   * morning; never in the afternoon/evening session or on a weekend.
   */
  predicate IsSessionOver(t: Instant)
    ensures IsSessionOver(t) <==> IsWeekday(t) && 34800 <= t.second < 54000
  {
    if Hour(t) >= BotStartHour then false
    else if !IsWeekday(t) then false
    else
      var endMinute := ExitMinute + ExitWindowMinutes;
      var endHour := ExitHour + endMinute / 60;
      TimeReachedIsClockOrder(t, endHour, endMinute % 60);
      TimeReached(t, endHour, endMinute % 60)
  }

  datatype Window = EarlyWindow | LateWindow  // "4-6" and "6-8"

  /** `_get_trigger_window()`: "4-6" before 6:00 PM, "6-8" from then on. */
  function TriggerWindow(t: Instant): (w: Window)
    ensures w == EarlyWindow <==> t.second < ClockSecond(LateWindowHour, 0)
  {
    if Hour(t) < LateWindowHour then EarlyWindow else LateWindow
  }

  /**
   * `phase_manage`'s opening test: on a weekend, or on a Friday at or after 8:00 PM,
   * the overnight loop is skipped and the bot sleeps until Monday.
   */
  predicate ManageSkipsToMonday(t: Instant) {
    !IsWeekday(t) || (IsFriday(t) && TimeReached(t, 20, 0))
  }

  /** The first weekday index at or after `day` (the `while weekday() >= 5` loop). */
  function SkipWeekend(day: int): (r: int)
    ensures r >= day && IsWeekdayIndex(r)
    ensures forall d :: day <= d < r ==> !IsWeekdayIndex(d)
    decreases if day % 7 >= 5 then 7 - day % 7 else 0
  {
    if day % 7 >= 5 then SkipWeekend(day + 1) else day
  }

  /** Day `day` at second `second` is a weekday instant strictly after `now`. */
  predicate IsLaterWeekdayAt(now: Instant, day: int, second: int) {
    IsWeekdayIndex(day) && day * SecondsPerDay + second > Absolute(now)
  }

  /**
   * `_next_weekday_target(hour, minute)`: the earliest instant strictly after `now`
   * that falls at hour:minute:00 on a Monday-to-Friday.
   */
  function NextWeekdayTarget(now: Instant, hour: int, minute: int): (r: Instant)
    requires 0 <= hour < 24 && 0 <= minute < 60
    ensures r.second == ClockSecond(hour, minute)
    ensures IsWeekday(r)
    ensures Absolute(r) > Absolute(now)
    ensures forall d :: IsLaterWeekdayAt(now, d, r.second) ==> r.day <= d
  {
    var target := ClockSecond(hour, minute);
    var first := if target <= now.second then now.day + 1 else now.day;
    var r := Instant(SkipWeekend(first), target);
    forall d | IsLaterWeekdayAt(now, d, target) ensures r.day <= d {
      if d < first {
        assert false;
      }
    }
    r
  }

  lemma SaturdaySkipsToMonday(day: int)
    requires day % 7 == 5
    ensures SkipWeekend(day) == day + 2
  {
    assert (day + 1) % 7 == 6 && (day + 2) % 7 == 0;
    assert SkipWeekend(day + 2) == day + 2;
    assert SkipWeekend(day + 1) == day + 2;
  }

  /** A Friday evening past the target time lands on the following Monday. */
  lemma FridayNightTargetIsMonday(now: Instant, hour: int, minute: int)
    requires 0 <= hour < 24 && 0 <= minute < 60
    requires IsFriday(now) && now.second >= ClockSecond(hour, minute)
    ensures NextWeekdayTarget(now, hour, minute).day == now.day + 3
  {
    var d := now.day;
    assert (d + 1) % 7 == 5 by {
      assert d == 7 * (d / 7) + 4;
    }
    SaturdaySkipsToMonday(d + 1);
  }
}

=== FILE: config.dfy ===
/**
 * Numeric configuration of the after-hours fade bot (bot/config.py).
 * All times are US Eastern wall-clock; fractions are exact rationals.
 */
module Config {

  // Schedule
  const BotStartHour: int := 15
  const AnchorHour: int := 16
  const AnchorMinute: int := 0
  const MonitorStartHour: int := 16
  const MonitorStartMinute: int := 5
  const EntryCutoffHour: int := 20
  const EntryCutoffMinute: int := 0
  /** Boundary between the "4-6" and "6-8" trigger windows. */
  const LateWindowHour: int := 18
  const ExitHour: int := 9
  const ExitMinute: int := 30
  const ExitWindowMinutes: int := 10

  // Strategy parameters
  const ExtremeMovePct: real := 0.07
  const HardStopPct: real := 0.05
  const ProfitCeilingPct: real := 0.025
  const ProfitExitMaxSpreadPct: real := 0.004
  const ProfitExitMinVolume: int := 100

  // Sizing and risk
  const RiskPerTradePct: real := 0.02
  const MaxConcurrentPositions: int := 3
  const AssumedFrictionPct: real := 0.005
}

=== FILE: dict.dfy ===
/**
 * An insertion-ordered dictionary, the model of a Python `dict`: a map plus the
 * order in which its keys were first inserted. Overwriting a key keeps its place;
 * deleting it removes it from the order.
 */
module Dict {

  predicate Distinct<K(==)>(s: seq<K>) {
    forall i, j | 0 <= i < j < |s| :: s[i] != s[j]
  }

  datatype DictRep<K(==), V> = DictRep(keys: seq<K>, entries: map<K, V>)

  predicate Valid<K(==), V>(d: DictRep<K, V>) {
    && Distinct(d.keys)
    && (forall k | k in d.keys :: k in d.entries)
    && (forall k | k in d.entries :: k in d.keys)
  }

  type Dict<K(==), V> = d: DictRep<K, V> | Valid(d) witness DictRep([], map[])

  function Empty<K(==), V>(): (r: Dict<K, V>)
    ensures r.keys == [] && r.entries == map[]
  {
    DictRep([], map[])
  }

  /** Number of keys, Python's `len(d)`. */
  function Size<K(==), V>(d: Dict<K, V>): nat {
    |d.keys|
  }

  /** `s` without the occurrences of `k`, order kept. */
  function Without<K(==)>(s: seq<K>, k: K): (r: seq<K>)
    ensures forall x | x in r :: x in s && x != k
    ensures forall x | x in s && x != k :: x in r
    ensures Distinct(s) ==> Distinct(r)
    ensures Distinct(s) && k in s ==> |r| == |s| - 1
    ensures k !in s ==> r == s
    ensures |r| <= |s|
  {
    if |s| == 0 then []
    else if s[0] == k then Without(s[1..], k)
    else
      var rest := Without(s[1..], k);
      assert Distinct(s) ==> s[0] !in s[1..] && Distinct(s[1..]);
      assert Distinct(s) ==> s[0] !in rest;
      [s[0]] + rest
  }

  /** `d[k] = v`: a new key goes last, an existing key keeps its place. */
  function Put<K(==), V>(d: Dict<K, V>, k: K, v: V): (r: Dict<K, V>)
    ensures r.entries == d.entries[k := v]
    ensures k in d.entries ==> r.keys == d.keys
    ensures k !in d.entries ==> r.keys == d.keys + [k]
  {
    if k in d.entries then
      DictRep(d.keys, d.entries[k := v])
    else
      assert Distinct(d.keys + [k]);
      DictRep(d.keys + [k], d.entries[k := v])
  }

  /** `del d[k]` (a no-op when `k` is absent). */
  function Remove<K(==), V>(d: Dict<K, V>, k: K): (r: Dict<K, V>)
    ensures r.entries == d.entries - {k}
    ensures r.keys == Without(d.keys, k)
    ensures k in d.entries ==> Size(r) == Size(d) - 1
    ensures k !in d.entries ==> r == d
  {
    RemoveValid(d, k);
    if k in d.entries then DictRep(Without(d.keys, k), d.entries - {k})
    else
      assert d.entries - {k} == d.entries;
      d
  }

  lemma RemoveValid<K, V>(d: Dict<K, V>, k: K)
    ensures Valid(DictRep(Without(d.keys, k), d.entries - {k}))
  {
    var keys := Without(d.keys, k);
    var entries := d.entries - {k};
    assert forall x | x in keys :: x in entries;
    assert forall x | x in entries :: x in keys;
  }
}

=== FILE: manage.dfy ===
/**
 * Phase 3 of bot/main.py: the overnight management cycle (`run_manage_cycle`) and
 * the loop that runs it every few minutes until the exit window (`phase_manage`).
 * The closing helpers are shared with the morning exit.
 */
module Manage {
  import opened Wrappers
  import opened Config
  import opened Dict
  import opened Clock
  import opened Strategies
  import opened StateManager

  /** One quote snapshot: last price, bid-ask spread and recent volume, each possibly missing. */
  datatype Snapshot = Snapshot(price: Option<real>, spreadPct: Option<real>, recentVolume: Option<int>)

  type Snapshots = map<Symbol, Snapshot>

  /** A usable price: a snapshot with a non-zero price (the source's `if not price`). */
  function PriceOf(snaps: Snapshots, s: Symbol): (r: Option<real>)
    ensures r.Some? <==> s in snaps && snaps[s].price.Some? && snaps[s].price.value != 0.0
    ensures r.Some? ==> r.value == snaps[s].price.value
  {
    if s in snaps && snaps[s].price.Some? && snaps[s].price.value != 0.0 then snaps[s].price else None
  }

  /** Every position has a positive entry price and size, as the scan opens them. */
  predicate PositionsValid(d: Dict<Symbol, Position>) {
    forall k | k in d.entries :: d.entries[k].entryPrice > 0.0 && d.entries[k].qty > 0
  }

  /** `q` is `p` with possibly widened excursions and nothing else changed. */
  predicate Evolved(p: Position, q: Position) {
    && q == p.(maxFavorablePnl := q.maxFavorablePnl, maxAdversePnl := q.maxAdversePnl)
    && q.maxFavorablePnl >= p.maxFavorablePnl && q.maxAdversePnl <= p.maxAdversePnl
  }

  /**
   * The metrics record of a position closed at `price`: the position's prices,
   * direction, anchor, entry spread and tracked excursions, no exit spread, plus the
   * keys the session adds.
   */
  function CloseTrade(s: Symbol, pos: Position, price: real, reason: ExitReason, at: Instant): (c: ClosedTrade)
    requires pos.entryPrice > 0.0
    ensures c.metrics.rawPnlPct == Pnl(pos.entryPrice, price, pos.direction)
    ensures c.metrics.netPnlPct == c.metrics.rawPnlPct - AssumedFrictionPct
    ensures c.metrics.entryPrice == pos.entryPrice && c.metrics.exitPrice == price
    ensures c.metrics.direction == pos.direction && c.metrics.anchorClose == pos.anchorClose
    ensures c.metrics.maxFavorableExcursion == Some(pos.maxFavorablePnl)
    ensures c.metrics.maxAdverseExcursion == Some(pos.maxAdversePnl)
    ensures c.symbol == s && c.qty == pos.qty && c.triggerWindow == pos.triggerWindow
    ensures c.exitReason == reason && c.closedAt == at
  {
    var m := ComputeTradeMetrics(pos.entryPrice, price, pos.direction, pos.anchorClose, pos.entrySpreadPct, 0.0,
                                 Some(pos.maxFavorablePnl), Some(pos.maxAdversePnl));
    ClosedTrade(m, s, pos.qty, pos.triggerWindow, reason, at)
  }

  /** The EXIT record logged with a closed trade. */
  function ExitRecord(c: ClosedTrade): TradeRecord {
    var reason := match c.exitReason
      case ManageExit(check) => ManageExitReason(check)
      case MorningCloseout => MorningCloseoutReason(SessionEndExit(c.metrics.rawPnlPct));
    TradeRecord(c.closedAt, ExitAction, c.symbol, c.qty, c.metrics.exitPrice, Some(c.metrics.direction), reason)
  }

  function ExitRecords(cs: seq<ClosedTrade>): (r: seq<TradeRecord>)
    ensures |r| == |cs| && forall i | 0 <= i < |cs| :: r[i] == ExitRecord(cs[i])
  {
    seq(|cs|, i requires 0 <= i < |cs| => ExitRecord(cs[i]))
  }

  lemma ExitRecordsConcat(a: seq<ClosedTrade>, b: seq<ClosedTrade>)
    ensures ExitRecords(a + b) == ExitRecords(a) + ExitRecords(b)
  {
  }

  /** Whether the overnight check closes the position held in `s` on these snapshots. */
  predicate Fires(snaps: Snapshots, s: Symbol, pos: Position) {
    var price := PriceOf(snaps, s);
    price.Some? && EvaluateOvernightManagement(pos.entryPrice, price.value, pos.direction,
                                               snaps[s].spreadPct, snaps[s].recentVolume).fire
  }

  /** The state of a management cycle: the session document and the trades closed so far. */
  datatype CycleState = CycleState(state: SessionState, closed: seq<ClosedTrade>)

  /**
   * One position of a cycle: without a price it is skipped; otherwise its
   * excursions are widened by the current P&L and, when the stop or the profit
   * ceiling fires outside a dry run, it is closed, its metrics recorded and the
   * exit logged.
   */
  function ManageSymbol(dryRun: bool, at: Instant, snaps: Snapshots, acc: CycleState, s: Symbol): (r: CycleState)
    requires s in acc.state.positions.entries && PositionsValid(acc.state.positions)
    ensures r.state == acc.state.(positions := r.state.positions, tradeHistory := r.state.tradeHistory)
    ensures PositionsValid(r.state.positions)
    ensures r.closed != acc.closed <==> !dryRun && Fires(snaps, s, acc.state.positions.entries[s])
    ensures r.closed == acc.closed ==>
              && r.state.tradeHistory == acc.state.tradeHistory
              && s in r.state.positions.entries
              && r.state.positions == Put(acc.state.positions, s, r.state.positions.entries[s])
              && Evolved(acc.state.positions.entries[s], r.state.positions.entries[s])
    ensures r.closed != acc.closed ==>
              && |r.closed| == |acc.closed| + 1 && r.closed[..|acc.closed|] == acc.closed
              && r.state.positions == Remove(acc.state.positions, s)
              && r.closed[|acc.closed|].symbol == s && r.closed[|acc.closed|].closedAt == at
              && r.closed[|acc.closed|].exitReason.ManageExit?
              && r.state.tradeHistory == LogTrade(acc.state.tradeHistory, ExitRecord(r.closed[|acc.closed|]))
  {
    var pos := acc.state.positions.entries[s];
    var price := PriceOf(snaps, s);
    if price.None? then acc
    else
      var tracked := UpdateExcursions(pos, Pnl(pos.entryPrice, price.value, pos.direction));
      var check := EvaluateOvernightManagement(pos.entryPrice, price.value, pos.direction,
                                               snaps[s].spreadPct, snaps[s].recentVolume);
      if check.fire && !dryRun then
        var c := CloseTrade(s, tracked, price.value, ManageExit(check.reason), at);
        var state := acc.state.(positions := Remove(acc.state.positions, s),
                                tradeHistory := LogTrade(acc.state.tradeHistory, ExitRecord(c)));
        assert (acc.closed + [c])[..|acc.closed|] == acc.closed;
        CycleState(state, acc.closed + [c])
      else
        acc.(state := acc.state.(positions := Put(acc.state.positions, s, tracked)))
  }

  predicate HeldAll(positions: Dict<Symbol, Position>, keys: seq<Symbol>) {
    forall i | 0 <= i < |keys| :: keys[i] in positions.entries
  }

  /** Dropping the last of distinct held symbols leaves distinct held symbols, without the last. */
  lemma HeldPrefix(positions: Dict<Symbol, Position>, keys: seq<Symbol>)
    requires Distinct(keys) && HeldAll(positions, keys) && |keys| > 0
    ensures Distinct(keys[..|keys| - 1]) && HeldAll(positions, keys[..|keys| - 1])
    ensures keys[|keys| - 1] !in keys[..|keys| - 1] && keys[|keys| - 1] in positions.entries
  {
    var init := keys[..|keys| - 1];
    assert forall i | 0 <= i < |init| :: init[i] == keys[i];
  }

  /** Logging one more exit record extends the logged run by that record. */
  lemma LogOneMoreExit(history: seq<TradeRecord>, closed: seq<ClosedTrade>, c: ClosedTrade)
    ensures LogAll(history, ExitRecords(closed + [c])) == LogTrade(LogAll(history, ExitRecords(closed)), ExitRecord(c))
  {
    var e := ExitRecords(closed + [c]);
    assert e[..|e| - 1] == ExitRecords(closed);
  }

  /**
   * What a cycle over `keys` from `acc` promises of its result `r`: only positions and
   * history change; symbols not visited are untouched; every position left only had
   * its excursions widened; each closed trade removed exactly one position and logged
   * its exit in order; a dry run closes nothing and keeps the order of the keys.
   */
  predicate Cycled(dryRun: bool, acc: CycleState, r: CycleState, keys: seq<Symbol>) {
    && r.state == acc.state.(positions := r.state.positions, tradeHistory := r.state.tradeHistory)
    && PositionsValid(r.state.positions)
    && (forall k | k in acc.state.positions.entries && k !in keys ::
          k in r.state.positions.entries && r.state.positions.entries[k] == acc.state.positions.entries[k])
    && (forall k | k in r.state.positions.entries ::
          k in acc.state.positions.entries && Evolved(acc.state.positions.entries[k], r.state.positions.entries[k]))
    && Size(r.state.positions) + |r.closed| == Size(acc.state.positions)
    && r.state.tradeHistory == LogAll(acc.state.tradeHistory, ExitRecords(r.closed))
    && (dryRun ==> r.closed == [] && r.state.positions.keys == acc.state.positions.keys)
  }

  /** The cycle over the symbols held at its start, in order (see `Cycled`). */
  function ManageSymbols(dryRun: bool, at: Instant, snaps: Snapshots, acc: CycleState, keys: seq<Symbol>): (r: CycleState)
    requires acc.closed == [] && Distinct(keys)
    requires HeldAll(acc.state.positions, keys) && PositionsValid(acc.state.positions)
    ensures Cycled(dryRun, acc, r, keys)
    decreases |keys|
  {
    if |keys| == 0 then acc
    else
      HeldPrefix(acc.state.positions, keys);
      var mid := ManageSymbols(dryRun, at, snaps, acc, keys[..|keys| - 1]);
      var s := keys[|keys| - 1];
      assert mid.state.positions.entries[s] == acc.state.positions.entries[s];
      var r := ManageSymbol(dryRun, at, snaps, mid, s);
      CycleStep(dryRun, acc, mid, r, keys);
      r
  }

  /**
   * One more symbol: when `r` is `mid` after managing the last of `keys` (as
   * `ManageSymbol` promises), and `mid` is the cycle over the others, `r` is the cycle
   * over `keys`.
   */
  lemma CycleStep(dryRun: bool, acc: CycleState, mid: CycleState, r: CycleState, keys: seq<Symbol>)
    requires acc.closed == [] && Distinct(keys) && |keys| > 0
    requires HeldAll(acc.state.positions, keys) && PositionsValid(acc.state.positions)
    requires Cycled(dryRun, acc, mid, keys[..|keys| - 1])
    requires keys[|keys| - 1] in mid.state.positions.entries
    requires r.state == mid.state.(positions := r.state.positions, tradeHistory := r.state.tradeHistory)
    requires PositionsValid(r.state.positions)
    requires r.closed != mid.closed ==> !dryRun
    requires r.closed == mid.closed ==>
               && r.state.tradeHistory == mid.state.tradeHistory
               && keys[|keys| - 1] in r.state.positions.entries
               && r.state.positions == Put(mid.state.positions, keys[|keys| - 1],
                                           r.state.positions.entries[keys[|keys| - 1]])
               && Evolved(mid.state.positions.entries[keys[|keys| - 1]], r.state.positions.entries[keys[|keys| - 1]])
    requires r.closed != mid.closed ==>
               && |r.closed| == |mid.closed| + 1 && r.closed[..|mid.closed|] == mid.closed
               && r.state.positions == Remove(mid.state.positions, keys[|keys| - 1])
               && r.state.tradeHistory == LogTrade(mid.state.tradeHistory, ExitRecord(r.closed[|mid.closed|]))
    ensures Cycled(dryRun, acc, r, keys)
  {
    HeldPrefix(acc.state.positions, keys);
    if r.closed == mid.closed {
      KeepStep(acc.state.positions, mid.state.positions, r.state.positions, keys);
    } else {
      DropStep(acc.state.positions, mid.state.positions, r.state.positions, keys);
      var c := r.closed[|mid.closed|];
      SnocOfPrefix(r.closed, mid.closed);
      LogOneMoreExit(acc.state.tradeHistory, mid.closed, c);
    }
  }

  /** A visited position that stays, with its excursions widened, keeps the cycle's promises about positions. */
  lemma KeepStep(before: Dict<Symbol, Position>, mid: Dict<Symbol, Position>, after: Dict<Symbol, Position>,
                 keys: seq<Symbol>)
    requires Distinct(keys) && HeldAll(before, keys) && |keys| > 0
    requires forall k | k in before.entries && k !in keys[..|keys| - 1] ::
               k in mid.entries && mid.entries[k] == before.entries[k]
    requires forall k | k in mid.entries :: k in before.entries && Evolved(before.entries[k], mid.entries[k])
    requires keys[|keys| - 1] in after.entries && after == Put(mid, keys[|keys| - 1], after.entries[keys[|keys| - 1]])
    requires Evolved(mid.entries[keys[|keys| - 1]], after.entries[keys[|keys| - 1]])
    ensures forall k | k in before.entries && k !in keys :: k in after.entries && after.entries[k] == before.entries[k]
    ensures forall k | k in after.entries :: k in before.entries && Evolved(before.entries[k], after.entries[k])
    ensures Size(after) == Size(mid) && after.keys == mid.keys
  {
    HeldPrefix(before, keys);
  }

  /** A visited position that is closed keeps the cycle's promises about positions, one fewer. */
  lemma DropStep(before: Dict<Symbol, Position>, mid: Dict<Symbol, Position>, after: Dict<Symbol, Position>,
                 keys: seq<Symbol>)
    requires Distinct(keys) && HeldAll(before, keys) && |keys| > 0
    requires forall k | k in before.entries && k !in keys[..|keys| - 1] ::
               k in mid.entries && mid.entries[k] == before.entries[k]
    requires forall k | k in mid.entries :: k in before.entries && Evolved(before.entries[k], mid.entries[k])
    requires after == Remove(mid, keys[|keys| - 1])
    ensures forall k | k in before.entries && k !in keys :: k in after.entries && after.entries[k] == before.entries[k]
    ensures forall k | k in after.entries :: k in before.entries && Evolved(before.entries[k], after.entries[k])
    ensures Size(after) + 1 == Size(mid)
  {
    HeldPrefix(before, keys);
  }

  /** Of the symbols `keys`, exactly those whose check fired outside a dry run were dropped. */
  predicate DroppedExactlyFired(dryRun: bool, snaps: Snapshots, before: Dict<Symbol, Position>,
                                after: Dict<Symbol, Position>, keys: seq<Symbol>) {
    forall k | k in keys ::
      k in before.entries && (k !in after.entries <==> !dryRun && Fires(snaps, k, before.entries[k]))
  }

  /** A visited position is gone after the cycle exactly when its check fired outside a dry run. */
  lemma {:induction false} CycleDropsExactlyFired(dryRun: bool, at: Instant, snaps: Snapshots,
                                                  acc: CycleState, keys: seq<Symbol>)
    requires acc.closed == [] && Distinct(keys)
    requires HeldAll(acc.state.positions, keys) && PositionsValid(acc.state.positions)
    ensures DroppedExactlyFired(dryRun, snaps, acc.state.positions,
                                ManageSymbols(dryRun, at, snaps, acc, keys).state.positions, keys)
    decreases |keys|
  {
    if |keys| > 0 {
      var init := keys[..|keys| - 1];
      var s := keys[|keys| - 1];
      HeldPrefix(acc.state.positions, keys);
      CycleDropsExactlyFired(dryRun, at, snaps, acc, init);
      var mid := ManageSymbols(dryRun, at, snaps, acc, init);
      var r := ManageSymbol(dryRun, at, snaps, mid, s);
      DropsStep(dryRun, snaps, acc.state.positions, mid.state.positions, r.state.positions, keys);
    }
  }

  /** One more symbol of the cycle, which either keeps its position (updated) or drops it because its check fired. */
  lemma DropsStep(dryRun: bool, snaps: Snapshots, before: Dict<Symbol, Position>, mid: Dict<Symbol, Position>,
                  after: Dict<Symbol, Position>, keys: seq<Symbol>)
    requires Distinct(keys) && |keys| > 0
    requires DroppedExactlyFired(dryRun, snaps, before, mid, keys[..|keys| - 1])
    requires keys[|keys| - 1] in before.entries && keys[|keys| - 1] in mid.entries
    requires mid.entries[keys[|keys| - 1]] == before.entries[keys[|keys| - 1]]
    requires || (after == Remove(mid, keys[|keys| - 1]) && !dryRun && Fires(snaps, keys[|keys| - 1], mid.entries[keys[|keys| - 1]]))
             || (&& keys[|keys| - 1] in after.entries
                 && after == Put(mid, keys[|keys| - 1], after.entries[keys[|keys| - 1]])
                 && !(!dryRun && Fires(snaps, keys[|keys| - 1], mid.entries[keys[|keys| - 1]])))
    ensures DroppedExactlyFired(dryRun, snaps, before, after, keys)
  {
    var init := keys[..|keys| - 1];
    var s := keys[|keys| - 1];
    forall k | k in keys
      ensures k in before.entries && (k !in after.entries <==> !dryRun && Fires(snaps, k, before.entries[k]))
    {
      if k != s {
        assert k in init;
      }
    }
  }

  /** Every trade in `closed` is a management exit of one of `keys`, stamped `at`. */
  predicate ClosedAreExits(closed: seq<ClosedTrade>, keys: seq<Symbol>, at: Instant) {
    forall i | 0 <= i < |closed| ::
      closed[i].symbol in keys && closed[i].exitReason.ManageExit? && closed[i].closedAt == at
  }

  /** Each trade closed by the cycle is a management exit of a visited symbol, stamped with the cycle's time. */
  lemma {:induction false} CycleClosesVisited(dryRun: bool, at: Instant, snaps: Snapshots,
                                              acc: CycleState, keys: seq<Symbol>)
    requires acc.closed == [] && Distinct(keys)
    requires HeldAll(acc.state.positions, keys) && PositionsValid(acc.state.positions)
    ensures ClosedAreExits(ManageSymbols(dryRun, at, snaps, acc, keys).closed, keys, at)
    decreases |keys|
  {
    if |keys| > 0 {
      var init := keys[..|keys| - 1];
      var s := keys[|keys| - 1];
      HeldPrefix(acc.state.positions, keys);
      CycleClosesVisited(dryRun, at, snaps, acc, init);
      var mid := ManageSymbols(dryRun, at, snaps, acc, init);
      var r := ManageSymbol(dryRun, at, snaps, mid, s);
      ExitsStep(mid.closed, r.closed, keys, at);
    }
  }

  /** One more symbol of the cycle, which closes nothing or one management exit of that symbol. */
  lemma ExitsStep(mid: seq<ClosedTrade>, r: seq<ClosedTrade>, keys: seq<Symbol>, at: Instant)
    requires |keys| > 0 && ClosedAreExits(mid, keys[..|keys| - 1], at)
    requires || r == mid
             || (&& |r| == |mid| + 1 && r[..|mid|] == mid && r[|mid|].symbol == keys[|keys| - 1]
                 && r[|mid|].exitReason.ManageExit? && r[|mid|].closedAt == at)
    ensures ClosedAreExits(r, keys, at)
  {
    var init := keys[..|keys| - 1];
    forall i | 0 <= i < |r| ensures r[i].symbol in keys && r[i].exitReason.ManageExit? && r[i].closedAt == at {
      if i < |mid| {
        assert r[i] == r[..|mid|][i];
        assert mid[i].symbol in init;
      }
    }
  }

  /**
   * `run_manage_cycle`: with no positions nothing happens; otherwise every position
   * held at the start is visited once, in order.
   */
  function RunManageCycle(dryRun: bool, at: Instant, snaps: Snapshots, st: SessionState): (r: CycleState)
    requires PositionsValid(st.positions)
    ensures r.state == st.(positions := r.state.positions, tradeHistory := r.state.tradeHistory)
    ensures PositionsValid(r.state.positions)
    ensures forall k | k in r.state.positions.entries ::
              k in st.positions.entries && Evolved(st.positions.entries[k], r.state.positions.entries[k])
    ensures DroppedExactlyFired(dryRun, snaps, st.positions, r.state.positions, st.positions.keys)
    ensures Size(r.state.positions) + |r.closed| == Size(st.positions)
    ensures r.state.tradeHistory == LogAll(st.tradeHistory, ExitRecords(r.closed))
    ensures dryRun ==> r.closed == [] && r.state.positions.keys == st.positions.keys
    ensures ClosedAreExits(r.closed, st.positions.keys, at)
  {
    var acc := CycleState(st, []);
    if Size(st.positions) == 0 then acc
    else
      assert HeldAll(st.positions, st.positions.keys);
      CycleDropsExactlyFired(dryRun, at, snaps, acc, st.positions.keys);
      CycleClosesVisited(dryRun, at, snaps, acc, st.positions.keys);
      ManageSymbols(dryRun, at, snaps, acc, st.positions.keys)
  }

  /** One pass of the overnight loop: the snapshots it sees and the time it wakes again. */
  datatype ManageTick = ManageTick(snaps: Snapshots, next: Instant)

  /**
   * The outcome of the overnight phase: the session document, the trades closed in
   * order, and the time the phase returned (`None` when the ticks ran out first, the
   * model of an interrupted session).
   */
  datatype ManageResult = ManageResult(state: SessionState, closed: seq<ClosedTrade>, end: Option<Instant>)

  /** Where the overnight phase may hand over to the exit: in or past the exit window, or parked at 9:25 on a weekday. */
  predicate ManageEndsAt(t: Instant) {
    IsExitTime(t) || IsSessionOver(t) || (IsWeekday(t) && t.second == ClockSecond(ExitHour, ExitMinute - 5))
  }

  /**
   * What any stretch of overnight management does to the session document: only
   * positions and history change, every position left only widened its excursions,
   * each closed trade removed one position and logged its exit in order, and a dry
   * run closes nothing.
   */
  predicate ManagedFrom(dryRun: bool, st: SessionState, after: SessionState, closed: seq<ClosedTrade>) {
    && after == st.(positions := after.positions, tradeHistory := after.tradeHistory)
    && PositionsValid(after.positions)
    && (forall k | k in after.positions.entries ::
          k in st.positions.entries && Evolved(st.positions.entries[k], after.positions.entries[k]))
    && Size(after.positions) + |closed| == Size(st.positions)
    && after.tradeHistory == LogAll(st.tradeHistory, ExitRecords(closed))
    && (dryRun ==> closed == [] && after.positions.keys == st.positions.keys)
    && (forall i | 0 <= i < |closed| :: closed[i].exitReason.ManageExit?)
  }

  /** Two stretches of management in a row are one. */
  lemma ManagedTrans(dryRun: bool, s0: SessionState, s1: SessionState, s2: SessionState,
                     c1: seq<ClosedTrade>, c2: seq<ClosedTrade>)
    requires ManagedFrom(dryRun, s0, s1, c1) && ManagedFrom(dryRun, s1, s2, c2)
    ensures ManagedFrom(dryRun, s0, s2, c1 + c2)
  {
    LogAllConcat(s0.tradeHistory, ExitRecords(c1), ExitRecords(c2));
    ExitRecordsConcat(c1, c2);
    forall k | k in s2.positions.entries
      ensures k in s0.positions.entries && Evolved(s0.positions.entries[k], s2.positions.entries[k])
    {
      var p, q, u := s0.positions.entries[k], s1.positions.entries[k], s2.positions.entries[k];
      assert Evolved(p, q) && Evolved(q, u);
    }
    forall i | 0 <= i < |c1 + c2| ensures (c1 + c2)[i].exitReason.ManageExit? {
      if i >= |c1| {
        assert (c1 + c2)[i] == c2[i - |c1|];
      }
    }
  }

  /** The clock only moves forward from one tick to the next. */
  predicate Advancing(now: Instant, ticks: seq<ManageTick>)
    decreases |ticks|
  {
    |ticks| == 0 || (Absolute(ticks[0].next) > Absolute(now) && Advancing(ticks[0].next, ticks[1..]))
  }

  /**
   * The `while not is_session_over()` loop of `phase_manage`: it stops in the exit
   * window, parks until 9:25 on the next weekday if it finds itself on a weekend,
   * idles while nothing is held, and otherwise runs one management cycle per tick.
   */
  function ManageLoop(dryRun: bool, st: SessionState, now: Instant, ticks: seq<ManageTick>): (r: ManageResult)
    requires PositionsValid(st.positions)
    ensures ManagedFrom(dryRun, st, r.state, r.closed)
    ensures r.end.Some? ==> ManageEndsAt(r.end.value)
    ensures IsExitTime(now) || IsSessionOver(now) ==> r == ManageResult(st, [], Some(now))
    ensures !(IsExitTime(now) || IsSessionOver(now)) && !IsWeekday(now) ==>
              r == ManageResult(st, [], Some(NextWeekdayTarget(now, ExitHour, ExitMinute - 5)))
    decreases |ticks|
  {
    if IsSessionOver(now) || IsExitTime(now) then ManageResult(st, [], Some(now))
    else if !IsWeekday(now) then ManageResult(st, [], Some(NextWeekdayTarget(now, ExitHour, ExitMinute - 5)))
    else if |ticks| == 0 then ManageResult(st, [], None)
    else if Size(st.positions) == 0 then ManageLoop(dryRun, st, ticks[0].next, ticks[1..])
    else
      var c := RunManageCycle(dryRun, now, ticks[0].snaps, st);
      assert ManagedFrom(dryRun, st, c.state, c.closed);
      var rest := ManageLoop(dryRun, c.state, ticks[0].next, ticks[1..]);
      ManagedTrans(dryRun, st, c.state, rest.state, c.closed, rest.closed);
      ManageResult(rest.state, c.closed + rest.closed, rest.end)
  }

  /** With a forward-moving clock the loop never hands over before it started. */
  lemma {:induction false} ManageLoopAdvances(dryRun: bool, st: SessionState, now: Instant, ticks: seq<ManageTick>)
    requires PositionsValid(st.positions)
    ensures var r := ManageLoop(dryRun, st, now, ticks);
            Advancing(now, ticks) && r.end.Some? ==> Absolute(r.end.value) >= Absolute(now)
    decreases |ticks|
  {
    if Advancing(now, ticks) && !(IsSessionOver(now) || IsExitTime(now)) && IsWeekday(now) && |ticks| > 0 {
      if Size(st.positions) == 0 {
        ManageLoopAdvances(dryRun, st, ticks[0].next, ticks[1..]);
      } else {
        var c := RunManageCycle(dryRun, now, ticks[0].snaps, st);
        ManageLoopAdvances(dryRun, c.state, ticks[0].next, ticks[1..]);
      }
    }
  }

  /** Every tick wakes at or after `bound`. */
  predicate TicksFrom(bound: int, ticks: seq<ManageTick>) {
    forall i | 0 <= i < |ticks| :: Absolute(ticks[i].next) >= bound
  }

  /** Every trade in `closed` was closed at or after `bound`. */
  predicate ClosedNoEarlier(closed: seq<ClosedTrade>, bound: int) {
    forall i | 0 <= i < |closed| :: Absolute(closed[i].closedAt) >= bound
  }

  lemma TicksFromTail(bound: int, ticks: seq<ManageTick>)
    requires |ticks| > 0 && TicksFrom(bound, ticks)
    ensures TicksFrom(bound, ticks[1..]) && Absolute(ticks[0].next) >= bound
  {
    forall i | 0 <= i < |ticks[1..]| ensures Absolute(ticks[1..][i].next) >= bound {
      assert ticks[1..][i] == ticks[i + 1];
    }
  }

  /** The loop hands over no earlier than its start and its ticks. */
  lemma {:induction false} ManageLoopEndsNoEarlier(dryRun: bool, st: SessionState, now: Instant,
                                                  ticks: seq<ManageTick>, bound: int)
    requires PositionsValid(st.positions)
    requires Absolute(now) >= bound && TicksFrom(bound, ticks)
    ensures var r := ManageLoop(dryRun, st, now, ticks);
            r.end.Some? ==> Absolute(r.end.value) >= bound
    decreases |ticks|
  {
    if !(IsSessionOver(now) || IsExitTime(now)) && IsWeekday(now) && |ticks| > 0 {
      TicksFromTail(bound, ticks);
      if Size(st.positions) == 0 {
        ManageLoopEndsNoEarlier(dryRun, st, ticks[0].next, ticks[1..], bound);
      } else {
        var c := RunManageCycle(dryRun, now, ticks[0].snaps, st);
        ManageLoopEndsNoEarlier(dryRun, c.state, ticks[0].next, ticks[1..], bound);
      }
    }
  }

  /** Every trade the loop closes is closed no earlier than its start and its ticks. */
  lemma {:induction false} ManageLoopClosesNoEarlier(dryRun: bool, st: SessionState, now: Instant,
                                                    ticks: seq<ManageTick>, bound: int)
    requires PositionsValid(st.positions)
    requires Absolute(now) >= bound && TicksFrom(bound, ticks)
    ensures ClosedNoEarlier(ManageLoop(dryRun, st, now, ticks).closed, bound)
    decreases |ticks|
  {
    if !(IsSessionOver(now) || IsExitTime(now)) && IsWeekday(now) && |ticks| > 0 {
      TicksFromTail(bound, ticks);
      if Size(st.positions) == 0 {
        ManageLoopClosesNoEarlier(dryRun, st, ticks[0].next, ticks[1..], bound);
      } else {
        var c := RunManageCycle(dryRun, now, ticks[0].snaps, st);
        ManageLoopClosesNoEarlier(dryRun, c.state, ticks[0].next, ticks[1..], bound);
        var rest := ManageLoop(dryRun, c.state, ticks[0].next, ticks[1..]);
        assert ClosedAreExits(c.closed, st.positions.keys, now);
        assert ClosedNoEarlier(c.closed, bound);
        assert ManageLoop(dryRun, st, now, ticks).closed == c.closed + rest.closed;
      }
    }
  }

  /** `phase_manage` hands over, and closes trades, no earlier than its start and its ticks. */
  lemma PhaseManageNoEarlier(dryRun: bool, start: Instant, st: SessionState, ticks: seq<ManageTick>, bound: int)
    requires PositionsValid(st.positions)
    requires Absolute(start) >= bound && TicksFrom(bound, ticks)
    ensures var r := PhaseManage(dryRun, start, st, ticks);
            && (r.end.Some? ==> Absolute(r.end.value) >= bound)
            && ClosedNoEarlier(r.closed, bound)
  {
    if !ManageSkipsToMonday(start) {
      ManageLoopEndsNoEarlier(dryRun, st, start, ticks, bound);
      ManageLoopClosesNoEarlier(dryRun, st, start, ticks, bound);
    }
  }

  /**
   * `phase_manage`: a weekend start, or a Friday at or after 8:00 PM, holds everything
   * and sleeps to 9:25 on the next weekday (Monday, from a Friday night); otherwise
   * the overnight loop runs from `start`.
   */
  function PhaseManage(dryRun: bool, start: Instant, st: SessionState, ticks: seq<ManageTick>): (r: ManageResult)
    requires PositionsValid(st.positions)
    ensures ManagedFrom(dryRun, st, r.state, r.closed)
    ensures r.end.Some? ==> ManageEndsAt(r.end.value)
    ensures r.end.Some? && Advancing(start, ticks) ==> Absolute(r.end.value) >= Absolute(start)
    ensures ManageSkipsToMonday(start) ==>
              r == ManageResult(st, [], Some(NextWeekdayTarget(start, ExitHour, ExitMinute - 5)))
    ensures IsFriday(start) && TimeReached(start, 20, 0) ==> r.end == Some(Instant(start.day + 3, ClockSecond(9, 25)))
  {
    if ManageSkipsToMonday(start) then
      var wake := NextWeekdayTarget(start, ExitHour, ExitMinute - 5);
      if IsFriday(start) && TimeReached(start, 20, 0) then
        TimeReachedIsClockOrder(start, 20, 0);
        FridayNightTargetIsMonday(start, ExitHour, ExitMinute - 5);
        ManageResult(st, [], Some(wake))
      else ManageResult(st, [], Some(wake))
    else
      ManageLoopAdvances(dryRun, st, start, ticks);
      ManageLoop(dryRun, st, start, ticks)
  }
}

=== FILE: monitor.dfy ===
/**
 * Phases 1 and 2 of bot/main.py: anchoring the 4:00 PM closes, and the monitor and
 * entry loop that scans every anchored symbol once per poll until 8:00 PM and opens
 * a fading position on an extreme move while slots remain.
 *
 * Each poll is given as data: the quotes it fetched, the symbols whose orders the
 * broker accepted, and the instant the loop wakes up at next.
 */
module Monitor {
  import opened Wrappers
  import opened Config
  import opened Dict
  import opened Clock
  import opened Strategies
  import opened StateManager

  /** One answer of the price feed: the symbols it quoted, with their last price. */
  type Quotes = map<Symbol, real>

  /** A usable quote: present and non-zero (the source's `if not price`). */
  function QuoteOf(quotes: Quotes, s: Symbol): (r: Option<real>)
    ensures r.Some? <==> s in quotes && quotes[s] != 0.0
    ensures r.Some? ==> r.value == quotes[s]
  {
    if s in quotes && quotes[s] != 0.0 then Some(quotes[s]) else None
  }

  // ───────────── phase 1: anchor ─────────────

  /** Every anchored close is positive. */
  predicate AnchorsPositive(anchors: Dict<Symbol, real>) {
    forall s | s in anchors.entries :: anchors.entries[s] > 0.0
  }

  /**
   * Reference order of the anchors: the watchlist symbols with a positive close, each
   * at its first occurrence, in watchlist order.
   */
  function PositiveFirst(watchlist: seq<Symbol>, closes: Quotes): (r: seq<Symbol>)
    ensures forall x | x in r :: x in closes && closes[x] > 0.0
    decreases |watchlist|
  {
    if |watchlist| == 0 then []
    else
      var s := watchlist[0];
      var rest := Without(PositiveFirst(watchlist[1..], closes), s);
      if s in closes && closes[s] > 0.0 then [s] + rest else rest
  }

  /** Dropping `a` from a run with one more element at its end. */
  lemma WithoutSnoc(x: seq<Symbol>, t: Symbol, a: Symbol)
    ensures Without(x + [t], a) == Without(x, a) + (if t == a then [] else [t])
    decreases |x|
  {
    if |x| > 0 {
      assert (x + [t])[1..] == x[1..] + [t];
      WithoutSnoc(x[1..], t, a);
    } else {
      assert [t][1..] == [];
    }
  }

  /** The reference order of a non-empty watchlist, unfolded at its first symbol. */
  lemma PositiveFirstCons(w: seq<Symbol>, closes: Quotes)
    requires |w| > 0
    ensures PositiveFirst(w, closes)
            == (if w[0] in closes && closes[w[0]] > 0.0 then [w[0]] else []) + Without(PositiveFirst(w[1..], closes), w[0])
  {
  }

  /** One more watchlist symbol goes last in the reference order, unless it is there already or has no positive close. */
  lemma {:induction false} PositiveFirstSnoc(w: seq<Symbol>, s: Symbol, closes: Quotes)
    ensures PositiveFirst(w + [s], closes)
            == if s in closes && closes[s] > 0.0 && s !in PositiveFirst(w, closes)
               then PositiveFirst(w, closes) + [s] else PositiveFirst(w, closes)
    decreases |w|
  {
    if |w| == 0 {
      assert w + [s] == [s];
      PositiveFirstCons([s], closes);
      assert [s][1..] == [];
    } else {
      var a := w[0];
      var w1 := w[1..];
      var ws := w + [s];
      assert ws[0] == a && ws[1..] == w1 + [s];
      PositiveFirstSnoc(w1, s, closes);
      PositiveFirstCons(w, closes);
      PositiveFirstCons(ws, closes);
      var p1 := PositiveFirst(w1, closes);
      var head: seq<Symbol> := if a in closes && closes[a] > 0.0 then [a] else [];
      SnocStep(p1, PositiveFirst(w1 + [s], closes), PositiveFirst(w, closes), PositiveFirst(ws, closes),
               head, a, s, closes);
    }
  }

  /** The inductive step of `PositiveFirstSnoc`, on the runs involved. */
  lemma SnocStep(p1: seq<Symbol>, q1: seq<Symbol>, p: seq<Symbol>, q: seq<Symbol>, head: seq<Symbol>,
                 a: Symbol, s: Symbol, closes: Quotes)
    requires forall x | x in p1 :: x in closes && closes[x] > 0.0
    requires head == (if a in closes && closes[a] > 0.0 then [a] else [])
    requires q1 == if s in closes && closes[s] > 0.0 && s !in p1 then p1 + [s] else p1
    requires p == head + Without(p1, a) && q == head + Without(q1, a)
    ensures q == if s in closes && closes[s] > 0.0 && s !in p then p + [s] else p
  {
    if s in closes && closes[s] > 0.0 && s !in p1 {
      WithoutSnoc(p1, s, a);
      AppendAssoc(head, Without(p1, a), if s == a then [] else [s]);
      if s == a {
        assert s in p;
      }
    } else if s in p1 && s == a {
      assert s in head;
    }
  }

  /**
   * `phase_anchor`: the watchlist symbols with a positive close, each with that
   * close, in watchlist order; symbols without one are skipped.
   */
  function PhaseAnchor(watchlist: seq<Symbol>, closes: Quotes): (r: Dict<Symbol, real>)
    ensures forall s | s in r.entries :: s in watchlist && s in closes && r.entries[s] == closes[s] > 0.0
    ensures forall s | s in watchlist && s in closes && closes[s] > 0.0 :: s in r.entries
    ensures forall i | 0 <= i < |r.keys| :: r.keys[i] in watchlist
    ensures r.keys == PositiveFirst(watchlist, closes)
    ensures AnchorsPositive(r)
    decreases |watchlist|
  {
    if |watchlist| == 0 then Empty()
    else
      var init := watchlist[..|watchlist| - 1];
      var s := watchlist[|watchlist| - 1];
      var d := PhaseAnchor(init, closes);
      var r := if s in closes && closes[s] > 0.0 then Put(d, s, closes[s]) else d;
      AnchorStep(init, s, closes, d, r);
      assert init + [s] == watchlist;
      assert AnchoredOver(r, watchlist, closes);
      r
  }

  /** What `PhaseAnchor` promises about the anchors `d` taken over `watchlist`. */
  predicate AnchoredOver(d: Dict<Symbol, real>, watchlist: seq<Symbol>, closes: Quotes) {
    && (forall s | s in d.entries :: s in watchlist && s in closes && d.entries[s] == closes[s] > 0.0)
    && (forall s | s in watchlist && s in closes && closes[s] > 0.0 :: s in d.entries)
    && d.keys == PositiveFirst(watchlist, closes)
  }

  /** Anchoring one more watchlist symbol keeps the promises of `PhaseAnchor`. */
  lemma AnchorStep(init: seq<Symbol>, s: Symbol, closes: Quotes, d: Dict<Symbol, real>, r: Dict<Symbol, real>)
    requires AnchoredOver(d, init, closes)
    requires r == if s in closes && closes[s] > 0.0 then Put(d, s, closes[s]) else d
    ensures AnchoredOver(r, init + [s], closes)
  {
    PositiveFirstSnoc(init, s, closes);
  }

  // ───────────── one symbol of one scan ─────────────

  /** An entry the scan attempts: the signal's direction and reason, and the size. */
  datatype Entry = Entry(direction: Direction, qty: int, signal: SignalReason)

  function Abs(x: real): real { if x < 0.0 then -x else x }

  /** A move smaller than the threshold is one the entry signal rejects anyway. */
  lemma PrefilterAgreesWithSignal(anchor: real, price: real, friday: bool, activeCount: int)
    requires anchor > 0.0
    requires Abs(MovePct(anchor, price)) < ExtremeMovePct
    ensures !EvaluateEntrySignal(anchor, price, friday, activeCount).shouldEnter
  {
    MoveThresholdAsPrice(anchor, price, ExtremeMovePct);
  }

  /**
   * The scan's decision for one anchored symbol: skip a missing quote, a symbol
   * already held, a move under the threshold and a full book; otherwise follow the
   * entry signal and size the trade over the remaining slots, skipping a zero size.
   * The threshold test before the signal never changes the outcome.
   */
  function ConsiderSymbol(anchor: real, price: Option<real>, held: bool, friday: bool,
                          equity: real, activeCount: int, cash: real): (r: Option<Entry>)
    requires anchor > 0.0
    ensures r.Some? <==>
              && price.Some? && price.value > 0.0 && !held && activeCount < MaxConcurrentPositions
              && EvaluateEntrySignal(anchor, price.value, friday, activeCount).shouldEnter
              && ComputePositionSize(equity, price.value,
                                     EvaluateEntrySignal(anchor, price.value, friday, activeCount).direction.value,
                                     cash, MaxConcurrentPositions - activeCount) > 0
    ensures r.Some? ==>
              && Some(r.value.direction) == EvaluateEntrySignal(anchor, price.value, friday, activeCount).direction
              && r.value.signal == EvaluateEntrySignal(anchor, price.value, friday, activeCount).reason
              && r.value.qty == ComputePositionSize(equity, price.value, r.value.direction, cash,
                                                    MaxConcurrentPositions - activeCount)
  {
    if price.None? || held then None
    else if Abs(MovePct(anchor, price.value)) < ExtremeMovePct then
      PrefilterAgreesWithSignal(anchor, price.value, friday, activeCount);
      None
    else if MaxConcurrentPositions - activeCount <= 0 then None
    else
      var signal := EvaluateEntrySignal(anchor, price.value, friday, activeCount);
      if !signal.shouldEnter then None
      else
        var qty := ComputePositionSize(equity, price.value, signal.direction.value, cash,
                                       MaxConcurrentPositions - activeCount);
        if qty <= 0 then None else Some(Entry(signal.direction.value, qty, signal.reason))
  }

  /** An entered symbol fades its move: a long only after a fall, a short only after a rise and never on Friday. */
  lemma EntryFadesTheMove(anchor: real, price: Option<real>, held: bool, friday: bool,
                          equity: real, activeCount: int, cash: real)
    requires anchor > 0.0
    ensures var r := ConsiderSymbol(anchor, price, held, friday, equity, activeCount, cash);
            && (r.Some? && r.value.direction == Long ==> price.value <= anchor * (1.0 - ExtremeMovePct))
            && (r.Some? && r.value.direction == Short ==> !friday && price.value >= anchor * (1.0 + ExtremeMovePct))
            && (r.Some? ==> r.value.qty > 0 && !held && activeCount < MaxConcurrentPositions)
  {
  }

  /**
   * A position as the scan opens it: at the quoted price, with a positive size, the
   * anchor it was measured from, no excursion yet, and fading the anchor move.
   */
  predicate OpenedFrom(pos: Position, anchor: real, friday: bool) {
    && pos.entryPrice > 0.0 && pos.qty > 0
    && pos.anchorClose == anchor && pos.entrySpreadPct == 0.0
    && pos.maxFavorablePnl == 0.0 && pos.maxAdversePnl == 0.0
    && (pos.direction == Long ==> pos.entryPrice <= anchor * (1.0 - ExtremeMovePct))
    && (pos.direction == Short ==> !friday && pos.entryPrice >= anchor * (1.0 + ExtremeMovePct))
  }

  /** What stays fixed during the monitor phase. */
  datatype MonitorEnv = MonitorEnv(friday: bool, equity: real, dryRun: bool)

  /** One poll: the quotes fetched, the symbols whose orders were accepted, and the next wake-up. */
  datatype Poll = Poll(quotes: Quotes, accepted: set<Symbol>, next: Instant)

  /** The state of a scan: the session document, the entry counter, the cash left, and the entries logged. */
  datatype ScanState = ScanState(state: SessionState, activeCount: int, cash: real, entered: seq<TradeRecord>)

  /** Cash after buying `qty` at `price`, never below zero; a short leaves it unchanged. */
  function CashAfter(cash: real, e: Entry, price: real): (r: real)
    requires cash > 0.0 || e.direction == Short
    requires price > 0.0 && e.qty > 0
    ensures e.direction == Short ==> r == cash
    ensures e.direction == Long ==> 0.0 <= r < cash && (r > 0.0 ==> r == cash - e.qty as real * price)
    ensures e.direction == Long ==> r >= cash - e.qty as real * price
  {
    if e.direction == Long then
      var left := cash - e.qty as real * price;
      if left > 0.0 then left else 0.0
    else cash
  }

  /** The ENTRY record of a new position. */
  function EntryRecord(at: Instant, s: Symbol, pos: Position, window: Window, signal: SignalReason): TradeRecord {
    TradeRecord(at, EntryAction, s, pos.qty, pos.entryPrice, Some(pos.direction), EntryReason(window, signal))
  }

  /** The facts about an attempted entry that the rest of the scan relies on. */
  predicate Attemptable(e: Entry, anchor: real, price: real, friday: bool, activeCount: int, cash: real) {
    && price > 0.0 && e.qty > 0 && activeCount < MaxConcurrentPositions
    && (e.direction == Long ==> cash > 0.0 && price <= anchor * (1.0 - ExtremeMovePct))
    && (e.direction == Short ==> !friday && price >= anchor * (1.0 + ExtremeMovePct))
  }

  /** An entry the scan attempts always satisfies `Attemptable`. */
  lemma ConsideredIsAttemptable(anchor: real, price: Option<real>, held: bool, friday: bool,
                                equity: real, activeCount: int, cash: real)
    requires anchor > 0.0
    ensures var r := ConsiderSymbol(anchor, price, held, friday, equity, activeCount, cash);
            r.Some? ==> !held && Attemptable(r.value, anchor, price.value, friday, activeCount, cash)
  {
    EntryFadesTheMove(anchor, price, held, friday, equity, activeCount, cash);
  }

  /**
   * Carrying out an attempted entry. In live mode an accepted order records the
   * position and logs the entry, and a rejected order changes nothing; in a dry run
   * nothing is recorded but the counter and the cash still move.
   */
  function ApplyEntry(env: MonitorEnv, at: Instant, window: Window, poll: Poll, acc: ScanState,
                      s: Symbol, anchor: real, price: real, e: Entry): (r: ScanState)
    requires Attemptable(e, anchor, price, env.friday, acc.activeCount, acc.cash)
    requires s !in acc.state.positions.entries
    ensures r.state == acc.state.(positions := r.state.positions, tradeHistory := r.state.tradeHistory)
    ensures r.activeCount == acc.activeCount || r.activeCount == acc.activeCount + 1
    ensures r.cash <= acc.cash
    ensures env.dryRun ==> r.state == acc.state && r.entered == acc.entered && r.activeCount == acc.activeCount + 1
    ensures !env.dryRun && s !in poll.accepted ==> r == acc
    ensures !env.dryRun && s in poll.accepted ==>
              && r.activeCount == acc.activeCount + 1
              && s in r.state.positions.entries
              && r.state.positions == Put(acc.state.positions, s, r.state.positions.entries[s])
              && OpenedFrom(r.state.positions.entries[s], anchor, env.friday)
              && r.state.positions.entries[s].entryTime == at
              && r.state.positions.entries[s].triggerWindow == window
              && r.state.positions.entries[s].direction == e.direction
              && |r.entered| == |acc.entered| + 1
              && r.entered[..|acc.entered|] == acc.entered
              && r.entered[|acc.entered|] == EntryRecord(at, s, r.state.positions.entries[s], window, e.signal)
              && r.state.tradeHistory == LogTrade(acc.state.tradeHistory, r.entered[|acc.entered|])
  {
    var cash := CashAfter(acc.cash, e, price);
    if env.dryRun then acc.(activeCount := acc.activeCount + 1, cash := cash)
    else if s !in poll.accepted then acc
    else
      var pos := Position(e.direction, price, e.qty, at, window, 0.0, anchor, 0.0, 0.0);
      var record := EntryRecord(at, s, pos, window, e.signal);
      var state := acc.state.(positions := Put(acc.state.positions, s, pos),
                              tradeHistory := LogTrade(acc.state.tradeHistory, record));
      assert (acc.entered + [record])[..|acc.entered|] == acc.entered;
      ScanState(state, acc.activeCount + 1, cash, acc.entered + [record])
  }

  /** One anchored symbol of one scan: decide, then carry out the entry if any. */
  function ScanSymbol(env: MonitorEnv, at: Instant, window: Window, poll: Poll, acc: ScanState, s: Symbol): (r: ScanState)
    requires s in acc.state.anchorCloses.entries && AnchorsPositive(acc.state.anchorCloses)
    ensures r.state == acc.state.(positions := r.state.positions, tradeHistory := r.state.tradeHistory)
    ensures r.activeCount == acc.activeCount || r.activeCount == acc.activeCount + 1
    ensures r.activeCount > acc.activeCount ==> acc.activeCount < MaxConcurrentPositions
    ensures r.cash <= acc.cash
    ensures env.dryRun ==> r.state == acc.state && r.entered == acc.entered
    ensures r.state.positions == acc.state.positions ==>
              r.state.tradeHistory == acc.state.tradeHistory && r.entered == acc.entered
    ensures r.state.positions != acc.state.positions ==>
              && !env.dryRun && s in poll.accepted && s !in acc.state.positions.entries
              && r.activeCount == acc.activeCount + 1
              && s in r.state.positions.entries
              && r.state.positions == Put(acc.state.positions, s, r.state.positions.entries[s])
              && OpenedFrom(r.state.positions.entries[s], acc.state.anchorCloses.entries[s], env.friday)
              && r.state.positions.entries[s].entryTime == at
              && r.state.positions.entries[s].triggerWindow == window
              && |r.entered| == |acc.entered| + 1
              && r.entered[..|acc.entered|] == acc.entered
              && r.entered[|acc.entered|].reason.EntryReason?
              && r.entered[|acc.entered|] == EntryRecord(at, s, r.state.positions.entries[s], window,
                                                         r.entered[|acc.entered|].reason.signal)
              && r.state.tradeHistory == LogTrade(acc.state.tradeHistory, r.entered[|acc.entered|])
  {
    var anchor := acc.state.anchorCloses.entries[s];
    var price := QuoteOf(poll.quotes, s);
    var held := s in acc.state.positions.entries;
    var d := ConsiderSymbol(anchor, price, held, env.friday, env.equity, acc.activeCount, acc.cash);
    if d.None? then acc
    else
      ConsideredIsAttemptable(anchor, price, held, env.friday, env.equity, acc.activeCount, acc.cash);
      ApplyEntry(env, at, window, poll, acc, s, anchor, price.value, d.value)
  }

  // ───────────── one scan ─────────────

  /** The symbols of a run of trade records, in order. */
  function Tickers(records: seq<TradeRecord>): (r: seq<Symbol>)
    ensures |r| == |records|
    ensures forall i | 0 <= i < |r| :: r[i] == records[i].ticker
    decreases |records|
  {
    if |records| == 0 then [] else Tickers(records[..|records| - 1]) + [records[|records| - 1].ticker]
  }

  predicate AnchoredAll(anchors: Dict<Symbol, real>, keys: seq<Symbol>) {
    forall i | 0 <= i < |keys| :: keys[i] in anchors.entries
  }

  /**
   * The scan over the anchored symbols, in order. Existing positions are never
   * touched; each new position was accepted by the broker, fades its move and was
   * opened at this scan; its ENTRY record is logged in the same order as the
   * dictionary grows; the counter grows by one per entry and never past the
   * maximum; the cash never grows; a dry run records nothing.
   */
  function ScanSymbols(env: MonitorEnv, at: Instant, window: Window, poll: Poll, acc: ScanState, keys: seq<Symbol>): (r: ScanState)
    requires acc.entered == []
    requires AnchoredAll(acc.state.anchorCloses, keys) && AnchorsPositive(acc.state.anchorCloses)
    ensures r.state == acc.state.(positions := r.state.positions, tradeHistory := r.state.tradeHistory)
    ensures acc.activeCount <= r.activeCount && r.cash <= acc.cash
    ensures acc.activeCount <= MaxConcurrentPositions ==> r.activeCount <= MaxConcurrentPositions
    ensures env.dryRun ==> r.state == acc.state && r.entered == []
    ensures !env.dryRun ==> r.activeCount - acc.activeCount == |r.entered|
    ensures r.state.positions.keys == acc.state.positions.keys + Tickers(r.entered)
    ensures forall k | k in acc.state.positions.entries ::
              k in r.state.positions.entries && r.state.positions.entries[k] == acc.state.positions.entries[k]
    ensures r.state.tradeHistory == LogAll(acc.state.tradeHistory, r.entered)
    decreases |keys|
  {
    if |keys| == 0 then acc
    else
      var init := keys[..|keys| - 1];
      var s := keys[|keys| - 1];
      assert AnchoredAll(acc.state.anchorCloses, init);
      var mid := ScanSymbols(env, at, window, poll, acc, init);
      var r := ScanSymbol(env, at, window, poll, mid, s);
      if r.state.positions == mid.state.positions then r
      else
        AppendEntry(acc.state.positions.keys, acc.state.tradeHistory, mid.state.positions.keys, mid.state.tradeHistory,
                    mid.entered, r.entered, s);
        r
  }

  /** One more entry extends both the key order and the logged history by that entry. */
  lemma AppendEntry(keys0: seq<Symbol>, history0: seq<TradeRecord>, keys: seq<Symbol>, history: seq<TradeRecord>,
                    entered: seq<TradeRecord>, entered1: seq<TradeRecord>, s: Symbol)
    requires keys == keys0 + Tickers(entered) && history == LogAll(history0, entered)
    requires |entered1| == |entered| + 1 && entered1[..|entered|] == entered && entered1[|entered|].ticker == s
    ensures keys + [s] == keys0 + Tickers(entered1)
    ensures LogTrade(history, entered1[|entered|]) == LogAll(history0, entered1)
  {
    TickersAppend(entered, entered1);
    AppendAssoc(keys0, Tickers(entered), [s]);
    LogOneMore(history0, entered, entered1);
  }

  lemma TickersAppend(entered: seq<TradeRecord>, entered1: seq<TradeRecord>)
    requires |entered1| == |entered| + 1 && entered1[..|entered|] == entered
    ensures Tickers(entered1) == Tickers(entered) + [entered1[|entered|].ticker]
  {
    assert entered1[..|entered1| - 1] == entered;
  }

  /**
   * Every position of `after` not in `before` was accepted by the broker for one of
   * the anchored `keys`, fades its move from its anchor, and carries time `at` and
   * `window`.
   */
  predicate NewPositionsFade(env: MonitorEnv, at: Instant, window: Window, poll: Poll, anchors: Dict<Symbol, real>,
                             before: Dict<Symbol, Position>, after: Dict<Symbol, Position>, keys: seq<Symbol>) {
    forall k | k in after.entries && k !in before.entries ::
      && k in keys && k in poll.accepted && k in anchors.entries
      && OpenedFrom(after.entries[k], anchors.entries[k], env.friday)
      && after.entries[k].entryTime == at
      && after.entries[k].triggerWindow == window
  }

  /** Every position a scan adds was accepted by the broker for an anchored symbol, fades its move, and carries this scan's time and window. */
  lemma {:induction false} ScanOpensFadingPositions(env: MonitorEnv, at: Instant, window: Window, poll: Poll,
                                                    acc: ScanState, keys: seq<Symbol>)
    requires acc.entered == []
    requires AnchoredAll(acc.state.anchorCloses, keys) && AnchorsPositive(acc.state.anchorCloses)
    ensures NewPositionsFade(env, at, window, poll, acc.state.anchorCloses, acc.state.positions,
                             ScanSymbols(env, at, window, poll, acc, keys).state.positions, keys)
    decreases |keys|
  {
    if |keys| > 0 {
      var init := keys[..|keys| - 1];
      var s := keys[|keys| - 1];
      assert AnchoredAll(acc.state.anchorCloses, init);
      ScanOpensFadingPositions(env, at, window, poll, acc, init);
      var mid := ScanSymbols(env, at, window, poll, acc, init);
      var r := ScanSymbol(env, at, window, poll, mid, s);
      FadeStep(env, at, window, poll, acc.state.anchorCloses, acc.state.positions, mid.state.positions,
               r.state.positions, keys);
    }
  }

  /** One more symbol of the scan, which either leaves the positions alone or adds a fading one for it. */
  lemma FadeStep(env: MonitorEnv, at: Instant, window: Window, poll: Poll, anchors: Dict<Symbol, real>,
                 before: Dict<Symbol, Position>, mid: Dict<Symbol, Position>, after: Dict<Symbol, Position>,
                 keys: seq<Symbol>)
    requires |keys| > 0 && keys[|keys| - 1] in anchors.entries
    requires NewPositionsFade(env, at, window, poll, anchors, before, mid, keys[..|keys| - 1])
    requires forall k | k in before.entries :: k in mid.entries
    requires after != mid ==>
               && keys[|keys| - 1] in poll.accepted && keys[|keys| - 1] !in mid.entries
               && keys[|keys| - 1] in after.entries
               && after == Put(mid, keys[|keys| - 1], after.entries[keys[|keys| - 1]])
               && OpenedFrom(after.entries[keys[|keys| - 1]], anchors.entries[keys[|keys| - 1]], env.friday)
               && after.entries[keys[|keys| - 1]].entryTime == at
               && after.entries[keys[|keys| - 1]].triggerWindow == window
    ensures NewPositionsFade(env, at, window, poll, anchors, before, after, keys)
  {
    var init := keys[..|keys| - 1];
    assert forall k | k in init :: k in keys;
  }

  /** Each record is an ENTRY at `at` for a position in `positions` that was not in `before`, with its size and price. */
  predicate EntriesDescribe(entered: seq<TradeRecord>, at: Instant,
                            positions: Dict<Symbol, Position>, before: Dict<Symbol, Position>) {
    forall i | 0 <= i < |entered| ::
      && entered[i].action == EntryAction && entered[i].timestamp == at
      && entered[i].ticker in positions.entries
      && entered[i].ticker !in before.entries
      && entered[i].qty == positions.entries[entered[i].ticker].qty
      && entered[i].price == positions.entries[entered[i].ticker].entryPrice
  }

  lemma EntriesDescribeStep(entered: seq<TradeRecord>, at: Instant, positions: Dict<Symbol, Position>,
                            before: Dict<Symbol, Position>, s: Symbol, pos: Position, record: TradeRecord)
    requires EntriesDescribe(entered, at, positions, before)
    requires s !in positions.entries && s !in before.entries
    requires record.ticker == s && record.action == EntryAction && record.timestamp == at
    requires record.qty == pos.qty && record.price == pos.entryPrice
    ensures EntriesDescribe(entered + [record], at, Put(positions, s, pos), before)
  {
    var e := entered + [record];
    forall i | 0 <= i < |e|
      ensures e[i].ticker in Put(positions, s, pos).entries
      ensures e[i].qty == Put(positions, s, pos).entries[e[i].ticker].qty
    {
      if i < |entered| {
        assert e[i] == entered[i];
      }
    }
  }

  /** Each ENTRY record a scan logs describes the position it opened, at the scan's time. */
  lemma {:induction false} ScanRecordsMatchPositions(env: MonitorEnv, at: Instant, window: Window, poll: Poll,
                                                     acc: ScanState, keys: seq<Symbol>)
    requires acc.entered == []
    requires AnchoredAll(acc.state.anchorCloses, keys) && AnchorsPositive(acc.state.anchorCloses)
    ensures var r := ScanSymbols(env, at, window, poll, acc, keys);
            EntriesDescribe(r.entered, at, r.state.positions, acc.state.positions)
    decreases |keys|
  {
    if |keys| > 0 {
      var init := keys[..|keys| - 1];
      assert AnchoredAll(acc.state.anchorCloses, init);
      ScanRecordsMatchPositions(env, at, window, poll, acc, init);
      var mid := ScanSymbols(env, at, window, poll, acc, init);
      var s := keys[|keys| - 1];
      var r := ScanSymbol(env, at, window, poll, mid, s);
      if r.state.positions != mid.state.positions {
        var record := r.entered[|mid.entered|];
        assert r.entered == mid.entered + [record];
        EntriesDescribeStep(mid.entered, at, mid.state.positions, acc.state.positions,
                            s, r.state.positions.entries[s], record);
      }
    }
  }

  /**
   * One scan (one pass of the `while` body): the entry counter starts at the number
   * of open positions and the window is the one of the scan's time. In live mode
   * the book never grows past the maximum; a dry run records nothing.
   */
  function ScanIteration(env: MonitorEnv, at: Instant, poll: Poll, st: SessionState, cash: real): (r: ScanState)
    requires AnchorsPositive(st.anchorCloses)
    ensures r.state == st.(positions := r.state.positions, tradeHistory := r.state.tradeHistory)
    ensures r.cash <= cash
    ensures env.dryRun ==> r.state == st && r.entered == []
    ensures !env.dryRun ==> Size(r.state.positions) == Size(st.positions) + |r.entered|
    ensures !env.dryRun && Size(st.positions) <= MaxConcurrentPositions ==>
              Size(r.state.positions) <= MaxConcurrentPositions
    ensures r.state.positions.keys == st.positions.keys + Tickers(r.entered)
    ensures forall k | k in st.positions.entries ::
              k in r.state.positions.entries && r.state.positions.entries[k] == st.positions.entries[k]
    ensures r.state.tradeHistory == LogAll(st.tradeHistory, r.entered)
  {
    var acc := ScanState(st, Size(st.positions), cash, []);
    assert AnchoredAll(st.anchorCloses, st.anchorCloses.keys);
    ScanSymbols(env, at, TriggerWindow(at), poll, acc, st.anchorCloses.keys)
  }

  /** Every open position was opened by a scan against its anchor. */
  predicate OpenedPositions(positions: Dict<Symbol, Position>, anchors: Dict<Symbol, real>, friday: bool) {
    forall k | k in positions.entries :: k in anchors.entries && OpenedFrom(positions.entries[k], anchors.entries[k], friday)
  }

  lemma ScanKeepsPositionsOpened(env: MonitorEnv, at: Instant, poll: Poll, st: SessionState, cash: real)
    requires AnchorsPositive(st.anchorCloses)
    ensures OpenedPositions(st.positions, st.anchorCloses, env.friday) ==>
              OpenedPositions(ScanIteration(env, at, poll, st, cash).state.positions, st.anchorCloses, env.friday)
  {
    var acc := ScanState(st, Size(st.positions), cash, []);
    assert AnchoredAll(st.anchorCloses, st.anchorCloses.keys);
    ScanOpensFadingPositions(env, at, TriggerWindow(at), poll, acc, st.anchorCloses.keys);
  }

  // ───────────── phase 2: monitor and enter ─────────────

  /** How the monitor phase ended: at the instant the cutoff was seen, or `None` if interrupted first. */
  datatype MonitorResult = MonitorResult(state: SessionState, end: Option<Instant>)

  /**
   * The `while not is_past_entry_cutoff()` loop: one scan per poll until the clock
   * reaches 8:00 PM. The cash carries over from scan to scan; the entry counter does
   * not. Running out of polls before the cutoff is an interrupted session.
   */
  function MonitorLoop(env: MonitorEnv, st: SessionState, cash: real, now: Instant, polls: seq<Poll>): (r: MonitorResult)
    requires AnchorsPositive(st.anchorCloses)
    ensures r.state == st.(positions := r.state.positions, tradeHistory := r.state.tradeHistory)
    ensures r.end.Some? ==> IsPastEntryCutoff(r.end.value)
    ensures IsPastEntryCutoff(now) ==> r == MonitorResult(st, Some(now))
    ensures env.dryRun ==> r.state == st
    ensures !env.dryRun && Size(st.positions) <= MaxConcurrentPositions ==>
              Size(r.state.positions) <= MaxConcurrentPositions
    ensures forall k | k in st.positions.entries ::
              k in r.state.positions.entries && r.state.positions.entries[k] == st.positions.entries[k]
    ensures OpenedPositions(st.positions, st.anchorCloses, env.friday) ==>
              OpenedPositions(r.state.positions, st.anchorCloses, env.friday)
    decreases |polls|
  {
    if IsPastEntryCutoff(now) then MonitorResult(st, Some(now))
    else if |polls| == 0 then MonitorResult(st, None)
    else
      var scan := ScanIteration(env, now, polls[0], st, cash);
      ScanKeepsPositionsOpened(env, now, polls[0], st, cash);
      MonitorLoop(env, scan.state, scan.cash, polls[0].next, polls[1..])
  }

  /** Every poll wakes at or after `bound`. */
  predicate PollsFrom(bound: int, polls: seq<Poll>) {
    forall i | 0 <= i < |polls| :: Absolute(polls[i].next) >= bound
  }

  /** The loop hands over at its start time or at one of its polls' wake-ups, so never before all of them. */
  lemma {:induction false} MonitorEndsNoEarlier(env: MonitorEnv, st: SessionState, cash: real, now: Instant,
                                               polls: seq<Poll>, bound: int)
    requires AnchorsPositive(st.anchorCloses)
    requires Absolute(now) >= bound && PollsFrom(bound, polls)
    ensures var r := MonitorLoop(env, st, cash, now, polls);
            r.end.Some? ==> Absolute(r.end.value) >= bound
    decreases |polls|
  {
    if !IsPastEntryCutoff(now) && |polls| > 0 {
      var scan := ScanIteration(env, now, polls[0], st, cash);
      assert PollsFrom(bound, polls[1..]) by {
        forall i | 0 <= i < |polls[1..]| ensures Absolute(polls[1..][i].next) >= bound {
          assert polls[1..][i] == polls[i + 1];
        }
      }
      MonitorEndsNoEarlier(env, scan.state, scan.cash, polls[0].next, polls[1..], bound);
    }
  }

  /** The account figures read once at the start of the phase. */
  datatype Account = Account(equity: real, cash: real)

  /**
   * `phase_monitor_and_enter`: wait for 4:05 PM; with no anchors, or without account
   * data, stop at once; otherwise run the loop with the day's Friday flag.
   */
  function PhaseMonitor(dryRun: bool, start: Instant, st: SessionState, account: Option<Account>,
                        polls: seq<Poll>): (r: MonitorResult)
    requires AnchorsPositive(st.anchorCloses)
    ensures r.state == st.(positions := r.state.positions, tradeHistory := r.state.tradeHistory)
    ensures Size(st.anchorCloses) == 0 || account.None? ==>
              r == MonitorResult(st, Some(SleepUntil(start, MonitorStartHour, MonitorStartMinute)))
    ensures dryRun ==> r.state == st
    ensures !dryRun && Size(st.positions) <= MaxConcurrentPositions ==>
              Size(r.state.positions) <= MaxConcurrentPositions
    ensures OpenedPositions(st.positions, st.anchorCloses, IsFriday(start)) ==>
              OpenedPositions(r.state.positions, st.anchorCloses, IsFriday(start))
  {
    var begin := SleepUntil(start, MonitorStartHour, MonitorStartMinute);
    if Size(st.anchorCloses) == 0 || account.None? then MonitorResult(st, Some(begin))
    else
      var env := MonitorEnv(IsFriday(begin), account.value.equity, dryRun);
      MonitorLoop(env, st, account.value.cash, begin, polls)
  }

  /** The monitor phase hands over no earlier than its start and its polls. */
  lemma PhaseMonitorEndsNoEarlier(dryRun: bool, start: Instant, st: SessionState, account: Option<Account>,
                                  polls: seq<Poll>, bound: int)
    requires AnchorsPositive(st.anchorCloses)
    requires Absolute(start) >= bound && PollsFrom(bound, polls)
    ensures var r := PhaseMonitor(dryRun, start, st, account, polls);
            r.end.Some? ==> Absolute(r.end.value) >= bound
  {
    var begin := SleepUntil(start, MonitorStartHour, MonitorStartMinute);
    if Size(st.anchorCloses) != 0 && account.Some? {
      MonitorEndsNoEarlier(MonitorEnv(IsFriday(begin), account.value.equity, dryRun), st, account.value.cash,
                           begin, polls, bound);
    }
  }
}

=== FILE: performance.dfy ===
/**
 * The running performance ledger of bot/state_manager.py
 * (`update_performance_after_session`): a fold over the trades closed in a session
 * that maintains counters, P&L totals, best/worst trade, a signed streak, running
 * means and a bounded session log.
 */
module Performance {
  import opened Wrappers
  import opened Strategies
  import opened StateManager

  /** One entry of the session log. An empty session records no symbols. */
  datatype SessionEntry = SessionEntry(
    day: int,
    trades: nat,
    netPnlPct: real,
    netPnlDollars: real,
    symbols: seq<Symbol>)

  datatype PerformanceRecord = PerformanceRecord(
    totalSessions: int,
    sessionsWithTrades: int,
    sessionsNoTrades: int,
    totalTrades: int,
    wins: int,
    losses: int,
    breakeven: int,
    longTrades: int,
    longWins: int,
    shortTrades: int,
    shortWins: int,
    totalNetPnlPct: real,
    totalNetPnlDollars: real,
    bestTradePnlPct: real,
    bestTradeSymbol: Option<Symbol>,
    worstTradePnlPct: real,
    worstTradeSymbol: Option<Symbol>,
    avgWinPct: real,
    avgLossPct: real,
    avgMfePct: real,
    avgMaePct: real,
    currentStreak: int,
    bestStreak: int,
    worstStreak: int,
    sessionLog: seq<SessionEntry>,
    winSum: real,     // `_win_sum`, absent (0) in a fresh document
    lossSum: real)    // `_loss_sum`

  const DefaultPerformance: PerformanceRecord := PerformanceRecord(
    0, 0, 0, 0, 0, 0, 0, 0, 0, 0, 0, 0.0, 0.0, 0.0, None, 0.0, None,
    0.0, 0.0, 0.0, 0.0, 0, 0, 0, [], 0.0, 0.0)

  /** Only the last thirty sessions are logged. */
  const SessionLogCap: nat := 30

  /** Net P&L within this distance of zero counts as breakeven. */
  const DeadZone: real := 0.0001

  datatype Outcome = Win | Loss | Breakeven

  function Classify(net: real): (o: Outcome)
    ensures o == Win <==> net > DeadZone
    ensures o == Loss <==> net < -DeadZone
  {
    if net > DeadZone then Win else if net < -DeadZone then Loss else Breakeven
  }

  function NetOf(t: ClosedTrade): real { t.metrics.netPnlPct }

  function OutcomeOf(t: ClosedTrade): Outcome { Classify(NetOf(t)) }

  /** Any direction other than long is booked as a short. */
  predicate IsLong(t: ClosedTrade) { t.metrics.direction == Long }

  /** Dollar P&L from prices and quantity, independent of the percentage figure. */
  function DollarPnl(t: ClosedTrade): (r: real)
    ensures r == SignedMove(t.metrics.entryPrice, t.metrics.exitPrice, t.metrics.direction) * t.qty as real
  {
    if t.metrics.direction == Long then (t.metrics.exitPrice - t.metrics.entryPrice) * t.qty as real
    else (t.metrics.entryPrice - t.metrics.exitPrice) * t.qty as real
  }

  /** Signed streak: wins extend a winning run, a loss after wins restarts at -1, and so on. */
  function StreakAfter(s: int, o: Outcome): (r: int)
    ensures o == Win ==> r >= 1 && (s >= 0 ==> r == s + 1)
    ensures o == Loss ==> r <= -1 && (s <= 0 ==> r == s - 1)
    ensures o == Win && s < 0 ==> r == 1
    ensures o == Loss && s > 0 ==> r == -1
    ensures o == Breakeven ==> r == s
  {
    match o
    case Win => (if s > 0 then s else 0) + 1
    case Loss => (if s < 0 then s else 0) - 1
    case Breakeven => s
  }

  // ───────────── reference definitions over a list of trades ─────────────

  function Count(ts: seq<ClosedTrade>, o: Outcome): nat
    decreases |ts|
  {
    if |ts| == 0 then 0
    else Count(ts[..|ts| - 1], o) + (if OutcomeOf(ts[|ts| - 1]) == o then 1 else 0)
  }

  function CountLong(ts: seq<ClosedTrade>): nat
    decreases |ts|
  {
    if |ts| == 0 then 0 else CountLong(ts[..|ts| - 1]) + (if IsLong(ts[|ts| - 1]) then 1 else 0)
  }

  /** The wins among the long (`long`) or the other (`!long`) trades. */
  function CountWins(ts: seq<ClosedTrade>, long: bool): nat
    decreases |ts|
  {
    if |ts| == 0 then 0
    else
      var t := ts[|ts| - 1];
      CountWins(ts[..|ts| - 1], long) + (if IsLong(t) == long && OutcomeOf(t) == Win then 1 else 0)
  }

  function SumNet(ts: seq<ClosedTrade>): real
    decreases |ts|
  {
    if |ts| == 0 then 0.0 else SumNet(ts[..|ts| - 1]) + NetOf(ts[|ts| - 1])
  }

  function SumDollars(ts: seq<ClosedTrade>): real
    decreases |ts|
  {
    if |ts| == 0 then 0.0 else SumDollars(ts[..|ts| - 1]) + DollarPnl(ts[|ts| - 1])
  }

  /** Sum of the net P&L of the trades with outcome `o`. */
  function SumOutcome(ts: seq<ClosedTrade>, o: Outcome): real
    decreases |ts|
  {
    if |ts| == 0 then 0.0
    else SumOutcome(ts[..|ts| - 1], o) + (if OutcomeOf(ts[|ts| - 1]) == o then NetOf(ts[|ts| - 1]) else 0.0)
  }

  /** The streak after a run of trades. */
  function Streak(s: int, ts: seq<ClosedTrade>): int
    decreases |ts|
  {
    if |ts| == 0 then s else StreakAfter(Streak(s, ts[..|ts| - 1]), OutcomeOf(ts[|ts| - 1]))
  }

  /** The favourable (`favorable`) or adverse excursion a closed trade recorded, if any. */
  function Excursion(t: ClosedTrade, favorable: bool): Option<real> {
    if favorable then t.metrics.maxFavorableExcursion else t.metrics.maxAdverseExcursion
  }

  function SumExcursion(ts: seq<ClosedTrade>, favorable: bool): real
    decreases |ts|
  {
    if |ts| == 0 then 0.0 else SumExcursion(ts[..|ts| - 1], favorable) + Excursion(ts[|ts| - 1], favorable).GetOr(0.0)
  }

  // ───────────── the per-trade loop ─────────────

  /** The loop's state: the record plus the session's own sums. */
  datatype SessionTotals = SessionTotals(
    perf: PerformanceRecord,
    pnlPct: real,
    pnlDollars: real,
    winPcts: real,
    lossPcts: real)

  /** `avg += (value - avg) / n`. */
  function IncrementalMean(avg: real, value: real, n: int): (r: real)
    requires n > 0
    ensures r * n as real == avg * (n - 1) as real + value
  {
    var r := avg + (value - avg) / n as real;
    assert (value - avg) / n as real * n as real == value - avg;
    r
  }

  /** A mean is only moved by a trade that recorded the excursion. */
  function MeanStep(avg: real, x: Option<real>, n: int): real {
    if x.Some? && n > 0 then IncrementalMean(avg, x.value, n) else avg
  }

  /** The running mean of one excursion kind after `ts`, starting from `avg` over `n` trades. */
  function RunningMean(avg: real, n: int, ts: seq<ClosedTrade>, favorable: bool): real
    decreases |ts|
  {
    if |ts| == 0 then avg
    else MeanStep(RunningMean(avg, n, ts[..|ts| - 1], favorable), Excursion(ts[|ts| - 1], favorable), n + |ts|)
  }

  /** One iteration of the per-trade loop. */
  function RecordTrade(acc: SessionTotals, t: ClosedTrade): SessionTotals {
    var p := acc.perf;
    var net := NetOf(t);
    var dollars := DollarPnl(t);
    var total := p.totalTrades + 1;
    var o := OutcomeOf(t);
    var longWin := IsLong(t) && o == Win;
    var shortWin := !IsLong(t) && o == Win;
    var betterBest := net > p.bestTradePnlPct;
    var worseWorst := net < p.worstTradePnlPct;
    var p' := p.(
      totalTrades := total,
      totalNetPnlPct := p.totalNetPnlPct + net,
      totalNetPnlDollars := p.totalNetPnlDollars + dollars,
      wins := p.wins + (if o == Win then 1 else 0),
      losses := p.losses + (if o == Loss then 1 else 0),
      breakeven := p.breakeven + (if o == Breakeven then 1 else 0),
      currentStreak := StreakAfter(p.currentStreak, o),
      longTrades := p.longTrades + (if IsLong(t) then 1 else 0),
      longWins := p.longWins + (if longWin then 1 else 0),
      shortTrades := p.shortTrades + (if IsLong(t) then 0 else 1),
      shortWins := p.shortWins + (if shortWin then 1 else 0),
      bestTradePnlPct := if betterBest then net else p.bestTradePnlPct,
      bestTradeSymbol := if betterBest then Some(t.symbol) else p.bestTradeSymbol,
      worstTradePnlPct := if worseWorst then net else p.worstTradePnlPct,
      worstTradeSymbol := if worseWorst then Some(t.symbol) else p.worstTradeSymbol,
      avgMfePct := MeanStep(p.avgMfePct, Excursion(t, true), total),
      avgMaePct := MeanStep(p.avgMaePct, Excursion(t, false), total));
    SessionTotals(
      p',
      acc.pnlPct + net,
      acc.pnlDollars + dollars,
      acc.winPcts + (if o == Win then net else 0.0),
      acc.lossPcts + (if o == Loss then net else 0.0))
  }

  /** Fields the per-trade loop never touches. */
  predicate SessionFieldsKept(p: PerformanceRecord, q: PerformanceRecord) {
    && q.totalSessions == p.totalSessions
    && q.sessionsWithTrades == p.sessionsWithTrades
    && q.sessionsNoTrades == p.sessionsNoTrades
    && q.bestStreak == p.bestStreak
    && q.worstStreak == p.worstStreak
    && q.avgWinPct == p.avgWinPct
    && q.avgLossPct == p.avgLossPct
    && q.sessionLog == p.sessionLog
    && q.winSum == p.winSum
    && q.lossSum == p.lossSum
  }

  /**
   * The per-trade loop over a session's trades, in order. Its counters and sums
   * agree with the reference definitions above.
   */
  function RecordTrades(acc: SessionTotals, ts: seq<ClosedTrade>): (r: SessionTotals)
    ensures r.perf.totalTrades == acc.perf.totalTrades + |ts|
    ensures r.perf.wins == acc.perf.wins + Count(ts, Win)
    ensures r.perf.losses == acc.perf.losses + Count(ts, Loss)
    ensures r.perf.breakeven == acc.perf.breakeven + Count(ts, Breakeven)
    ensures r.perf.longTrades == acc.perf.longTrades + CountLong(ts)
    ensures r.perf.shortTrades == acc.perf.shortTrades + (|ts| - CountLong(ts))
    // The next four follow from the two `CountWins` clauses; the ledger invariant's proof relies on them.
    ensures r.perf.longWins + r.perf.shortWins == acc.perf.longWins + acc.perf.shortWins + Count(ts, Win)
    ensures r.perf.longWins >= acc.perf.longWins && r.perf.shortWins >= acc.perf.shortWins
    ensures r.perf.longWins - acc.perf.longWins <= CountLong(ts)
    ensures r.perf.shortWins - acc.perf.shortWins <= |ts| - CountLong(ts)
    ensures r.perf.longWins == acc.perf.longWins + CountWins(ts, true)
    ensures r.perf.shortWins == acc.perf.shortWins + CountWins(ts, false)
    ensures r.perf.totalNetPnlPct == acc.perf.totalNetPnlPct + SumNet(ts)
    ensures r.perf.totalNetPnlDollars == acc.perf.totalNetPnlDollars + SumDollars(ts)
    ensures r.pnlPct == acc.pnlPct + SumNet(ts) && r.pnlDollars == acc.pnlDollars + SumDollars(ts)
    ensures r.winPcts == acc.winPcts + SumOutcome(ts, Win)
    ensures r.lossPcts == acc.lossPcts + SumOutcome(ts, Loss)
    ensures r.perf.currentStreak == Streak(acc.perf.currentStreak, ts)
    ensures r.perf.avgMfePct == RunningMean(acc.perf.avgMfePct, acc.perf.totalTrades, ts, true)
    ensures r.perf.avgMaePct == RunningMean(acc.perf.avgMaePct, acc.perf.totalTrades, ts, false)
    ensures SessionFieldsKept(acc.perf, r.perf)
    decreases |ts|
  {
    if |ts| == 0 then acc
    else RecordTrade(RecordTrades(acc, ts[..|ts| - 1]), ts[|ts| - 1])
  }

  /**
   * The best trade only improves and the worst only worsens; together they bound every
   * trade of the session, and each is its old value or some trade's, with that symbol.
   */
  lemma {:induction false} BestAndWorstTrade(acc: SessionTotals, ts: seq<ClosedTrade>)
    ensures RecordTrades(acc, ts).perf.bestTradePnlPct >= acc.perf.bestTradePnlPct
    ensures RecordTrades(acc, ts).perf.worstTradePnlPct <= acc.perf.worstTradePnlPct
    ensures forall i | 0 <= i < |ts| ::
              RecordTrades(acc, ts).perf.worstTradePnlPct <= NetOf(ts[i]) <= RecordTrades(acc, ts).perf.bestTradePnlPct
    ensures RecordTrades(acc, ts).perf.bestTradePnlPct == acc.perf.bestTradePnlPct
            || exists i | 0 <= i < |ts| :: RecordTrades(acc, ts).perf.bestTradePnlPct == NetOf(ts[i])
                                            && RecordTrades(acc, ts).perf.bestTradeSymbol == Some(ts[i].symbol)
    ensures RecordTrades(acc, ts).perf.worstTradePnlPct == acc.perf.worstTradePnlPct
            || exists i | 0 <= i < |ts| :: RecordTrades(acc, ts).perf.worstTradePnlPct == NetOf(ts[i])
                                            && RecordTrades(acc, ts).perf.worstTradeSymbol == Some(ts[i].symbol)
    decreases |ts|
  {
    if |ts| > 0 {
      var init := ts[..|ts| - 1];
      BestAndWorstTrade(acc, init);
      var prev := RecordTrades(acc, init).perf;
      var cur := RecordTrades(acc, ts).perf;
      forall i | 0 <= i < |ts| ensures cur.worstTradePnlPct <= NetOf(ts[i]) <= cur.bestTradePnlPct {
        if i < |ts| - 1 {
          assert ts[i] == init[i];
        }
      }
      if cur.bestTradePnlPct != acc.perf.bestTradePnlPct && cur.bestTradePnlPct == prev.bestTradePnlPct {
        var i :| 0 <= i < |init| && prev.bestTradePnlPct == NetOf(init[i]) && prev.bestTradeSymbol == Some(init[i].symbol);
        assert ts[i] == init[i];
      }
      if cur.worstTradePnlPct != acc.perf.worstTradePnlPct && cur.worstTradePnlPct == prev.worstTradePnlPct {
        var i :| 0 <= i < |init| && prev.worstTradePnlPct == NetOf(init[i]) && prev.worstTradeSymbol == Some(init[i].symbol);
        assert ts[i] == init[i];
      }
    }
  }

  predicate AllExcursionsKnown(ts: seq<ClosedTrade>, favorable: bool) {
    forall i | 0 <= i < |ts| :: Excursion(ts[i], favorable).Some?
  }

  /** `m` added up `count` times: the product m × count, written without multiplication. */
  function Times(m: real, count: nat): real
    decreases count
  {
    if count == 0 then 0.0 else Times(m, count - 1) + m
  }

  lemma {:induction false} TimesIsProduct(m: real, count: nat)
    ensures Times(m, count) == m * count as real
    decreases count
  {
    if count > 0 {
      TimesIsProduct(m, count - 1);
      var k := (count - 1) as real;
      assert count as real == k + 1.0;
      assert m * (k + 1.0) == m * k + m;
    }
  }

  /**
   * With every excursion known, the running mean stays a true mean: after the trades
   * `ts`, the mean taken `total` times (the `n` trades before plus `ts`) is the old
   * mean taken `n` times plus the excursions of `ts`. `Times` is multiplication
   * (`TimesIsProduct`), written as repeated addition so that the induction stays linear.
   */
  lemma {:induction false} RunningMeanIsMean(avg: real, n: nat, total: nat, ts: seq<ClosedTrade>, favorable: bool)
    requires total == n + |ts| && AllExcursionsKnown(ts, favorable)
    ensures Times(RunningMean(avg, n, ts, favorable), total) == Times(avg, n) + SumExcursion(ts, favorable)
    decreases |ts|
  {
    if |ts| > 0 {
      KnownPrefix(ts, favorable);
      RunningMeanIsMean(avg, n, total - 1, ts[..|ts| - 1], favorable);
      RunningMeanStep(avg, n, total, ts, favorable);
    }
  }

  lemma KnownPrefix(ts: seq<ClosedTrade>, favorable: bool)
    requires |ts| > 0 && AllExcursionsKnown(ts, favorable)
    ensures AllExcursionsKnown(ts[..|ts| - 1], favorable)
  {
    var init := ts[..|ts| - 1];
    forall i | 0 <= i < |init| ensures Excursion(init[i], favorable).Some? {
      assert init[i] == ts[i];
    }
  }

  /** One known excursion moves mean × count and the excursion sum by the same amount. */
  lemma RunningMeanStep(avg: real, n: nat, total: nat, ts: seq<ClosedTrade>, favorable: bool)
    requires total == n + |ts| && |ts| > 0 && Excursion(ts[|ts| - 1], favorable).Some?
    ensures var x := Excursion(ts[|ts| - 1], favorable).value;
            && Times(RunningMean(avg, n, ts, favorable), total)
               == Times(RunningMean(avg, n, ts[..|ts| - 1], favorable), total - 1) + x
            && SumExcursion(ts, favorable) == SumExcursion(ts[..|ts| - 1], favorable) + x
  {
    var prev := RunningMean(avg, n, ts[..|ts| - 1], favorable);
    var x := Excursion(ts[|ts| - 1], favorable).value;
    assert RunningMean(avg, n, ts, favorable) == IncrementalMean(prev, x, total);
    IncrementalMeanTimes(prev, x, total);
  }

  /** One incremental update, with the products written as repeated sums. */
  lemma IncrementalMeanTimes(avg: real, x: real, count: nat)
    requires count > 0
    ensures Times(IncrementalMean(avg, x, count), count) == Times(avg, count - 1) + x
  {
    TimesIsProduct(IncrementalMean(avg, x, count), count);
    TimesIsProduct(avg, count - 1);
  }

  // ───────────── the session update ─────────────

  /** Append a session entry, keeping only the most recent `SessionLogCap`. */
  function AppendSessionLog(log: seq<SessionEntry>, entry: SessionEntry): (r: seq<SessionEntry>)
    ensures |r| == if |log| + 1 > SessionLogCap then SessionLogCap else |log| + 1
    ensures r[|r| - 1] == entry
    ensures r[..|r| - 1] == log[|log| - (|r| - 1)..]
  {
    var r := KeepRecent(log + [entry], SessionLogCap);
    assert r[..|r| - 1] == (log + [entry])[|log| + 1 - |r|..|log|];
    r
  }

  /** `sum / count`, or `fallback` when nothing has been counted. */
  function AverageOr(sum: real, count: int, fallback: real): (r: real)
    ensures count > 0 ==> r * count as real == sum
    ensures count <= 0 ==> r == fallback
  {
    if count > 0 then sum / count as real else fallback
  }

  /** The session's log entry: its day, trade count, P&L and the symbols in closing order. */
  function TradedEntry(day: int, trades: seq<ClosedTrade>, acc: SessionTotals): (e: SessionEntry)
    ensures e.day == day
    ensures e.trades == |trades| && e.netPnlPct == acc.pnlPct && e.netPnlDollars == acc.pnlDollars
    ensures |e.symbols| == |trades| && forall i | 0 <= i < |trades| :: e.symbols[i] == trades[i].symbol
  {
    SessionEntry(day, |trades|, acc.pnlPct, acc.pnlDollars,
                 seq(|trades|, i requires 0 <= i < |trades| => trades[i].symbol))
  }

  /**
   * The end of a session with trades: the streak extremes are compared with the closing
   * streak, the win and loss sums absorb the session's, the averages are recomputed
   * from those sums, and the session is logged. Nothing else changes.
   */
  function CloseSession(acc: SessionTotals, entry: SessionEntry): (r: PerformanceRecord)
    ensures r.bestStreak == if acc.perf.bestStreak >= acc.perf.currentStreak then acc.perf.bestStreak else acc.perf.currentStreak
    ensures r.worstStreak == if acc.perf.worstStreak <= acc.perf.currentStreak then acc.perf.worstStreak else acc.perf.currentStreak
    ensures r.winSum == acc.perf.winSum + acc.winPcts && r.lossSum == acc.perf.lossSum + acc.lossPcts
    ensures r.wins > 0 ==> r.avgWinPct * r.wins as real == r.winSum
    ensures r.wins <= 0 ==> r.avgWinPct == acc.perf.avgWinPct
    ensures r.losses > 0 ==> r.avgLossPct * r.losses as real == r.lossSum
    ensures r.losses <= 0 ==> r.avgLossPct == acc.perf.avgLossPct
    ensures r.sessionLog == AppendSessionLog(acc.perf.sessionLog, entry)
    ensures r == acc.perf.(bestStreak := r.bestStreak, worstStreak := r.worstStreak, winSum := r.winSum,
                           lossSum := r.lossSum, avgWinPct := r.avgWinPct, avgLossPct := r.avgLossPct,
                           sessionLog := r.sessionLog)
  {
    var p := acc.perf;
    var winSum := p.winSum + acc.winPcts;
    var lossSum := p.lossSum + acc.lossPcts;
    p.(bestStreak := if p.bestStreak >= p.currentStreak then p.bestStreak else p.currentStreak,
       worstStreak := if p.worstStreak <= p.currentStreak then p.worstStreak else p.currentStreak,
       winSum := winSum, lossSum := lossSum,
       avgWinPct := AverageOr(winSum, p.wins, p.avgWinPct),
       avgLossPct := AverageOr(lossSum, p.losses, p.avgLossPct),
       sessionLog := AppendSessionLog(p.sessionLog, entry))
  }

  /**
   * `update_performance_after_session`: count the session; an empty session is only
   * logged; otherwise fold the trades in, close the streak extremes, recompute the
   * average win and loss from their running sums, and log the session.
   */
  function UpdateAfterSession(perf: PerformanceRecord, day: int, trades: seq<ClosedTrade>): (r: PerformanceRecord)
    ensures r.totalSessions == perf.totalSessions + 1
    ensures 0 < |r.sessionLog| <= SessionLogCap && |r.sessionLog| <= |perf.sessionLog| + 1
    ensures r.sessionLog[..|r.sessionLog| - 1] == perf.sessionLog[|perf.sessionLog| - (|r.sessionLog| - 1)..]
    ensures r.sessionLog[|r.sessionLog| - 1].trades == |trades|
  {
    var p1 := perf.(totalSessions := perf.totalSessions + 1);
    if |trades| == 0 then
      var log := AppendSessionLog(p1.sessionLog, SessionEntry(day, 0, 0.0, 0.0, []));
      p1.(sessionsNoTrades := p1.sessionsNoTrades + 1, sessionLog := log)
    else
      var p2 := p1.(sessionsWithTrades := p1.sessionsWithTrades + 1);
      var acc := RecordTrades(SessionTotals(p2, 0.0, 0.0, 0.0, 0.0), trades);
      CloseSession(acc, TradedEntry(day, trades, acc))
  }

  /** An empty session is counted and logged, and leaves every trade statistic as it was. */
  lemma EmptySession(perf: PerformanceRecord, day: int)
    ensures var r := UpdateAfterSession(perf, day, []);
            && r.sessionsNoTrades == perf.sessionsNoTrades + 1
            && r.sessionLog[|r.sessionLog| - 1] == SessionEntry(day, 0, 0.0, 0.0, [])
            && r == perf.(totalSessions := perf.totalSessions + 1, sessionsNoTrades := r.sessionsNoTrades,
                          sessionLog := r.sessionLog)
  {
  }

  /** A session with trades adds each trade to exactly one outcome and one direction. */
  lemma TradedSessionCounts(perf: PerformanceRecord, day: int, trades: seq<ClosedTrade>)
    requires |trades| > 0
    ensures var r := UpdateAfterSession(perf, day, trades);
            && r.sessionsWithTrades == perf.sessionsWithTrades + 1
            && r.sessionsNoTrades == perf.sessionsNoTrades
            && r.totalTrades == perf.totalTrades + |trades|
            && r.wins == perf.wins + Count(trades, Win)
            && r.losses == perf.losses + Count(trades, Loss)
            && r.breakeven == perf.breakeven + Count(trades, Breakeven)
            && r.longTrades == perf.longTrades + CountLong(trades)
            && r.shortTrades == perf.shortTrades + (|trades| - CountLong(trades))
            && r.totalNetPnlPct == perf.totalNetPnlPct + SumNet(trades)
            && r.totalNetPnlDollars == perf.totalNetPnlDollars + SumDollars(trades)
            && r.sessionLog[|r.sessionLog| - 1].netPnlDollars == SumDollars(trades)
  {
  }

  /**
   * A session with trades moves the streak by its trades and compares the streak
   * extremes with the closing streak only.
   */
  lemma TradedSessionStreak(perf: PerformanceRecord, day: int, trades: seq<ClosedTrade>)
    requires |trades| > 0
    ensures var r := UpdateAfterSession(perf, day, trades);
            && r.currentStreak == Streak(perf.currentStreak, trades)
            && r.bestStreak == (if perf.bestStreak >= r.currentStreak then perf.bestStreak else r.currentStreak)
            && r.worstStreak == (if perf.worstStreak <= r.currentStreak then perf.worstStreak else r.currentStreak)
  {
  }

  /** The win and loss sums run over every session's winning and losing trades. */
  lemma TradedSessionSums(perf: PerformanceRecord, day: int, trades: seq<ClosedTrade>)
    requires |trades| > 0
    ensures var r := UpdateAfterSession(perf, day, trades);
            && r.winSum == perf.winSum + SumOutcome(trades, Win)
            && r.lossSum == perf.lossSum + SumOutcome(trades, Loss)
  {
  }

  /** The average win and loss are recomputed from the running sums, and kept when nothing was counted. */
  lemma TradedSessionAverages(perf: PerformanceRecord, day: int, trades: seq<ClosedTrade>)
    requires |trades| > 0
    ensures var r := UpdateAfterSession(perf, day, trades);
            && (r.wins > 0 ==> r.avgWinPct * r.wins as real == r.winSum)
            && (r.wins <= 0 ==> r.avgWinPct == perf.avgWinPct)
            && (r.losses > 0 ==> r.avgLossPct * r.losses as real == r.lossSum)
            && (r.losses <= 0 ==> r.avgLossPct == perf.avgLossPct)
  {
    var acc := TradedTotals(perf, trades);
    TradedSessionCloses(perf, day, trades);
    AveragesFromClose(acc, TradedEntry(day, trades, acc));
  }

  /** The per-trade loop of a session with trades, started from the counted session. */
  function TradedTotals(perf: PerformanceRecord, trades: seq<ClosedTrade>): SessionTotals {
    var p2 := perf.(totalSessions := perf.totalSessions + 1, sessionsWithTrades := perf.sessionsWithTrades + 1);
    RecordTrades(SessionTotals(p2, 0.0, 0.0, 0.0, 0.0), trades)
  }

  lemma TradedSessionCloses(perf: PerformanceRecord, day: int, trades: seq<ClosedTrade>)
    requires |trades| > 0
    ensures var acc := TradedTotals(perf, trades);
            && UpdateAfterSession(perf, day, trades) == CloseSession(acc, TradedEntry(day, trades, acc))
            && acc.perf.avgWinPct == perf.avgWinPct && acc.perf.avgLossPct == perf.avgLossPct
  {
    var p2 := perf.(totalSessions := perf.totalSessions + 1, sessionsWithTrades := perf.sessionsWithTrades + 1);
    assert SessionFieldsKept(p2, TradedTotals(perf, trades).perf);
  }

  lemma AveragesFromClose(acc: SessionTotals, entry: SessionEntry)
    ensures var r := CloseSession(acc, entry);
            && (r.wins > 0 ==> r.avgWinPct * r.wins as real == r.winSum)
            && (r.wins <= 0 ==> r.avgWinPct == acc.perf.avgWinPct)
            && (r.losses > 0 ==> r.avgLossPct * r.losses as real == r.lossSum)
            && (r.losses <= 0 ==> r.avgLossPct == acc.perf.avgLossPct)
  {
  }

  // ───────────── the ledger invariant ─────────────

  /** Every trade has exactly one outcome. */
  lemma {:induction false} OutcomesPartition(ts: seq<ClosedTrade>)
    ensures Count(ts, Win) + Count(ts, Loss) + Count(ts, Breakeven) == |ts|
    ensures CountLong(ts) <= |ts|
    decreases |ts|
  {
    if |ts| > 0 {
      OutcomesPartition(ts[..|ts| - 1]);
    }
  }

  /** A run of `k` wins at the end of the trades leaves a streak of at least `k`. */
  lemma {:induction false} WinningRunStreak(s: int, ts: seq<ClosedTrade>, k: nat)
    requires 0 < k <= |ts|
    requires forall i | |ts| - k <= i < |ts| :: OutcomeOf(ts[i]) == Win
    ensures Streak(s, ts) >= k
    decreases k
  {
    if k > 1 {
      var init := ts[..|ts| - 1];
      forall i | |init| - (k - 1) <= i < |init| ensures OutcomeOf(init[i]) == Win {
        assert init[i] == ts[i];
      }
      WinningRunStreak(s, init, k - 1);
    }
  }

  /** A run of `k` losses at the end of the trades leaves a streak of at most `-k`. */
  lemma {:induction false} LosingRunStreak(s: int, ts: seq<ClosedTrade>, k: nat)
    requires 0 < k <= |ts|
    requires forall i | |ts| - k <= i < |ts| :: OutcomeOf(ts[i]) == Loss
    ensures Streak(s, ts) <= -(k as int)
    decreases k
  {
    if k > 1 {
      var init := ts[..|ts| - 1];
      forall i | |init| - (k - 1) <= i < |init| ensures OutcomeOf(init[i]) == Loss {
        assert init[i] == ts[i];
      }
      LosingRunStreak(s, init, k - 1);
    }
  }

  /** Sessions and trades are partitioned into their kinds. */
  predicate CountsConsistent(p: PerformanceRecord) {
    && 0 <= p.sessionsWithTrades && 0 <= p.sessionsNoTrades
    && p.totalSessions == p.sessionsWithTrades + p.sessionsNoTrades
    && 0 <= p.wins && 0 <= p.losses && 0 <= p.breakeven
    && p.totalTrades == p.wins + p.losses + p.breakeven
    && 0 <= p.longWins <= p.longTrades && 0 <= p.shortWins <= p.shortTrades
    && p.totalTrades == p.longTrades + p.shortTrades
    && p.wins == p.longWins + p.shortWins
  }

  /** Each average is its running sum over its count. */
  predicate AveragesConsistent(p: PerformanceRecord) {
    && (p.wins > 0 ==> p.avgWinPct * p.wins as real == p.winSum)
    && (p.losses > 0 ==> p.avgLossPct * p.losses as real == p.lossSum)
  }

  /**
   * What the ledger promises between sessions: consistent counts, streak extremes
   * that bracket the current streak, best and worst trades that bracket zero, a
   * bounded log, and consistent averages.
   */
  predicate LedgerConsistent(p: PerformanceRecord) {
    && CountsConsistent(p)
    && p.worstStreak <= p.currentStreak <= p.bestStreak
    && p.worstTradePnlPct <= 0.0 <= p.bestTradePnlPct
    && |p.sessionLog| <= SessionLogCap && |p.sessionLog| <= p.totalSessions
    && AveragesConsistent(p)
  }

  lemma DefaultLedgerConsistent()
    ensures LedgerConsistent(DefaultPerformance)
  {
  }

  lemma TradedCountsPreserved(perf: PerformanceRecord, day: int, trades: seq<ClosedTrade>)
    requires |trades| > 0 && CountsConsistent(perf)
    ensures CountsConsistent(UpdateAfterSession(perf, day, trades))
  {
    TradedSessionCounts(perf, day, trades);
    OutcomesPartition(trades);
  }

  lemma TradedExtremesPreserved(perf: PerformanceRecord, day: int, trades: seq<ClosedTrade>)
    requires |trades| > 0 && perf.worstTradePnlPct <= 0.0 <= perf.bestTradePnlPct
    ensures var r := UpdateAfterSession(perf, day, trades);
            r.worstTradePnlPct <= 0.0 <= r.bestTradePnlPct
  {
    var p2 := perf.(totalSessions := perf.totalSessions + 1, sessionsWithTrades := perf.sessionsWithTrades + 1);
    var acc := SessionTotals(p2, 0.0, 0.0, 0.0, 0.0);
    BestAndWorstTrade(acc, trades);
    assert UpdateAfterSession(perf, day, trades) == CloseSession(RecordTrades(acc, trades), TradedEntry(day, trades, RecordTrades(acc, trades)));
  }

  lemma AveragesPreserved(perf: PerformanceRecord, day: int, trades: seq<ClosedTrade>)
    requires AveragesConsistent(perf)
    ensures AveragesConsistent(UpdateAfterSession(perf, day, trades))
  {
    if |trades| > 0 {
      TradedSessionAverages(perf, day, trades);
    }
  }

  /** `update_performance_after_session` keeps the ledger consistent. */
  lemma LedgerPreserved(perf: PerformanceRecord, day: int, trades: seq<ClosedTrade>)
    requires LedgerConsistent(perf)
    ensures LedgerConsistent(UpdateAfterSession(perf, day, trades))
  {
    AveragesPreserved(perf, day, trades);
    if |trades| == 0 {
      EmptySession(perf, day);
    } else {
      TradedCountsPreserved(perf, day, trades);
      TradedSessionStreak(perf, day, trades);
      TradedExtremesPreserved(perf, day, trades);
    }
  }
}

=== FILE: session.dfy ===
/**
 * Phase 4 of bot/main.py (the morning exit sweep, `phase_exit`) and the session
 * driver `run_session`: anchor, monitor and enter, manage overnight, exit, then mark
 * the session inactive and fold its trades into the performance ledger.
 */
module Session {
  import opened Wrappers
  import opened Config
  import opened Dict
  import opened Clock
  import opened Strategies
  import opened StateManager
  import opened Performance
  import opened Monitor
  import opened Manage

  // ───────────── when the morning exit runs ─────────────

  /**
   * The exit phase's wake-up as the source computes it: the next weekday 9:30 AM
   * strictly after `t`. Reached from the manage loop, which only stops once 9:30 has
   * come, this is always a later day.
   */
  function ExitWakeAsWritten(t: Instant): (r: Instant)
    ensures IsWeekday(r) && r.second == ClockSecond(ExitHour, ExitMinute)
    ensures Absolute(r) > Absolute(t)
    ensures IsExitTime(t) || IsSessionOver(t) ==> r.day > t.day
  {
    NextWeekdayTarget(t, ExitHour, ExitMinute)
  }

  /**
   * A Thursday session: the manage loop stops on Friday at 9:31 AM, and the exit
   * then waits for Monday's open instead of closing at once.
   */
  lemma ThursdaySessionExitsOnMonday()
    ensures IsExitTime(Instant(4, 34260))
    ensures ExitWakeAsWritten(Instant(4, 34260)) == Instant(7, 34200)
  {
    var r := ExitWakeAsWritten(Instant(4, 34260));
    assert r.day <= 7 by {
      assert IsLaterWeekdayAt(Instant(4, 34260), 7, r.second);
    }
  }

  /**
   * The wake-up the exit evidently intends: the earliest exit-window instant at or
   * after `t` (at once when already inside the window).
   */
  function ExitWake(t: Instant): (r: Instant)
    ensures IsExitTime(r) && Absolute(r) >= Absolute(t)
    ensures forall u | IsExitTime(u) && Absolute(u) >= Absolute(t) :: Absolute(r) <= Absolute(u)
    ensures IsExitTime(t) ==> r == t
  {
    if IsExitTime(t) then t
    else
      var r := NextWeekdayTarget(t, ExitHour, ExitMinute);
      forall u | IsExitTime(u) && Absolute(u) >= Absolute(t) ensures Absolute(r) <= Absolute(u) {
        ExitWindowFollows(t, u);
        assert r.day <= u.day;
      }
      r
  }

  /** An exit-window instant after a time outside the window is a later weekday 9:30 slot. */
  lemma ExitWindowFollows(t: Instant, u: Instant)
    requires !IsExitTime(t) && IsExitTime(u) && Absolute(u) >= Absolute(t)
    ensures IsLaterWeekdayAt(t, u.day, ClockSecond(ExitHour, ExitMinute))
  {
    if u.day < t.day {
      assert false;
    } else if u.day == t.day {
      assert t.second < 34200;
    } else {
      assert u.day * SecondsPerDay >= t.day * SecondsPerDay + SecondsPerDay;
    }
  }

  // ───────────── the morning sweep ─────────────

  /** The morning quote of `s`, 0 when the fetch returned none (`prices.get(symbol, 0)`). */
  function MorningPrice(quotes: Quotes, s: Symbol): real {
    if s in quotes then quotes[s] else 0.0
  }

  /** The state of the sweep: the session document and the closeouts recorded so far. */
  datatype ExitState = ExitState(state: SessionState, closed: seq<ClosedTrade>)

  /**
   * One position of the sweep. Outside a dry run it is always removed: a position the
   * morning check closes (any positive entry price) also gets its metrics and an EXIT
   * record; any other is force-closed with neither. A dry run changes nothing.
   */
  function ExitSymbol(dryRun: bool, at: Instant, quotes: Quotes, acc: ExitState, s: Symbol): (r: ExitState)
    requires s in acc.state.positions.entries
    ensures r.state == acc.state.(positions := r.state.positions, tradeHistory := r.state.tradeHistory)
    ensures dryRun ==> r == acc
    ensures !dryRun ==> r.state.positions == Remove(acc.state.positions, s)
    ensures var pos := acc.state.positions.entries[s];
            if !dryRun && pos.entryPrice > 0.0 then
              && r.closed == acc.closed + [CloseTrade(s, pos, MorningPrice(quotes, s), MorningCloseout, at)]
              && r.state.tradeHistory == LogTrade(acc.state.tradeHistory, ExitRecord(r.closed[|acc.closed|]))
            else r.closed == acc.closed && r.state.tradeHistory == acc.state.tradeHistory
  {
    var pos := acc.state.positions.entries[s];
    var price := MorningPrice(quotes, s);
    var decision := EvaluateMorningExit(pos.entryPrice, price, pos.direction);
    if decision.action == Close && !dryRun then
      var c := CloseTrade(s, pos, price, MorningCloseout, at);
      var state := acc.state.(positions := Remove(acc.state.positions, s),
                              tradeHistory := LogTrade(acc.state.tradeHistory, ExitRecord(c)));
      ExitState(state, acc.closed + [c])
    else if !dryRun then
      acc.(state := acc.state.(positions := Remove(acc.state.positions, s)))
    else acc
  }

  /** Every trade in `closed` is such a closeout (see `IsCloseout`). */
  predicate CloseoutsOf(closed: seq<ClosedTrade>, before: Dict<Symbol, Position>, quotes: Quotes, at: Instant,
                        keys: seq<Symbol>) {
    forall i | 0 <= i < |closed| :: IsCloseout(closed[i], before, quotes, at, keys)
  }

  /** `c` is the closeout, at `at` and its morning price, of a position in `before` under one of `keys`. */
  predicate IsCloseout(c: ClosedTrade, before: Dict<Symbol, Position>, quotes: Quotes, at: Instant, keys: seq<Symbol>) {
    && c.symbol in keys && c.symbol in before.entries
    && before.entries[c.symbol].entryPrice > 0.0
    && c == CloseTrade(c.symbol, before.entries[c.symbol], MorningPrice(quotes, c.symbol), MorningCloseout, at)
  }

  /**
   * What a sweep over `keys` from `acc` promises of its result `r`: only the positions
   * and the history change; a dry run changes nothing; otherwise every visited
   * position is gone, and exactly those; no position appears; the history grows by
   * the exit records of the closeouts, in order.
   */
  predicate Swept(dryRun: bool, acc: ExitState, r: ExitState, keys: seq<Symbol>) {
    && r.state == acc.state.(positions := r.state.positions, tradeHistory := r.state.tradeHistory)
    && (dryRun ==> r == acc)
    && (!dryRun ==> forall k | k in keys :: k !in r.state.positions.entries)
    && (!dryRun ==> Size(r.state.positions) + |keys| == Size(acc.state.positions))
    && (forall k | k in acc.state.positions.entries && k !in keys ::
          k in r.state.positions.entries && r.state.positions.entries[k] == acc.state.positions.entries[k])
    && (forall k | k in r.state.positions.entries :: k in acc.state.positions.entries)
    && r.state.tradeHistory == LogAll(acc.state.tradeHistory, ExitRecords(r.closed))
  }

  /** The sweep over the symbols held at its start, in order (see `Swept`). */
  function ExitSymbols(dryRun: bool, at: Instant, quotes: Quotes, acc: ExitState, keys: seq<Symbol>): (r: ExitState)
    requires acc.closed == [] && Distinct(keys) && HeldAll(acc.state.positions, keys)
    ensures Swept(dryRun, acc, r, keys)
    decreases |keys|
  {
    if |keys| == 0 then acc
    else
      HeldPrefix(acc.state.positions, keys);
      var mid := ExitSymbols(dryRun, at, quotes, acc, keys[..|keys| - 1]);
      var s := keys[|keys| - 1];
      assert s in mid.state.positions.entries;
      var r := ExitSymbol(dryRun, at, quotes, mid, s);
      ExitStep(dryRun, acc, mid, r, keys);
      r
  }

  /**
   * One more symbol: when `r` is `mid` after sweeping the last of `keys` (as
   * `ExitSymbol` promises), and `mid` is the sweep over the others, `r` is the sweep
   * over `keys`.
   */
  lemma ExitStep(dryRun: bool, acc: ExitState, mid: ExitState, r: ExitState, keys: seq<Symbol>)
    requires acc.closed == [] && Distinct(keys) && HeldAll(acc.state.positions, keys) && |keys| > 0
    requires Swept(dryRun, acc, mid, keys[..|keys| - 1])
    requires r.state == mid.state.(positions := r.state.positions, tradeHistory := r.state.tradeHistory)
    requires dryRun ==> r == mid
    requires !dryRun ==> r.state.positions == Remove(mid.state.positions, keys[|keys| - 1])
    requires || (r.closed == mid.closed && r.state.tradeHistory == mid.state.tradeHistory)
             || (&& |r.closed| == |mid.closed| + 1 && r.closed[..|mid.closed|] == mid.closed
                 && r.state.tradeHistory == LogTrade(mid.state.tradeHistory, ExitRecord(r.closed[|mid.closed|])))
    ensures Swept(dryRun, acc, r, keys)
  {
    if !dryRun {
      RemoveStep(acc.state.positions, mid.state.positions, keys);
    }
    if r.closed != mid.closed {
      var c := r.closed[|mid.closed|];
      SnocOfPrefix(r.closed, mid.closed);
      LogOneMoreExit(acc.state.tradeHistory, mid.closed, c);
    }
  }

  /**
   * Removing the last of `keys` from positions that lost exactly the others keeps the
   * sweep's promises about positions.
   */
  lemma RemoveStep(before: Dict<Symbol, Position>, mid: Dict<Symbol, Position>, keys: seq<Symbol>)
    requires Distinct(keys) && HeldAll(before, keys) && |keys| > 0
    requires forall k | k in keys[..|keys| - 1] :: k !in mid.entries
    requires Size(mid) + |keys| - 1 == Size(before)
    requires forall k | k in before.entries && k !in keys[..|keys| - 1] ::
               k in mid.entries && mid.entries[k] == before.entries[k]
    requires forall k | k in mid.entries :: k in before.entries
    ensures var r := Remove(mid, keys[|keys| - 1]);
            && (forall k | k in keys :: k !in r.entries)
            && Size(r) + |keys| == Size(before)
            && (forall k | k in before.entries && k !in keys :: k in r.entries && r.entries[k] == before.entries[k])
            && (forall k | k in r.entries :: k in before.entries)
  {
    var init := keys[..|keys| - 1];
    var s := keys[|keys| - 1];
    HeldPrefix(before, keys);
    assert s in mid.entries;
    assert forall k | k in keys :: k in init || k == s;
  }

  /** Each trade the sweep records is the closeout of a visited position at its morning price. */
  lemma {:induction false} SweepRecordsCloseouts(dryRun: bool, at: Instant, quotes: Quotes, acc: ExitState,
                                                 keys: seq<Symbol>)
    requires acc.closed == [] && Distinct(keys) && HeldAll(acc.state.positions, keys)
    ensures CloseoutsOf(ExitSymbols(dryRun, at, quotes, acc, keys).closed, acc.state.positions, quotes, at, keys)
    decreases |keys|
  {
    if |keys| > 0 {
      var init := keys[..|keys| - 1];
      var s := keys[|keys| - 1];
      HeldPrefix(acc.state.positions, keys);
      SweepRecordsCloseouts(dryRun, at, quotes, acc, init);
      var mid := ExitSymbols(dryRun, at, quotes, acc, init);
      assert mid.state.positions.entries[s] == acc.state.positions.entries[s];
      SweepStep(dryRun, at, quotes, mid, s, acc.state.positions, init, keys);
    }
  }

  /** One more symbol of the sweep keeps the closeouts recorded so far closeouts of `before`. */
  lemma SweepStep(dryRun: bool, at: Instant, quotes: Quotes, mid: ExitState, s: Symbol,
                  before: Dict<Symbol, Position>, init: seq<Symbol>, keys: seq<Symbol>)
    requires s in mid.state.positions.entries && s in before.entries
    requires mid.state.positions.entries[s] == before.entries[s]
    requires CloseoutsOf(mid.closed, before, quotes, at, init) && init <= keys && s in keys
    ensures CloseoutsOf(ExitSymbol(dryRun, at, quotes, mid, s).closed, before, quotes, at, keys)
  {
    var r := ExitSymbol(dryRun, at, quotes, mid, s);
    CloseoutsWiden(mid.closed, before, quotes, at, init, keys);
    if r.closed != mid.closed {
      var c := CloseTrade(s, before.entries[s], MorningPrice(quotes, s), MorningCloseout, at);
      assert r.closed == mid.closed + [c];
      assert IsCloseout(c, before, quotes, at, keys);
      CloseoutsSnoc(mid.closed, c, before, quotes, at, keys);
    }
  }

  lemma CloseoutsWiden(closed: seq<ClosedTrade>, before: Dict<Symbol, Position>, quotes: Quotes, at: Instant,
                       keys: seq<Symbol>, wider: seq<Symbol>)
    requires CloseoutsOf(closed, before, quotes, at, keys) && keys <= wider
    ensures CloseoutsOf(closed, before, quotes, at, wider)
  {
    forall i | 0 <= i < |closed| ensures IsCloseout(closed[i], before, quotes, at, wider) {
      assert IsCloseout(closed[i], before, quotes, at, keys);
    }
  }

  lemma CloseoutsSnoc(closed: seq<ClosedTrade>, c: ClosedTrade, before: Dict<Symbol, Position>, quotes: Quotes,
                      at: Instant, keys: seq<Symbol>)
    requires CloseoutsOf(closed, before, quotes, at, keys) && IsCloseout(c, before, quotes, at, keys)
    ensures CloseoutsOf(closed + [c], before, quotes, at, keys)
  {
    forall i | 0 <= i < |closed + [c]| ensures IsCloseout((closed + [c])[i], before, quotes, at, keys) {
      if i < |closed| {
        assert (closed + [c])[i] == closed[i];
      }
    }
  }

  /**
   * Outside a dry run, with positive entry prices, the sweep records one closeout per
   * position, in the order of `keys`.
   */
  lemma {:induction false} SweepClosesEveryPosition(dryRun: bool, at: Instant, quotes: Quotes, acc: ExitState,
                                                    keys: seq<Symbol>)
    requires acc.closed == [] && Distinct(keys) && HeldAll(acc.state.positions, keys)
    requires !dryRun && PositionsValid(acc.state.positions)
    ensures |ExitSymbols(dryRun, at, quotes, acc, keys).closed| == |keys|
    ensures forall i | 0 <= i < |keys| :: ExitSymbols(dryRun, at, quotes, acc, keys).closed[i].symbol == keys[i]
    decreases |keys|
  {
    if |keys| > 0 {
      var init := keys[..|keys| - 1];
      var s := keys[|keys| - 1];
      HeldPrefix(acc.state.positions, keys);
      SweepClosesEveryPosition(dryRun, at, quotes, acc, init);
      var mid := ExitSymbols(dryRun, at, quotes, acc, init);
      assert mid.state.positions.entries[s] == acc.state.positions.entries[s];
      var r := ExitSymbol(dryRun, at, quotes, mid, s);
      assert r == ExitSymbols(dryRun, at, quotes, acc, keys);
      ClosedInOrder(mid.closed, r.closed, init, keys);
    }
  }

  /** Closeouts of `init` in order, plus one of the last of `keys`, are closeouts of `keys` in order. */
  lemma ClosedInOrder(mid: seq<ClosedTrade>, closed: seq<ClosedTrade>, init: seq<Symbol>, keys: seq<Symbol>)
    requires |keys| > 0 && init == keys[..|keys| - 1]
    requires |mid| == |init| && forall i | 0 <= i < |init| :: mid[i].symbol == init[i]
    requires |closed| == |mid| + 1 && closed[..|mid|] == mid && closed[|mid|].symbol == keys[|keys| - 1]
    ensures forall i | 0 <= i < |keys| :: closed[i].symbol == keys[i]
  {
    forall i | 0 <= i < |keys| ensures closed[i].symbol == keys[i] {
      if i < |init| {
        assert closed[i] == closed[..|mid|][i];
      }
    }
  }

  /** Closeouts taken at `at` are no earlier than any bound `at` itself meets. */
  lemma CloseoutsNoEarlier(closed: seq<ClosedTrade>, before: Dict<Symbol, Position>, quotes: Quotes, at: Instant,
                           keys: seq<Symbol>, bound: int)
    requires CloseoutsOf(closed, before, quotes, at, keys) && Absolute(at) >= bound
    ensures ClosedNoEarlier(closed, bound)
  {
    forall i | 0 <= i < |closed| ensures Absolute(closed[i].closedAt) >= bound {
      assert IsCloseout(closed[i], before, quotes, at, keys);
    }
  }

  /** The outcome of the exit phase. */
  datatype ExitResult = ExitResult(state: SessionState, closed: seq<ClosedTrade>)

  /**
   * `phase_exit`: with nothing held it returns at once; otherwise it waits for the
   * exit window and sweeps every position held, in order, at the morning prices.
   */
  function PhaseExit(dryRun: bool, now: Instant, st: SessionState, quotes: Quotes): (r: ExitResult)
    ensures r.state == st.(positions := r.state.positions, tradeHistory := r.state.tradeHistory)
    ensures dryRun ==> r == ExitResult(st, [])
    ensures !dryRun ==> Size(r.state.positions) == 0
    ensures !dryRun && PositionsValid(st.positions) ==> |r.closed| == Size(st.positions)
    ensures !dryRun && PositionsValid(st.positions) ==>
              forall i | 0 <= i < |r.closed| :: r.closed[i].symbol == st.positions.keys[i]
    ensures r.state.tradeHistory == LogAll(st.tradeHistory, ExitRecords(r.closed))
    ensures CloseoutsOf(r.closed, st.positions, quotes, ExitWake(now), st.positions.keys)
  {
    if Size(st.positions) == 0 then ExitResult(st, [])
    else
      var at := ExitWake(now);
      assert HeldAll(st.positions, st.positions.keys);
      var sweep := ExitSymbols(dryRun, at, quotes, ExitState(st, []), st.positions.keys);
      SweepRecordsCloseouts(dryRun, at, quotes, ExitState(st, []), st.positions.keys);
      if !dryRun && PositionsValid(st.positions) then
        SweepClosesEveryPosition(dryRun, at, quotes, ExitState(st, []), st.positions.keys);
        ExitResult(sweep.state, sweep.closed)
      else
      ExitResult(sweep.state, sweep.closed)
  }

  // ───────────── which trades a session reports ─────────────

  /** The metrics records satisfying `keep`, in their order. */
  function Select(log: seq<ClosedTrade>, keep: ClosedTrade -> bool): (r: seq<ClosedTrade>)
    ensures forall c :: c in r <==> c in log && keep(c)
    ensures |r| <= |log|
    decreases |log|
  {
    if |log| == 0 then []
    else
      var init := Select(log[..|log| - 1], keep);
      var last := log[|log| - 1];
      assert forall c :: c in log <==> c in log[..|log| - 1] || c == last;
      if keep(last) then init + [last] else init
  }

  /** Selecting from two runs in turn is selecting from their concatenation. */
  lemma {:induction false} SelectConcat(a: seq<ClosedTrade>, b: seq<ClosedTrade>, keep: ClosedTrade -> bool)
    ensures Select(a + b, keep) == Select(a, keep) + Select(b, keep)
    decreases |b|
  {
    if |b| == 0 {
      assert a + b == a;
    } else {
      var b0 := b[..|b| - 1];
      var last := b[|b| - 1];
      var tail := if keep(last) then [last] else [];
      SelectConcat(a, b0, keep);
      SnocSplit(a, b);
      SelectSnoc(a + b0, last, keep);
      SnocSplit([], b);
      SelectSnoc(b0, last, keep);
      AppendAssoc(Select(a, keep), Select(b0, keep), tail);
    }
  }

  lemma SnocSplit<T>(a: seq<T>, b: seq<T>)
    requires |b| > 0
    ensures a + b == a + b[..|b| - 1] + [b[|b| - 1]]
  {
  }

  lemma SelectSnoc(log: seq<ClosedTrade>, c: ClosedTrade, keep: ClosedTrade -> bool)
    ensures Select(log + [c], keep) == Select(log, keep) + (if keep(c) then [c] else [])
  {
    assert (log + [c])[..|log + [c]| - 1] == log;
  }

  /** Selecting keeps a run intact when every record passes, and drops it when none does. */
  lemma {:induction false} SelectAllOrNone(log: seq<ClosedTrade>, keep: ClosedTrade -> bool)
    ensures (forall i | 0 <= i < |log| :: keep(log[i])) ==> Select(log, keep) == log
    ensures (forall i | 0 <= i < |log| :: !keep(log[i])) ==> Select(log, keep) == []
    decreases |log|
  {
    if |log| > 0 {
      SelectAllOrNone(log[..|log| - 1], keep);
    }
  }

  /**
   * `_collect_session_trades` as written: the records closed on the session's start
   * date.
   */
  function CollectSessionTradesAsWritten(log: seq<ClosedTrade>, day: int): (r: seq<ClosedTrade>)
    ensures forall c :: c in r <==> c in log && c.closedAt.day == day
  {
    Select(log, (c: ClosedTrade) => c.closedAt.day == day)
  }

  /** The records a session evidently means to report: those closed since it started. */
  function CollectSessionTrades(log: seq<ClosedTrade>, start: Instant): (r: seq<ClosedTrade>)
    ensures forall c :: c in r <==> c in log && Absolute(c.closedAt) >= Absolute(start)
  {
    Select(log, (c: ClosedTrade) => Absolute(c.closedAt) >= Absolute(start))
  }

  /**
   * A trade closed on a later day than the session started, as every morning
   * closeout of an afternoon session is, is missed by the date filter but reported by
   * the corrected one.
   */
  lemma NextDayCloseoutMissed(log: seq<ClosedTrade>, start: Instant, c: ClosedTrade)
    requires c.closedAt.day > start.day
    ensures c !in CollectSessionTradesAsWritten(log + [c], start.day)
    ensures c in CollectSessionTrades(log + [c], start)
  {
    assert c in log + [c];
    assert Absolute(c.closedAt) >= (start.day + 1) * SecondsPerDay;
  }

  /** The date filter of a session started on the day of a close does report it. */
  lemma CloseDaySessionCountsIt(log: seq<ClosedTrade>, c: ClosedTrade)
    ensures c in CollectSessionTradesAsWritten(log + [c], c.closedAt.day)
  {
    assert c in log + [c];
  }

  /** An exit window reached from an afternoon start is always on a later day. */
  lemma ExitIsOnALaterDay(start: Instant, t: Instant)
    requires start.second >= ClockSecond(BotStartHour, 0) && Absolute(t) >= Absolute(start)
    ensures ExitWake(t).day > start.day
  {
    var r := ExitWake(t);
    if r.day <= start.day {
      assert false;
    }
  }

  // ───────────── the session driver ─────────────

  /** Positions the scan opened have positive prices and sizes, as the overnight phase needs. */
  lemma OpenedAreValid(positions: Dict<Symbol, Position>, anchors: Dict<Symbol, real>, friday: bool)
    requires OpenedPositions(positions, anchors, friday)
    ensures PositionsValid(positions)
  {
  }

  /**
   * What the outside world supplies to one session: the watchlist and its 4:00 PM
   * closes, the account figures, the polls of the entry scan, the ticks of the
   * overnight loop and the morning quotes.
   */
  datatype SessionInputs = SessionInputs(
    watchlist: seq<Symbol>,
    closes: Quotes,
    account: Option<Account>,
    polls: seq<Poll>,
    ticks: seq<ManageTick>,
    morningQuotes: Quotes)

  /**
   * The end of a session: the saved document, the updated ledger, the metrics file,
   * the trades this session closed, and whether all four phases ran (rather than the
   * inputs running out first, the model of an interrupted session).
   */
  datatype SessionOutcome = SessionOutcome(
    state: SessionState,
    perf: PerformanceRecord,
    metricsLog: seq<ClosedTrade>,
    closed: seq<ClosedTrade>,
    completed: bool)

  /** The `finally` block and the performance update that follow the phases, whether they finished or not. */
  function FinishSession(start: Instant, perf: PerformanceRecord, metricsLog: seq<ClosedTrade>, state: SessionState,
                         closed: seq<ClosedTrade>, completed: bool): (r: SessionOutcome)
    ensures !r.state.sessionActive && r.state == state.(sessionActive := false)
    ensures r.metricsLog == metricsLog + closed && r.closed == closed && r.completed == completed
    ensures r.perf == UpdateAfterSession(perf, start.day, CollectSessionTrades(r.metricsLog, start))
  {
    var log := metricsLog + closed;
    SessionOutcome(state.(sessionActive := false), UpdateAfterSession(perf, start.day, CollectSessionTrades(log, start)),
                   log, closed, completed)
  }

  /** The document `run_session` starts from: marked active, stamped, with no positions or anchors. */
  function OpenSession(st: SessionState, start: Instant): (r: SessionState)
    ensures r.sessionActive && r.sessionStart == Some(start) && r.sessionDay == Some(start.day)
    ensures Size(r.positions) == 0 && Size(r.anchorCloses) == 0 && r.tradeHistory == st.tradeHistory
  {
    st.(sessionActive := true, sessionStart := Some(start), sessionDay := Some(start.day),
        positions := Empty(), anchorCloses := Empty())
  }

  /**
   * The four phases of `run_session` in order: open the session, anchor, monitor,
   * manage, exit. Each phase after the first runs only when the one before it
   * finished; `completed` says whether the exit phase ran.
   */
  function SessionPhases(dryRun: bool, start: Instant, st: SessionState, inputs: SessionInputs): (r: PhasesOutcome)
    ensures r.state.sessionActive && r.state.sessionStart == Some(start) && r.state.sessionDay == Some(start.day)
    ensures forall s :: s in r.state.anchorCloses.entries <==>
              s in inputs.watchlist && s in inputs.closes && inputs.closes[s] > 0.0
    ensures !dryRun ==> Size(r.state.positions) <= MaxConcurrentPositions
    ensures !dryRun && r.completed ==> Size(r.state.positions) == 0
    ensures dryRun ==> r.closed == [] && Size(r.state.positions) == 0 && r.state.tradeHistory == st.tradeHistory
  {
    var s0 := OpenSession(st, start);
    var anchorAt := SleepUntil(start, AnchorHour, AnchorMinute);
    var s1 := s0.(anchorCloses := PhaseAnchor(inputs.watchlist, inputs.closes));
    var mon := PhaseMonitor(dryRun, anchorAt, s1, inputs.account, inputs.polls);
    OpenedAreValid(mon.state.positions, s1.anchorCloses, IsFriday(anchorAt));
    if mon.end.None? then PhasesOutcome(mon.state, [], false)
    else
      var man := PhaseManage(dryRun, mon.end.value, mon.state, inputs.ticks);
      if man.end.None? then PhasesOutcome(man.state, man.closed, false)
      else
        var ex := PhaseExit(dryRun, man.end.value, man.state, inputs.morningQuotes);
        PhasesOutcome(ex.state, man.closed + ex.closed, true)
  }

  /** Where the phases leave off: the session document, the trades closed, and whether the exit phase ran. */
  datatype PhasesOutcome = PhasesOutcome(state: SessionState, closed: seq<ClosedTrade>, completed: bool)

  /**
   * `run_session`: anchor at 4:00 PM, monitor and enter from 4:05 PM until the 8:00 PM
   * cutoff, manage overnight, sweep at the morning exit; then mark the session
   * inactive and update the ledger, also when a phase did not finish.
   */
  function RunSession(dryRun: bool, start: Instant, st: SessionState, perf: PerformanceRecord,
                      metricsLog: seq<ClosedTrade>, inputs: SessionInputs): (r: SessionOutcome)
    ensures !r.state.sessionActive && r.state.sessionStart == Some(start) && r.state.sessionDay == Some(start.day)
    ensures forall s :: s in r.state.anchorCloses.entries <==>
              s in inputs.watchlist && s in inputs.closes && inputs.closes[s] > 0.0
    ensures r.metricsLog == metricsLog + r.closed
    ensures r.perf == UpdateAfterSession(perf, start.day, CollectSessionTrades(r.metricsLog, start))
    ensures !dryRun ==> Size(r.state.positions) <= MaxConcurrentPositions
    ensures !dryRun && r.completed ==> Size(r.state.positions) == 0
    ensures dryRun ==> r.closed == [] && Size(r.state.positions) == 0 && r.state.tradeHistory == st.tradeHistory
  {
    var ph := SessionPhases(dryRun, start, st, inputs);
    FinishSession(start, perf, metricsLog, ph.state, ph.closed, ph.completed)
  }

  /** Every trade a session closes is closed no earlier than it started, when the clock never runs backwards. */
  lemma SessionClosesNoEarlier(dryRun: bool, start: Instant, st: SessionState, perf: PerformanceRecord,
                               metricsLog: seq<ClosedTrade>, inputs: SessionInputs)
    requires PollsFrom(Absolute(start), inputs.polls) && TicksFrom(Absolute(start), inputs.ticks)
    ensures ClosedNoEarlier(RunSession(dryRun, start, st, perf, metricsLog, inputs).closed, Absolute(start))
  {
    PhasesCloseNoEarlier(dryRun, start, st, inputs);
  }

  /** The phases close trades no earlier than the session started, when the clock never runs backwards. */
  lemma PhasesCloseNoEarlier(dryRun: bool, start: Instant, st: SessionState, inputs: SessionInputs)
    requires PollsFrom(Absolute(start), inputs.polls) && TicksFrom(Absolute(start), inputs.ticks)
    ensures ClosedNoEarlier(SessionPhases(dryRun, start, st, inputs).closed, Absolute(start))
  {
    var bound := Absolute(start);
    var s0 := OpenSession(st, start);
    var anchorAt := SleepUntil(start, AnchorHour, AnchorMinute);
    var s1 := s0.(anchorCloses := PhaseAnchor(inputs.watchlist, inputs.closes));
    var mon := PhaseMonitor(dryRun, anchorAt, s1, inputs.account, inputs.polls);
    OpenedAreValid(mon.state.positions, s1.anchorCloses, IsFriday(anchorAt));
    PhaseMonitorEndsNoEarlier(dryRun, anchorAt, s1, inputs.account, inputs.polls, bound);
    if mon.end.Some? {
      var man := PhaseManage(dryRun, mon.end.value, mon.state, inputs.ticks);
      PhaseManageNoEarlier(dryRun, mon.end.value, mon.state, inputs.ticks, bound);
      if man.end.Some? {
        var ex := PhaseExit(dryRun, man.end.value, man.state, inputs.morningQuotes);
        CloseoutsNoEarlier(ex.closed, man.state.positions, inputs.morningQuotes, ExitWake(man.end.value),
                           man.state.positions.keys, bound);
        ClosedConcatNoEarlier(man.closed, ex.closed, bound);
      }
    }
  }

  lemma ClosedConcatNoEarlier(a: seq<ClosedTrade>, b: seq<ClosedTrade>, bound: int)
    requires ClosedNoEarlier(a, bound) && ClosedNoEarlier(b, bound)
    ensures ClosedNoEarlier(a + b, bound)
  {
    forall i | 0 <= i < |a + b| ensures Absolute((a + b)[i].closedAt) >= bound {
      if i >= |a| {
        assert (a + b)[i] == b[i - |a|];
      }
    }
  }

  /** Past trades all closed before `start` and this session's all since: the collection is exactly the latter. */
  lemma CollectOwnTrades(metricsLog: seq<ClosedTrade>, closed: seq<ClosedTrade>, start: Instant)
    requires forall i | 0 <= i < |metricsLog| :: Absolute(metricsLog[i].closedAt) < Absolute(start)
    requires ClosedNoEarlier(closed, Absolute(start))
    ensures CollectSessionTrades(metricsLog + closed, start) == closed
  {
    var keep := (c: ClosedTrade) => Absolute(c.closedAt) >= Absolute(start);
    SelectConcat(metricsLog, closed, keep);
    SelectAllOrNone(metricsLog, keep);
    SelectAllOrNone(closed, keep);
    assert CollectSessionTrades(metricsLog + closed, start) == Select(metricsLog + closed, keep);
  }

  /**
   * When the metrics file only holds trades closed before the session started and
   * the clock never runs backwards, the ledger update sees exactly the trades this
   * session closed, in the order it closed them.
   */
  lemma SessionReportsItsOwnTrades(dryRun: bool, start: Instant, st: SessionState, perf: PerformanceRecord,
                                   metricsLog: seq<ClosedTrade>, inputs: SessionInputs)
    requires forall i | 0 <= i < |metricsLog| :: Absolute(metricsLog[i].closedAt) < Absolute(start)
    requires PollsFrom(Absolute(start), inputs.polls) && TicksFrom(Absolute(start), inputs.ticks)
    ensures var r := RunSession(dryRun, start, st, perf, metricsLog, inputs);
            r.perf == UpdateAfterSession(perf, start.day, r.closed)
  {
    var r := RunSession(dryRun, start, st, perf, metricsLog, inputs);
    SessionClosesNoEarlier(dryRun, start, st, perf, metricsLog, inputs);
    CollectOwnTrades(metricsLog, r.closed, start);
  }

  /** Whatever happens in a session, a consistent ledger stays consistent and counts one more session. */
  lemma SessionKeepsLedgerConsistent(dryRun: bool, start: Instant, st: SessionState, perf: PerformanceRecord,
                                     metricsLog: seq<ClosedTrade>, inputs: SessionInputs)
    requires LedgerConsistent(perf)
    ensures var r := RunSession(dryRun, start, st, perf, metricsLog, inputs);
            LedgerConsistent(r.perf) && r.perf.totalSessions == perf.totalSessions + 1
  {
    var r := RunSession(dryRun, start, st, perf, metricsLog, inputs);
    LedgerPreserved(perf, start.day, CollectSessionTrades(r.metricsLog, start));
  }
}

=== FILE: state_manager.dfy ===
/**
 * The session-state document of bot/state_manager.py as plain values: anchors,
 * open positions, the capped trade history, and the excursion tracker. Reading and
 * writing the JSON files is not modelled.
 */
module StateManager {
  import opened Wrappers
  import opened Dict
  import opened Clock
  import opened Strategies

  type Symbol = string

  /** One open after-hours position (an entry of the `positions` dictionary). */
  datatype Position = Position(
    direction: Direction,
    entryPrice: real,
    qty: int,
    entryTime: Instant,
    triggerWindow: Window,
    entrySpreadPct: real,
    anchorClose: real,
    maxFavorablePnl: real,
    maxAdversePnl: real)

  datatype TradeAction = EntryAction | ExitAction

  /** The free-text `reason` of a trade record, kept as the decision that produced it. */
  datatype TradeReason =
    | EntryReason(window: Window, signal: SignalReason)
    | ManageExitReason(check: ManageReason)
    | MorningCloseoutReason(exit: MorningReason)

  /** One `log_trade` record. */
  datatype TradeRecord = TradeRecord(
    timestamp: Instant,
    action: TradeAction,
    ticker: Symbol,
    qty: int,
    price: real,
    direction: Option<Direction>,
    reason: TradeReason)

  /** The persisted session document (`DEFAULT_STATE` shape, without `last_run`). */
  datatype SessionState = SessionState(
    sessionActive: bool,
    sessionStart: Option<Instant>,
    sessionDay: Option<int>,
    anchorCloses: Dict<Symbol, real>,
    positions: Dict<Symbol, Position>,
    tradeHistory: seq<TradeRecord>)

  const DefaultState: SessionState :=
    SessionState(false, None, None, Empty(), Empty(), [])

  /** Only the most recent trade records are kept. */
  const TradeHistoryCap: nat := 500

  /** The last `TradeHistoryCap` elements of `s` (all of them when there are fewer). */
  function KeepRecent<T>(s: seq<T>, cap: nat): (r: seq<T>)
    ensures |r| == if |s| > cap then cap else |s|
    ensures r == s[|s| - |r|..]
  {
    if |s| > cap then s[|s| - cap..] else s
  }

  /** Keeping the most recent entries after each append is keeping them once at the end. */
  lemma {:induction false} KeepRecentAppend<T>(s: seq<T>, t: seq<T>, cap: nat)
    ensures KeepRecent(KeepRecent(s, cap) + t, cap) == KeepRecent(s + t, cap)
  {
    if |s| > cap {
      var k := KeepRecent(s, cap);
      assert k == s[|s| - cap..];
      SuffixAppend(s, t, |s| - cap);
      assert k + t == (s + t)[|s| - cap..];
      KeepRecentOfSuffix(s + t, |s| - cap, cap);
    }
  }

  lemma SuffixAppend<T>(s: seq<T>, t: seq<T>, i: nat)
    requires i <= |s|
    ensures s[i..] + t == (s + t)[i..]
  {
  }

  /** Trimming a suffix at least `cap` long is trimming the whole sequence. */
  lemma KeepRecentOfSuffix<T>(u: seq<T>, i: nat, cap: nat)
    requires i + cap <= |u|
    ensures KeepRecent(u[i..], cap) == KeepRecent(u, cap)
  {
    if |u| - i > cap {
      assert u[i..][|u| - i - cap..] == u[|u| - cap..];
    }
  }

  /**
   * `log_trade`: the new record becomes the last one, the earlier records keep their
   * order, and only the oldest are dropped so that at most `TradeHistoryCap` remain.
   */
  function LogTrade(history: seq<TradeRecord>, record: TradeRecord): (r: seq<TradeRecord>)
    ensures |r| == if |history| + 1 > TradeHistoryCap then TradeHistoryCap else |history| + 1
    ensures r[|r| - 1] == record
    ensures r[..|r| - 1] == history[|history| - (|r| - 1)..]
    ensures |history| < TradeHistoryCap ==> r == history + [record]
  {
    var r := KeepRecent(history + [record], TradeHistoryCap);
    assert r[..|r| - 1] == (history + [record])[|history| + 1 - |r|..|history|];
    r
  }

  /** `log_trade` applied to each record in turn. */
  function LogAll(history: seq<TradeRecord>, records: seq<TradeRecord>): seq<TradeRecord>
    decreases |records|
  {
    if |records| == 0 then history
    else LogTrade(LogAll(history, records[..|records| - 1]), records[|records| - 1])
  }

  /** Logging two runs of records in turn is logging their concatenation. */
  lemma {:induction false} LogAllConcat(history: seq<TradeRecord>, a: seq<TradeRecord>, b: seq<TradeRecord>)
    ensures LogAll(history, a + b) == LogAll(LogAll(history, a), b)
    decreases |b|
  {
    if |b| == 0 {
      assert a + b == a;
    } else {
      LogAllConcat(history, a, b[..|b| - 1]);
      assert (a + b)[..|a + b| - 1] == a + b[..|b| - 1];
      assert (a + b)[|a + b| - 1] == b[|b| - 1];
    }
  }

  /** Logging one more record after a run is logging the run extended by it. */
  lemma LogOneMore(history: seq<TradeRecord>, records: seq<TradeRecord>, records1: seq<TradeRecord>)
    requires |records1| == |records| + 1 && records1[..|records|] == records
    ensures LogTrade(LogAll(history, records), records1[|records|]) == LogAll(history, records1)
  {
    assert records1[..|records1| - 1] == records;
  }

  lemma AppendAssoc<T>(a: seq<T>, b: seq<T>, c: seq<T>)
    ensures a + b + c == a + (b + c)
  {
  }

  /** A run one longer than `b` that starts with `b` is `b` plus its last element. */
  lemma SnocOfPrefix<T>(a: seq<T>, b: seq<T>)
    requires |a| == |b| + 1 && a[..|b|] == b
    ensures a == b + [a[|b|]]
  {
    assert forall i | 0 <= i < |b| :: a[i] == a[..|b|][i];
  }

  /** Logging records one at a time equals appending them all and trimming once. */
  lemma {:induction false} LogAllIsOneTrim(history: seq<TradeRecord>, records: seq<TradeRecord>)
    requires |records| > 0
    ensures LogAll(history, records) == KeepRecent(history + records, TradeHistoryCap)
    decreases |records|
  {
    var last := records[|records| - 1];
    var init := records[..|records| - 1];
    assert records == init + [last];
    if |init| == 0 {
      assert LogAll(history, init) == history;
    } else {
      LogAllIsOneTrim(history, init);
      KeepRecentAppend(history + init, [last], TradeHistoryCap);
    }
    assert history + init + [last] == history + records;
  }

  /**
   * `update_excursions`: raise the best and lower the worst P&L seen to include the
   * current one; nothing else about the position changes.
   */
  function UpdateExcursions(pos: Position, pnl: real): (r: Position)
    ensures r.maxFavorablePnl >= pos.maxFavorablePnl && r.maxAdversePnl <= pos.maxAdversePnl
    ensures r.maxAdversePnl <= pnl <= r.maxFavorablePnl
    ensures r.maxFavorablePnl == pos.maxFavorablePnl || r.maxFavorablePnl == pnl
    ensures r.maxAdversePnl == pos.maxAdversePnl || r.maxAdversePnl == pnl
    ensures r.(maxFavorablePnl := pos.maxFavorablePnl, maxAdversePnl := pos.maxAdversePnl) == pos
  {
    var fav := if pnl > pos.maxFavorablePnl then pnl else pos.maxFavorablePnl;
    var adv := if pnl < pos.maxAdversePnl then pnl else pos.maxAdversePnl;
    pos.(maxFavorablePnl := fav, maxAdversePnl := adv)
  }

  function MaxOf(a: real, b: real): real { if a >= b then a else b }

  function MinOf(a: real, b: real): real { if a <= b then a else b }

  /** `update_excursions` applied to a sequence of observed P&L values. */
  function TrackExcursions(pos: Position, pnls: seq<real>): Position
    decreases |pnls|
  {
    if |pnls| == 0 then pos else UpdateExcursions(TrackExcursions(pos, pnls[..|pnls| - 1]), pnls[|pnls| - 1])
  }

  /** The largest and smallest of a non-empty sequence. */
  function Highest(s: seq<real>): real
    requires |s| > 0
  {
    if |s| == 1 then s[0] else MaxOf(Highest(s[..|s| - 1]), s[|s| - 1])
  }

  function Lowest(s: seq<real>): real
    requires |s| > 0
  {
    if |s| == 1 then s[0] else MinOf(Lowest(s[..|s| - 1]), s[|s| - 1])
  }

  /**
   * Over any run of observations the tracked excursions are exactly the extremes
   * of the starting values and everything observed.
   */
  lemma {:induction false} TrackExcursionsAreExtremes(pos: Position, pnls: seq<real>)
    requires |pnls| > 0
    ensures TrackExcursions(pos, pnls).maxFavorablePnl == MaxOf(pos.maxFavorablePnl, Highest(pnls))
    ensures TrackExcursions(pos, pnls).maxAdversePnl == MinOf(pos.maxAdversePnl, Lowest(pnls))
    decreases |pnls|
  {
    if |pnls| > 1 {
      TrackExcursionsAreExtremes(pos, pnls[..|pnls| - 1]);
    }
  }

  /** Where a closed trade's metrics came from. */
  datatype ExitReason = ManageExit(check: ManageReason) | MorningCloseout

  /**
   * One record of the metrics collection: `compute_trade_metrics` plus the keys the
   * session adds (symbol, quantity, trigger window, exit reason).
   */
  datatype ClosedTrade = ClosedTrade(
    metrics: TradeMetrics,
    symbol: Symbol,
    qty: int,
    triggerWindow: Window,
    exitReason: ExitReason,
    closedAt: Instant)
}

=== FILE: strategies.dfy ===
/**
 * The signal engine of bot/strategies.py: pure functions from prices to entry,
 * sizing and exit decisions. Reasons the source formats as strings are kept as
 * datatype values carrying the numbers they would print.
 */
module Strategies {
  import opened Wrappers
  import opened Config

  datatype Direction = Long | Short

  datatype SignalReason =
    | InvalidPriceData
    | MaxPositionsReached
    | FridayDipFade(move: real)
    | FridayBelowThreshold(move: real)
    | FadeUp(move: real)
    | FadeDown(move: real)
    | WithinBand(move: real)

  /** `(should_enter, direction, reason)`; `direction == None` is Python's `None`. */
  datatype EntrySignal = EntrySignal(shouldEnter: bool, direction: Option<Direction>, reason: SignalReason)

  /** Fractional move from the anchor close to the current price. */
  function MovePct(anchor: real, current: real): real
    requires anchor != 0.0
  {
    (current - anchor) / anchor
  }

  /** For a positive anchor, a fractional move threshold is a price level. */
  lemma MoveThresholdAsPrice(anchor: real, current: real, f: real)
    requires anchor > 0.0
    ensures MovePct(anchor, current) <= -f <==> current <= anchor * (1.0 - f)
    ensures MovePct(anchor, current) >= f <==> current >= anchor * (1.0 + f)
  {
    var m := MovePct(anchor, current);
    assert m * anchor == current - anchor;
    if m <= -f {
      assert m * anchor <= -f * anchor;
    }
    if current <= anchor * (1.0 - f) {
      assert m * anchor <= -f * anchor;
    }
    if m >= f {
      assert m * anchor >= f * anchor;
    }
    if current >= anchor * (1.0 + f) {
      assert m * anchor >= f * anchor;
    }
  }

  /**
   * `evaluate_entry_signal`: fade an extreme after-hours move. Monday to Thursday a
   * rise of at least the threshold is shorted and a fall of at least the threshold
   * is bought; on Friday only the fall is bought, so no short is carried into the
   * weekend. Invalid prices and a full book reject the entry first.
   */
  function EvaluateEntrySignal(anchor: real, current: real, isFriday: bool, activeCount: int): (r: EntrySignal)
    ensures r.shouldEnter <==> r.direction.Some?
    ensures anchor <= 0.0 || current <= 0.0 ==> r == EntrySignal(false, None, InvalidPriceData)
    ensures anchor > 0.0 && current > 0.0 && activeCount >= MaxConcurrentPositions ==>
              r == EntrySignal(false, None, MaxPositionsReached)
    ensures isFriday ==> r.direction != Some(Short)
    ensures r.direction == Some(Long) <==>
              anchor > 0.0 && current > 0.0 && activeCount < MaxConcurrentPositions
              && current <= anchor * (1.0 - ExtremeMovePct)
    ensures r.direction == Some(Short) <==>
              anchor > 0.0 && current > 0.0 && activeCount < MaxConcurrentPositions && !isFriday
              && current >= anchor * (1.0 + ExtremeMovePct)
  {
    if anchor <= 0.0 || current <= 0.0 then
      EntrySignal(false, None, InvalidPriceData)
    else if activeCount >= MaxConcurrentPositions then
      EntrySignal(false, None, MaxPositionsReached)
    else
      var move := MovePct(anchor, current);
      var threshold := ExtremeMovePct;
      MoveThresholdAsPrice(anchor, current, threshold);
      if isFriday then
        if move <= -threshold then EntrySignal(true, Some(Long), FridayDipFade(move))
        else EntrySignal(false, None, FridayBelowThreshold(move))
      else if move >= threshold then EntrySignal(true, Some(Short), FadeUp(move))
      else if move <= -threshold then EntrySignal(true, Some(Long), FadeDown(move))
      else EntrySignal(false, None, WithinBand(move))
  }

  /** Example: anchor 100, price 93, Monday-Thursday, empty book: a long "fade down". */
  lemma FadeDownExample()
    ensures EvaluateEntrySignal(100.0, 93.0, false, 0) == EntrySignal(true, Some(Long), FadeDown(-0.07))
  {
  }

  /** Example: anchor 100, price 107.5 on a Friday: no entry, no short into the weekend. */
  lemma FridayRiseIsNotFaded()
    ensures !EvaluateEntrySignal(100.0, 107.5, true, 0).shouldEnter
  {
  }

  // ───────────────────────── position sizing ─────────────────────────

  /** Losing `HardStopPct` on `qty` shares stays within the per-trade risk budget. */
  predicate WithinRiskBudget(qty: int, equity: real, entryPrice: real) {
    qty as real * entryPrice * HardStopPct <= equity * RiskPerTradePct
  }

  /** The notional of `qty` shares fits in an even share of the cash across open slots. */
  predicate WithinSlotCash(qty: int, entryPrice: real, availableCash: real, slots: int)
    requires slots > 0
  {
    qty as real * entryPrice <= availableCash / slots as real
  }

  /** `qty` respects every constraint that applies to `direction`. */
  predicate Fits(qty: int, equity: real, entryPrice: real, direction: Direction, availableCash: real, slots: int)
    requires slots > 0
  {
    WithinRiskBudget(qty, equity, entryPrice)
    && (direction == Long ==> WithinSlotCash(qty, entryPrice, availableCash, slots))
  }

  /** The inputs for which the source sizes a trade at all. */
  predicate Sizable(equity: real, entryPrice: real, direction: Direction, availableCash: real, slots: int) {
    entryPrice > 0.0 && equity > 0.0 && slots > 0 && (direction == Long ==> availableCash > 0.0)
  }

  /**
   * `compute_position_size`: the whole number of shares allowed by the risk budget
   * and, for longs only, by the per-slot cash share; zero for any non-positive input.
   * The result is the largest quantity that fits: one share more breaks a constraint.
   */
  function ComputePositionSize(equity: real, entryPrice: real, direction: Direction,
                               availableCash: real, slots: int): (qty: int)
    ensures qty >= 0
    ensures !Sizable(equity, entryPrice, direction, availableCash, slots) ==> qty == 0
    ensures qty > 0 ==> Fits(qty, equity, entryPrice, direction, availableCash, slots)
    ensures Sizable(equity, entryPrice, direction, availableCash, slots) ==>
              !Fits(qty + 1, equity, entryPrice, direction, availableCash, slots)
  {
    if entryPrice <= 0.0 || equity <= 0.0 || slots <= 0 then 0
    else
      var riskDollars := equity * RiskPerTradePct;
      var maxLossPerShare := entryPrice * HardStopPct;
      if maxLossPerShare <= 0.0 then 0
      else
        var qtyRisk := riskDollars / maxLossPerShare;
        assert qtyRisk * maxLossPerShare == riskDollars;
        if direction == Long then
          var cashPerSlot := availableCash / slots as real;
          if cashPerSlot <= 0.0 then 0
          else
            var qtyCash := cashPerSlot / entryPrice;
            assert qtyCash * entryPrice == cashPerSlot;
            var least := if qtyRisk <= qtyCash then qtyRisk else qtyCash;
            var q := least.Floor;
            SizingBounds(q, least, qtyRisk, maxLossPerShare, riskDollars);
            SizingBounds(q, least, qtyCash, entryPrice, cashPerSlot);
            if qtyRisk <= qtyCash then
              SizingMaximal(q, qtyRisk, maxLossPerShare, riskDollars);
              if q < 0 then 0 else q
            else
              SizingMaximal(q, qtyCash, entryPrice, cashPerSlot);
              if q < 0 then 0 else q
        else
          var q := qtyRisk.Floor;
          SizingBounds(q, qtyRisk, qtyRisk, maxLossPerShare, riskDollars);
          SizingMaximal(q, qtyRisk, maxLossPerShare, riskDollars);
          if q < 0 then 0 else q
  }

  /** `floor(least) * unit` stays within `budget` when `least <= budget / unit`. */
  lemma SizingBounds(q: int, least: real, bound: real, unit: real, budget: real)
    requires unit > 0.0 && bound * unit == budget
    requires least <= bound && q as real <= least
    ensures q as real * unit <= budget
  {
    assert q as real * unit <= least * unit <= bound * unit;
  }

  /** One more than `floor(bound)` units exceed `budget`. */
  lemma SizingMaximal(q: int, bound: real, unit: real, budget: real)
    requires unit > 0.0 && bound * unit == budget
    requires bound < q as real + 1.0
    ensures (q + 1) as real * unit > budget
  {
    assert (q + 1) as real * unit > bound * unit;
  }

  /** Fitting is downward closed: fewer shares fit whenever more do. */
  lemma FitsDownwardClosed(m: int, n: int, equity: real, entryPrice: real, direction: Direction,
                           availableCash: real, slots: int)
    requires entryPrice > 0.0 && slots > 0 && m <= n
    requires Fits(n, equity, entryPrice, direction, availableCash, slots)
    ensures Fits(m, equity, entryPrice, direction, availableCash, slots)
  {
    var notionalM, notionalN := m as real * entryPrice, n as real * entryPrice;
    assert notionalM <= notionalN;
    assert notionalM * HardStopPct <= notionalN * HardStopPct;
  }

  /** What fits at a price also fits at any lower positive price. */
  lemma FitsAtLowerPrice(q: int, equity: real, price1: real, price2: real, direction: Direction,
                         availableCash: real, slots: int)
    requires 0.0 < price1 <= price2 && slots > 0 && q >= 0
    requires Fits(q, equity, price2, direction, availableCash, slots)
    ensures Fits(q, equity, price1, direction, availableCash, slots)
  {
    var notional1, notional2 := q as real * price1, q as real * price2;
    assert notional1 <= notional2;
    assert notional1 * HardStopPct <= notional2 * HardStopPct;
  }

  /** Every quantity that fits is at most the computed size. */
  lemma SizeIsLargestFit(equity: real, entryPrice: real, direction: Direction,
                         availableCash: real, slots: int, n: int)
    requires Sizable(equity, entryPrice, direction, availableCash, slots)
    requires Fits(n, equity, entryPrice, direction, availableCash, slots)
    ensures n <= ComputePositionSize(equity, entryPrice, direction, availableCash, slots)
  {
    var q := ComputePositionSize(equity, entryPrice, direction, availableCash, slots);
    if n > q {
      FitsDownwardClosed(q + 1, n, equity, entryPrice, direction, availableCash, slots);
      assert false;
    }
  }

  /** More equity never buys fewer shares. */
  lemma SizeMonotoneInEquity(equity1: real, equity2: real, entryPrice: real, direction: Direction,
                             availableCash: real, slots: int)
    requires equity1 <= equity2
    ensures ComputePositionSize(equity1, entryPrice, direction, availableCash, slots)
            <= ComputePositionSize(equity2, entryPrice, direction, availableCash, slots)
  {
    var q1 := ComputePositionSize(equity1, entryPrice, direction, availableCash, slots);
    if q1 > 0 {
      assert equity1 * RiskPerTradePct <= equity2 * RiskPerTradePct;
      assert Fits(q1, equity2, entryPrice, direction, availableCash, slots);
      SizeIsLargestFit(equity2, entryPrice, direction, availableCash, slots, q1);
    }
  }

  /** A higher (positive) entry price never buys more shares. */
  lemma SizeAntitoneInPrice(equity: real, price1: real, price2: real, direction: Direction,
                            availableCash: real, slots: int)
    requires 0.0 < price1 <= price2
    ensures ComputePositionSize(equity, price2, direction, availableCash, slots)
            <= ComputePositionSize(equity, price1, direction, availableCash, slots)
  {
    var q2 := ComputePositionSize(equity, price2, direction, availableCash, slots);
    if q2 > 0 {
      FitsAtLowerPrice(q2, equity, price1, price2, direction, availableCash, slots);
      SizeIsLargestFit(equity, price1, direction, availableCash, slots, q2);
    }
  }

  /**
   * Example: equity 100000, price 50, long, cash 30000 over 3 slots. The risk budget
   * allows 800 shares, the slot cash 200: the size is 200.
   */
  lemma SizingExample()
    ensures ComputePositionSize(100000.0, 50.0, Long, 30000.0, 3) == 200
  {
    var q := ComputePositionSize(100000.0, 50.0, Long, 30000.0, 3);
    assert Fits(200, 100000.0, 50.0, Long, 30000.0, 3);
    SizeIsLargestFit(100000.0, 50.0, Long, 30000.0, 3, 200);
    assert !Fits(201, 100000.0, 50.0, Long, 30000.0, 3);
    if q > 200 {
      FitsDownwardClosed(201, q, 100000.0, 50.0, Long, 30000.0, 3);
      assert false;
    }
  }

  // ───────────────────────── overnight management ─────────────────────────

  /** The position gains when the price moves its way: up for a long, down for a short. */
  function SignedMove(entryPrice: real, currentPrice: real, direction: Direction): real {
    if direction == Long then currentPrice - entryPrice else entryPrice - currentPrice
  }

  /**
   * Direction-normalised P&L fraction, as in `check_hard_stop`, `check_profit_ceiling`,
   * `evaluate_morning_exit` and `run_manage_cycle`.
   */
  function Pnl(entryPrice: real, currentPrice: real, direction: Direction): (r: real)
    requires entryPrice != 0.0
    ensures r * entryPrice == SignedMove(entryPrice, currentPrice, direction)
  {
    if direction == Long then (currentPrice - entryPrice) / entryPrice
    else (entryPrice - currentPrice) / entryPrice
  }

  /** A long and a short opened at the same price have opposite P&L. */
  lemma PnlDirectionsOpposite(entryPrice: real, currentPrice: real)
    requires entryPrice != 0.0
    ensures Pnl(entryPrice, currentPrice, Long) == -Pnl(entryPrice, currentPrice, Short)
  {
  }

  /** For a positive entry, a P&L level is a price level. */
  lemma PnlLevelAsPrice(entryPrice: real, currentPrice: real, direction: Direction, f: real)
    requires entryPrice > 0.0
    ensures Pnl(entryPrice, currentPrice, direction) <= f <==>
              SignedMove(entryPrice, currentPrice, direction) <= f * entryPrice
    ensures Pnl(entryPrice, currentPrice, direction) >= f <==>
              SignedMove(entryPrice, currentPrice, direction) >= f * entryPrice
  {
    var p := Pnl(entryPrice, currentPrice, direction);
    if p <= f { assert p * entryPrice <= f * entryPrice; }
    if p >= f { assert p * entryPrice >= f * entryPrice; }
    if p > f { assert p * entryPrice > f * entryPrice; }
    if p < f { assert p * entryPrice < f * entryPrice; }
  }

  datatype ManageReason =
    | NoEntryPrice
    | HardStop(pnl: real)
    | PnlOnly(pnl: real)
    | BelowCeiling(pnl: real)
    | SpreadTooWide(pnl: real, spread: real)
    | VolumeTooLow(pnl: real, volume: int)
    | ProfitCeiling(pnl: real)

  /** `(fired, pnl_pct, reason)` of a stop, ceiling or overnight check. */
  datatype ManageCheck = ManageCheck(fire: bool, pnl: real, reason: ManageReason)

  /**
   * `check_hard_stop`: fires when the position has lost at least `HardStopPct`,
   * i.e. a long has fallen to 95% of entry or a short has risen to 105%.
   */
  function CheckHardStop(entryPrice: real, currentPrice: real, direction: Direction): (r: ManageCheck)
    ensures entryPrice <= 0.0 ==> r == ManageCheck(false, 0.0, NoEntryPrice)
    ensures entryPrice > 0.0 ==> r.pnl == Pnl(entryPrice, currentPrice, direction)
    ensures r.fire <==> entryPrice > 0.0 && SignedMove(entryPrice, currentPrice, direction) <= -HardStopPct * entryPrice
    ensures r.fire ==> r.reason == HardStop(r.pnl)
  {
    if entryPrice <= 0.0 then ManageCheck(false, 0.0, NoEntryPrice)
    else
      var pnl := Pnl(entryPrice, currentPrice, direction);
      PnlLevelAsPrice(entryPrice, currentPrice, direction, -HardStopPct);
      if pnl <= -HardStopPct then ManageCheck(true, pnl, HardStop(pnl))
      else ManageCheck(false, pnl, PnlOnly(pnl))
  }

  /** Example: a long from 50 at 47.40 (-5.2%) is stopped out. */
  lemma HardStopExample()
    ensures CheckHardStop(50.0, 47.4, Long).fire
  {
  }

  /** The exit conditions on liquidity: each signal, when known, must be good enough. */
  predicate LiquidityAllowsExit(spreadPct: Option<real>, recentVolume: Option<int>) {
    && (spreadPct.None? || spreadPct.value <= ProfitExitMaxSpreadPct)
    && (recentVolume.None? || recentVolume.value >= ProfitExitMinVolume)
  }

  /**
   * `check_profit_ceiling`: takes profit once the position has gained at least
   * `ProfitCeilingPct` and the quote is liquid enough; otherwise the position is held
   * for the morning exit.
   */
  function CheckProfitCeiling(entryPrice: real, currentPrice: real, direction: Direction,
                              spreadPct: Option<real>, recentVolume: Option<int>): (r: ManageCheck)
    ensures entryPrice <= 0.0 ==> r == ManageCheck(false, 0.0, NoEntryPrice)
    ensures entryPrice > 0.0 ==> r.pnl == Pnl(entryPrice, currentPrice, direction)
    ensures r.fire <==>
              entryPrice > 0.0
              && SignedMove(entryPrice, currentPrice, direction) >= ProfitCeilingPct * entryPrice
              && LiquidityAllowsExit(spreadPct, recentVolume)
    ensures r.fire ==> r.reason == ProfitCeiling(r.pnl)
  {
    if entryPrice <= 0.0 then ManageCheck(false, 0.0, NoEntryPrice)
    else
      var pnl := Pnl(entryPrice, currentPrice, direction);
      PnlLevelAsPrice(entryPrice, currentPrice, direction, ProfitCeilingPct);
      if pnl < ProfitCeilingPct then ManageCheck(false, pnl, BelowCeiling(pnl))
      else if spreadPct.Some? && spreadPct.value > ProfitExitMaxSpreadPct then
        ManageCheck(false, pnl, SpreadTooWide(pnl, spreadPct.value))
      else if recentVolume.Some? && recentVolume.value < ProfitExitMinVolume then
        ManageCheck(false, pnl, VolumeTooLow(pnl, recentVolume.value))
      else ManageCheck(true, pnl, ProfitCeiling(pnl))
  }

  /** Example: a long from 50 at 51.30 (+2.6%) with a 0.6% spread is held. */
  lemma WideSpreadDefersProfit()
    ensures !CheckProfitCeiling(50.0, 51.3, Long, Some(0.006), None).fire
    ensures CheckProfitCeiling(50.0, 51.3, Long, None, None).fire
  {
  }

  /**
   * `evaluate_overnight_management`: exit on a hard stop or on a profit-ceiling exit,
   * reporting the same P&L either way; the stop is consulted first and, when it
   * fires, its result is returned as is.
   */
  function EvaluateOvernightManagement(entryPrice: real, currentPrice: real, direction: Direction,
                                       spreadPct: Option<real>, recentVolume: Option<int>): (r: ManageCheck)
    ensures r.fire <==> CheckHardStop(entryPrice, currentPrice, direction).fire
                        || CheckProfitCeiling(entryPrice, currentPrice, direction, spreadPct, recentVolume).fire
    ensures r.pnl == CheckHardStop(entryPrice, currentPrice, direction).pnl
    ensures CheckHardStop(entryPrice, currentPrice, direction).fire ==>
              r == CheckHardStop(entryPrice, currentPrice, direction)
    ensures !CheckHardStop(entryPrice, currentPrice, direction).fire ==>
              r == CheckProfitCeiling(entryPrice, currentPrice, direction, spreadPct, recentVolume)
  {
    var stop := CheckHardStop(entryPrice, currentPrice, direction);
    if stop.fire then stop
    else
      var ceiling := CheckProfitCeiling(entryPrice, currentPrice, direction, spreadPct, recentVolume);
      if ceiling.fire then ceiling
      else ManageCheck(false, ceiling.pnl, ceiling.reason)
  }

  /** The overnight decision with the profit ceiling consulted before the stop. */
  function CeilingFirst(entryPrice: real, currentPrice: real, direction: Direction,
                        spreadPct: Option<real>, recentVolume: Option<int>): ManageCheck
  {
    var stop := CheckHardStop(entryPrice, currentPrice, direction);
    var ceiling := CheckProfitCeiling(entryPrice, currentPrice, direction, spreadPct, recentVolume);
    if ceiling.fire then ceiling
    else if stop.fire then stop
    else ManageCheck(false, ceiling.pnl, ceiling.reason)
  }

  /**
   * The order of the two overnight checks does not matter: on one price the stop and
   * the ceiling never both fire, so consulting the ceiling first gives the same decision.
   */
  lemma CheckOrderIrrelevant(entryPrice: real, currentPrice: real, direction: Direction,
                             spreadPct: Option<real>, recentVolume: Option<int>)
    ensures !(CheckHardStop(entryPrice, currentPrice, direction).fire
              && CheckProfitCeiling(entryPrice, currentPrice, direction, spreadPct, recentVolume).fire)
    ensures EvaluateOvernightManagement(entryPrice, currentPrice, direction, spreadPct, recentVolume)
            == CeilingFirst(entryPrice, currentPrice, direction, spreadPct, recentVolume)
  {
  }

  // ───────────────────────── morning exit ─────────────────────────

  datatype MorningAction = Close | NoAction

  datatype MorningReason = NoPosition | SessionEndExit(pnl: real)

  datatype MorningExit = MorningExit(action: MorningAction, pnl: real, reason: MorningReason)

  /** `evaluate_morning_exit`: every position with a positive entry is closed, whatever its P&L. */
  function EvaluateMorningExit(entryPrice: real, currentPrice: real, direction: Direction): (r: MorningExit)
    ensures r.action == Close <==> entryPrice > 0.0
    ensures entryPrice > 0.0 ==> r.pnl == Pnl(entryPrice, currentPrice, direction)
    ensures entryPrice <= 0.0 ==> r == MorningExit(NoAction, 0.0, NoPosition)
  {
    if entryPrice <= 0.0 then MorningExit(NoAction, 0.0, NoPosition)
    else
      var pnl := Pnl(entryPrice, currentPrice, direction);
      MorningExit(Close, pnl, SessionEndExit(pnl))
  }

  // ───────────────────────── trade metrics ─────────────────────────

  /** The per-trade metrics record (values kept exact, see README). */
  datatype TradeMetrics = TradeMetrics(
    anchorClose: real,
    entryPrice: real,
    exitPrice: real,
    direction: Direction,
    moveToEntryPct: real,
    rawPnlPct: real,
    frictionPct: real,
    netPnlPct: real,
    entrySpreadPct: real,
    exitSpreadPct: real,
    maxFavorableExcursion: Option<real>,
    maxAdverseExcursion: Option<real>)

  /**
   * `compute_trade_metrics`: raw P&L is direction-normalised (zero for a zero entry),
   * the net P&L subtracts the assumed friction, the anchor-to-entry move is zero for
   * a zero anchor, and missing excursions stay missing.
   */
  function ComputeTradeMetrics(entryPrice: real, exitPrice: real, direction: Direction, anchorClose: real,
                               entrySpreadPct: real, exitSpreadPct: real,
                               maxFavorable: Option<real>, maxAdverse: Option<real>): (r: TradeMetrics)
    ensures r.netPnlPct == r.rawPnlPct - AssumedFrictionPct
    ensures r.frictionPct == AssumedFrictionPct
    ensures entryPrice != 0.0 ==> r.rawPnlPct == Pnl(entryPrice, exitPrice, direction)
    ensures entryPrice == 0.0 ==> r.rawPnlPct == 0.0
    ensures r.moveToEntryPct * anchorClose == entryPrice - anchorClose || anchorClose == 0.0
    ensures anchorClose == 0.0 ==> r.moveToEntryPct == 0.0
    ensures r.maxFavorableExcursion == maxFavorable && r.maxAdverseExcursion == maxAdverse
    ensures r.entryPrice == entryPrice && r.exitPrice == exitPrice && r.anchorClose == anchorClose
    ensures r.direction == direction
    ensures r.entrySpreadPct == entrySpreadPct && r.exitSpreadPct == exitSpreadPct
  {
    var rawPnl := if entryPrice != 0.0 then Pnl(entryPrice, exitPrice, direction) else 0.0;
    var move := if anchorClose != 0.0 then (entryPrice - anchorClose) / anchorClose else 0.0;
    TradeMetrics(anchorClose, entryPrice, exitPrice, direction, move, rawPnl, AssumedFrictionPct,
                 rawPnl - AssumedFrictionPct, entrySpreadPct, exitSpreadPct, maxFavorable, maxAdverse)
  }

  /** The metrics of a morning close-out report the P&L the exit decision saw. */
  lemma MetricsAgreeWithMorningExit(entryPrice: real, exitPrice: real, direction: Direction, anchorClose: real,
                                    entrySpreadPct: real, maxFavorable: Option<real>, maxAdverse: Option<real>)
    requires entryPrice > 0.0
    ensures ComputeTradeMetrics(entryPrice, exitPrice, direction, anchorClose, entrySpreadPct, 0.0,
                                maxFavorable, maxAdverse).rawPnlPct
            == EvaluateMorningExit(entryPrice, exitPrice, direction).pnl
  {
  }
}

=== FILE: wrappers.dfy ===
/** Optional values: the model's stand-in for Python's `None`. */
module Wrappers {

  datatype Option<+T> = None | Some(value: T) {

    /** The wrapped value, or `default` when there is none (Python's `d.get(k, default)`). */
    function GetOr(default: T): T {
      match this
      case Some(v) => v
      case None => default
    }
  }
}
